=== FILE: README.md ===
# ELang AST → IR lowering, modelled in Dafny

ELang's compiler front end lowers a parsed translation unit into a
control-flow-graph IR in `src/ir/builder.rs`. The lowering works as follows:

- Every declaration's signature is lowered.
- Its name is bound in a global symbol table.
- A function body is lowered by a `FunctionBuilder`:
  - Expressions become straight-line statements that define fresh temporaries.
  - Statements append to a linear buffer of statements and block boundaries.
    A boundary is "close the open block with this terminator and open block `l`".
  - Names are bound in a stack of local scopes.
  - `&&` and `||` are desugared into blocks that go through an anonymous
    boolean stack slot.
- When the body is done, the buffer is folded into basic blocks, and a sentinel
  block is appended. A backward flood from the sentinel decides whether control
  can fall off the end of the function ("not all paths return"). Blocks that
  no jump targets are pruned.

The model keeps the same structure:

| file | module | what it holds |
|---|---|---|
| `ir.dfy` | `Ir` | IR types, values, statements, terminators, blocks, declarations; error kinds and spans |
| `ast.dfy` | `Ast` | the abstract syntax tree the lowering consumes |
| `tyck.dfy` | `Tyck` | the type-check oracle for operators and casts, passed as a value |
| `symbols.dfy` | `Symbols` | `SymbolTable` as a class; `Resolve`, the meaning of a lookup |
| `builder.dfy` | `Builder` | `FunctionBuilder` as a class, with its invariant `Valid` |
| `cfg.dfy` | `Cfg` | `to_function`: the fold, predecessor map, backward flood, return check and pruning |
| `literals.dfy` | `Literals` | `build_literal` and the character-escape decoding |
| `types.dfy` | `Types` | `build_type` |
| `lowering.dfy` | `ExprLowering` | `build_expression`, `build_lvalue_to_rvalue` |
| `stmts.dfy` | `StmtLowering` | `build_statement`, `build_compound_statement` |
| `decls.dfy` | `DeclLowering` | `build_declaration`, `build_translation_unit` |

The parts that update state in place are classes and methods with `modifies`
frames: the symbol table, the function builder, the fold and flood loops,
the escape-decoding loop and the lowering walk. The methods are proved against
pure specification functions:

- `Resolve`, the meaning of a lookup;
- `Fold`, `PredMap`, `Reaches` and `AssembleSpec`, the meaning of assembly;
- `Unescape` and `LiteralSpec`, the meaning of a literal;
- `BuildAll` and `Signature`, the meaning of a signature.

`build_type` is a function, since the source is plain recursion.

The short-circuit operators do not type-check their operands. The left value
feeds a conditional branch, and the right value is stored into the boolean
slot, whatever their types. The model does the same.

## Model

| member | source | states |
|---|---|---|
| Symbols.Resolve | src/ir/builder.rs:48-60 | (specification of a lookup) the innermost local scope binding the name wins and yields `(LValue(T), LocalVarLoad(id))`; otherwise a global yields `(T, GlobalLoad(name))`; otherwise nothing |
| Symbols.ResolveInnermost | src/ir/builder.rs:48-54 | a name bound in scope k and in no inner scope resolves to scope k's binding, whatever outer scopes and the globals say (shadowing) |
| Symbols.ResolveFallsBackToGlobals | src/ir/builder.rs:54-59 | a name no local scope binds resolves through the globals as `(T, GlobalLoad(name))`, or to nothing |
| Symbols.ResolveKinds | src/ir/builder.rs:48-60 | a lookup's answer is a storage location taken from some local scope, or the global's own type with a global load, or nothing exactly when no scope and no global binds the name |
| Symbols.SymbolTable.constructor | src/ir/builder.rs:20-25 | a new table has no globals and no scopes |
| Symbols.SymbolTable.StartLocalScope | src/ir/builder.rs:27-29 | pushes one empty scope |
| Symbols.SymbolTable.EndLocalScope | src/ir/builder.rs:31-33 | pops the innermost scope; popping an empty stack leaves it empty |
| Symbols.SymbolTable.RegisterLocal | src/ir/builder.rs:35-42 | answers false exactly when the innermost scope already binds the name (outer scopes do not count); the binding is replaced either way; the other scopes are unchanged |
| Symbols.SymbolTable.RegisterGlobal | src/ir/builder.rs:44-46 | answers false exactly when the name is already global; the binding is replaced either way |
| Symbols.SymbolTable.GetVar | src/ir/builder.rs:48-60 | the scan innermost-first, then the globals, answers exactly `Resolve` of the table's contents |
| Builder.LabelsBelowMonotone | src/ir/builder.rs:805-809 | labels handed out below a bound stay below any larger bound |
| Builder.FunctionBuilder.constructor | src/ir/builder.rs:679-691 | empty buffer and slots, no loop context, temporaries from 0, labels from 1; the invariant holds |
| Builder.FunctionBuilder.NewTempValue | src/ir/builder.rs:799-803 | returns the current temporary counter and increments it, so temporaries are fresh and increasing |
| Builder.FunctionBuilder.NewLabel | src/ir/builder.rs:805-809 | returns the current label counter and increments it; never label 0; keeps the invariant |
| Builder.FunctionBuilder.PushTerminatorLabel | src/ir/builder.rs:811-813 | appends exactly one boundary; keeps the invariant when its labels were handed out |
| Builder.FunctionBuilder.PushTerminator | src/ir/builder.rs:815-818 | consumes exactly one fresh label and appends the boundary opening it |
| Builder.FunctionBuilder.PushStatement | src/ir/builder.rs:820-822 | appends exactly one statement |
| Builder.FunctionBuilder.RegisterParam | src/ir/builder.rs:824-835 | binds the name in the innermost scope to a slot with the next id, appends that slot with its parameter index, and answers whether the name was new there; slot ids stay equal to their positions |
| Builder.FunctionBuilder.RegisterLocalVariable | src/ir/builder.rs:837-839 | a parameter registration without a parameter index |
| Builder.FunctionBuilder.RegisterLocalLogical | src/ir/builder.rs:841-851 | appends a `Bool` slot without a parameter index and leaves the symbol table alone (it is outside the frame) |
| Builder.FunctionBuilder.ToFunction | src/ir/builder.rs:693-797 | the declaration is named and typed as the builder, with its slots and the blocks `AssembleSpec` yields, or `AssembleSpec`'s error |
| Cfg.Fold | src/ir/builder.rs:706-728 | every block the fold closes has a real terminator |
| Cfg.FoldBlocks | src/ir/builder.rs:706-728 | one closed block per boundary; block k has id 0 (k = 0) or the label the previous boundary opened; it ends with the boundary's terminator, or `Br(label)` on fall-through; the open block carries the last boundary's label |
| Cfg.FoldStatements | src/ir/builder.rs:706-728 | the statements of the closed blocks, then of the open block, concatenated, are exactly the buffer's statements in push order |
| Cfg.FoldShape | src/ir/builder.rs:706-734 | one closed block per boundary; block k has id 0 (k = 0) or the label the previous boundary opened; it ends with the boundary's terminator, or `Br(label)` on fall-through; block k holds exactly the statements between boundary k - 1 (or the start) and boundary k; the open block holds those after the last boundary |
| Cfg.MarkerIndicesMeaning | src/ir/builder.rs:710-727 | the recorded positions are those of the boundaries, one per boundary, in increasing order |
| Cfg.FoldSegments | src/ir/builder.rs:706-728 | block k holds exactly the statements strictly between boundary k - 1 (or the start) and boundary k; the open block holds the statements after the last boundary |
| Cfg.SegmentsPush | src/ir/builder.rs:710-726 | one more entry keeps that: a statement joins the open block; a boundary closes it with the last segment's statements and opens an empty block |
| Cfg.FoldEntry | src/ir/builder.rs:706-724 | the first block has id 0 |
| Cfg.Sealed | src/ir/builder.rs:730-734 | the block list ends with the sentinel, which has no real terminator |
| Cfg.Markers | src/ir/builder.rs:713-725 | the boundaries of a buffer, in order |
| Cfg.PredMapMeaning | src/ir/builder.rs:737-752 | x is recorded as a predecessor of t exactly when block x jumps to t with `Br` or `BrCond`; recorded sets are never empty |
| Cfg.AddEdgesMeaning | src/ir/builder.rs:738-751 | one block's contribution to the predecessor map is exactly its jump targets |
| Cfg.BuildPreds | src/ir/builder.rs:737-752 | the loop over the blocks builds exactly `PredMap` |
| Cfg.ReachesSelf | src/ir/builder.rs:754-756 | every block reaches itself |
| Cfg.ReachesStep | src/ir/builder.rs:758-764 | reachability extends backwards along one edge |
| Cfg.NoPredsReachedOnlyFromItself | src/ir/builder.rs:758-763 | a block without predecessors is reached from no other block |
| Cfg.ClosedContainsReaching | src/ir/builder.rs:754-766 | a set that contains the target and is closed under predecessors contains the start of every path to the target |
| Cfg.PushUnvisited | src/ir/builder.rs:760-764 | the loop over a block's predecessors appends exactly the unvisited ones and keeps the worklist's old entries |
| Cfg.FloodStep | src/ir/builder.rs:758-765 | one worklist step keeps the flood's invariant |
| Cfg.BackwardFlood | src/ir/builder.rs:754-766 | the worklist flood from the sentinel ends with exactly the blocks that reach it |
| Cfg.FloodShrinks | src/ir/builder.rs:765 | marking a block visited either changes nothing or shrinks what is left to visit (termination) |
| Cfg.FloodDone | src/ir/builder.rs:754-766 | once the worklist is empty the visited set is exactly the blocks reaching the sentinel |
| Cfg.Retained | src/ir/builder.rs:777 | keeps exactly the blocks with id 0 or a non-empty predecessor set, and no others |
| Cfg.Assemble | src/ir/builder.rs:693-797 | the method (fold loop, flood, check, pop, retain) answers exactly `AssembleSpec`: the "not all paths return" error exactly when block 0 reaches the sentinel, otherwise the retained blocks without the sentinel |
| Cfg.EntryComesFirst | src/ir/builder.rs:768-777 | a successful assembly is non-empty and starts with block 0 |
| Cfg.ReachableBlocksKept | src/ir/builder.rs:777 | a block reachable from block 0 survives pruning |
| Cfg.FreshSentinelAssembles | src/ir/builder.rs:145-155 | a buffer ending with a boundary that opens a non-zero label no jump targets always assembles (this is why the synthesised unit return makes assembly succeed) |
| Literals.EscapeCode | src/ir/builder.rs:595-606 | only the ten listed escape letters have a code; a backslash has none |
| Literals.Utf8LengthOne | src/ir/builder.rs:616-621 | the UTF-8 byte length is 0 exactly for the empty text and 1 exactly for a single ASCII character |
| Literals.CharFromDecoded | src/ir/builder.rs:616-622 | Ok exactly for one ASCII character, which becomes its byte; the empty text is the "empty" error; any other non-empty text is the "multiple characters" error; every error blames the literal's span |
| Literals.BuildLiteral | src/ir/builder.rs:584-625 | the character loop with its backslash flag computes exactly `LiteralSpec`; the other literal forms map to themselves |
| Literals.PlainTextUnchanged | src/ir/builder.rs:609-613 | text without backslashes decodes to itself |
| Literals.TrailingBackslashDropped | src/ir/builder.rs:609-610 | a lone backslash at the end is dropped silently |
| Literals.EscapeRoundTrip | src/ir/builder.rs:594-607 | escaping and then decoding gives back any text without backslashes |
| Literals.SingleEscape | src/ir/builder.rs:594-607 | a backslash and an accepted letter give that letter's code as one byte; any other letter (a backslash included) is an invalid escape |
| Literals.SinglePlainChar | src/ir/builder.rs:611-621 | one plain character is accepted exactly when it is ASCII; otherwise it is too long in bytes |
| Literals.UnescapeShrinks | src/ir/builder.rs:591-615 | decoding never lengthens the text |
| Types.BuildType | src/ir/builder.rs:637-657 | fails exactly when the innermost component is a name other than `int`, `double`, `bool`, `char`, and then blames that component's span; the result is writable and holds no storage-location type |
| Types.BuildUnparse | src/ir/builder.rs:637-657 | every writable type is produced from its own syntax |
| ExprLowering.BuildLvalueToRvalue | src/ir/builder.rs:627-635 | a storage location of type T gets one fresh temporary of type T, defined by one load; any other value comes back unchanged and nothing is emitted |
| ExprLowering.BuildOperand | src/ir/builder.rs:228-229 | an operand lowered and read as a value: a fresh temporary defined by one of the entries appended |
| ExprLowering.BuildExpression | src/ir/builder.rs:339-582 | keeps the builder's invariant; the buffer, slots and counters only grow; the loop context is untouched; a result is a temporary handed out during this lowering and defined by one of the entries it appends; an array literal is rejected as unimplemented and emits nothing |
| ExprLowering.EvaluateOperand | src/ir/builder.rs:366-369 | one more operand lowered and read after the earlier ones: its value is fresh and defined in the segment appended right after theirs, so the order of evaluation is kept |
| ExprLowering.BuildAssign | src/ir/builder.rs:343-364 | on success the last entry stores the right side's value through a storage location of exactly that type, and that value is the result; the location is defined in the first segment appended (the left side) and the stored value in the second (the right side, read as a value), numbered in that order |
| ExprLowering.BuildSubscript | src/ir/builder.rs:365-390 | on success the array has an array type, the index is an int, and the result, a fresh storage location of the element type, is defined by the last entry; the array value is defined in the first segment appended and the index value in the second, in that order |
| ExprLowering.BuildAnd | src/ir/builder.rs:392-424 | on success: one fresh `Bool` slot without a parameter index; three fresh labels t, t+1, t+2; the left operand's value lv is defined before entry i, which branches on lv to t or t+1; block t defines the right operand's value rv and stores it, block t+1 stores false; both jump to t+2, which reads the slot into the result; lv, rv and the result are fresh in that order |
| ExprLowering.AndRest | src/ir/builder.rs:397-423 | the part of `&&` after the left operand: the branch on the given left value is the first entry appended, and the right value rv is defined after it and before the tail, so the right operand is evaluated only in block t |
| ExprLowering.AndRight | src/ir/builder.rs:403-423 | block t of `&&`: the right operand's value is fresh and defined among the entries appended before the nine-entry tail that stores it |
| ExprLowering.BuildOr | src/ir/builder.rs:425-457 | as for `&&`, with lv defined before the branch on it, but block t stores true and block t+1 defines the right operand's value rv and stores it |
| ExprLowering.OrRest | src/ir/builder.rs:430-456 | the part of `\|\|` after the left operand: the branch on the given left value is the first entry appended, then block t storing true, then rv defined before the tail, so the right operand is evaluated only in block t+1 |
| ExprLowering.OrRight | src/ir/builder.rs:444-456 | block t+1 of `\|\|`: the right operand's value is fresh and defined among the entries appended before the five-entry tail that stores it |
| ExprLowering.BranchOnLeft | src/ir/builder.rs:397-401 | hands out three consecutive fresh labels and branches on the left value to the first two |
| ExprLowering.StoreConstant | src/ir/builder.rs:411-415 | appends a constant, the slot's address, and the store |
| ExprLowering.StoreOperand | src/ir/builder.rs:405-407 | appends the slot's address and the store of exactly the given value through it |
| ExprLowering.LoadSlot | src/ir/builder.rs:419-421 | appends the slot's address and a load into a fresh `Bool` temporary |
| ExprLowering.FinishAnd | src/ir/builder.rs:405-421 | appends the `&&` tail: store the given right value into the slot, jump, store false, jump, read the slot into a fresh temporary |
| ExprLowering.StartOr | src/ir/builder.rs:436-443 | appends the `\|\|` true block: store true, jump to the join label |
| ExprLowering.FinishOr | src/ir/builder.rs:447-453 | appends the `\|\|` tail: store the given right value into the slot, jump, read the slot into a fresh temporary |
| ExprLowering.BuildArith | src/ir/builder.rs:458-478 | on success the last entry applies the operation the oracle chose for the operand types, and the result has the oracle's type; its left operand is defined in the first segment appended and its right operand in the second, so the operands are neither swapped nor made up |
| ExprLowering.BuildUnary | src/ir/builder.rs:480-497 | on success the last entry applies the operation the oracle chose for the operand's type, and the result has the oracle's type; under address-of the operator gets the operand's value itself, a storage location included; otherwise a storage location is first read into a fresh temporary of its stored type; the operand is defined among the entries appended before the last |
| ExprLowering.BuildCall | src/ir/builder.rs:498-531 | on success the callee has a function type, the argument values' types are exactly its parameter types in order, and the result has its return type; the callee and then each argument, in order, is defined in its own consecutive segment of the entries appended |
| ExprLowering.BuildCast | src/ir/builder.rs:532-548 | on success the target type lowers to the result's type and the oracle accepts the cast; the cast's source is a fresh value defined among the entries appended before the last |
| ExprLowering.BuildIdentifier | src/ir/builder.rs:550-561 | an unknown name is an error and emits nothing; otherwise one fresh temporary is defined by the lookup's expression with the lookup's type |
| ExprLowering.BuildLiteralValue | src/ir/builder.rs:562-574 | a literal that does not decode is its error and emits nothing; otherwise one fresh temporary of the literal's type is defined by it |
| StmtLowering.BuildCompound | src/ir/builder.rs:164-173 | on success the scope stack and the loop context are as before; the invariant holds and the builder only grows |
| StmtLowering.BuildStatement | src/ir/builder.rs:175-337 | on success the loop context is as before, and only a `let` changes the scope stack, and then only its innermost scope |
| StmtLowering.BuildLet | src/ir/builder.rs:180-209 | the initialiser's value is a fresh temporary defined by the entries appended; all outcomes: the initialiser's error; the written type's error; a type mismatch with that value; a name already bound in the innermost scope; otherwise the name is bound to a fresh slot of the type, resolves to it from then on, and that value is written through its address |
| StmtLowering.BindLet | src/ir/builder.rs:191-202 | a name already bound in the innermost scope is rejected; otherwise it is bound to a fresh slot of the type, resolves to it, and the value is written through the slot's address |
| StmtLowering.BuildCondition | src/ir/builder.rs:228-236 | the condition's value is a fresh temporary defined by the entries appended; the condition is accepted exactly when that value is a bool; otherwise the error blames the condition |
| StmtLowering.BuildLoopBody | src/ir/builder.rs:215-220 | on success the enclosing loop context and the scopes are restored, and the body ends with the jump back to the continue label that opens the break block |
| StmtLowering.BuildLoop | src/ir/builder.rs:210-222 | the loop opens a fresh block c; the body ends with a jump back to c that opens block c+1; the scopes and loop context are restored |
| StmtLowering.BuildWhile | src/ir/builder.rs:223-250 | as for `loop`, plus: the condition's value is defined inside block c, before a conditional branch on it to the body's block b or to b+1, past the loop; a non-bool condition, defined by the entries appended, is rejected at its span |
| StmtLowering.WhileRest | src/ir/builder.rs:227-249 | the condition's value, defined by the entries appended before the branch, must be a bool, and the branch on it goes to the body's block b or to b+1; the body ends by jumping back to the continue block; a non-bool condition is rejected at its span |
| StmtLowering.LoopOnCondition | src/ir/builder.rs:238-247 | the branch on the given condition value to a fresh body block b or b+1 is the first entry appended; the body ends by jumping back to the continue block, opening b+1; scopes and loop context restored |
| StmtLowering.BuildBranch | src/ir/builder.rs:261-277 | the condition's value is fresh and defined by the entries appended before entry k, which branches on it to a fresh body block l or the fresh else block l+1; the body; then the jump to the join label that opens l+1; a non-bool condition is rejected at its span |
| StmtLowering.BranchOn | src/ir/builder.rs:272-277 | the branch on the given condition value to a fresh block l or l+1 is the first entry appended; the body then ends with the jump to the join label that opens l+1 |
| StmtLowering.BuildBranches | src/ir/builder.rs:256-278 | the branches in order: every condition lowered before a failure is a bool except possibly the last, which is then blamed and is defined by the entries appended; branch j's condition is defined after branch j-1's jump to the join label, that is, in its else block, before the branch on it into its own block or else block; each branch ends with a jump to the join label |
| StmtLowering.BuildIf | src/ir/builder.rs:251-286 | every condition is a bool, and the first non-bool one, defined by the entries appended, is rejected at its span; each branch's condition is defined in the previous branch's else block before the conditional branch on it, and each branch jumps to the join label handed out first, in order; the join block is opened last; the scopes and loop context are restored |
| StmtLowering.FinishIf | src/ir/builder.rs:279-285 | the `else` body, then the join block opened by falling through, and the branches' scope closed |
| StmtLowering.BuildBreak | src/ir/builder.rs:287-297 | rejected exactly outside a loop, emitting nothing; otherwise one jump to the loop's break label that opens a fresh block |
| StmtLowering.BuildContinue | src/ir/builder.rs:298-308 | rejected exactly outside a loop, emitting nothing; otherwise one jump to the loop's continue label that opens a fresh block |
| StmtLowering.BuildReturn | src/ir/builder.rs:309-330 | the returned value is a fresh temporary defined by the entries appended, the unit temporary of a bare `return` included; it is accepted exactly when it has the function's return type and then ends the block with `Ret`; a mismatch blames the expression, or the statement when there is none |
| DeclLowering.BuildAll | src/ir/builder.rs:86-89 | all types lower, pointwise, or the error of the first that fails |
| DeclLowering.BuildTypes | src/ir/builder.rs:86-89 | the parameter-type loop computes exactly `BuildAll` |
| DeclLowering.Signature | src/ir/builder.rs:111-123 | the return type is lowered first and its error wins; then the parameter types |
| DeclLowering.RegisterParams | src/ir/builder.rs:133-141 | succeeds exactly when no parameter name is bound in the scope or by an earlier parameter; otherwise the first clashing parameter is blamed at its name; on success every parameter is bound to its own slot |
| DeclLowering.RegisterNext | src/ir/builder.rs:134-141 | one parameter is registered; it is new exactly when it does not clash, and then it is bound to slot base + j |
| DeclLowering.ClashesIffBound | src/ir/builder.rs:134-141 | a parameter clashes exactly when its name is in the scope extended by the earlier parameters |
| DeclLowering.PushUnitReturn | src/ir/builder.rs:144-155 | appends exactly a unit temporary's assignment and a unit `return` opening a block under a label handed out only now; with that, any buffer assembles, because no jump reaches the sentinel |
| DeclLowering.LowerBody | src/ir/builder.rs:143-159 | body, trailing unit `return`, end of the parameter scope and assembly: the ghost buffer is the builder's buffer and the result is what assembling it yields, a unit function always assembles, and only the innermost scope is popped |
| DeclLowering.BuildFunction | src/ir/builder.rs:132-160 | `FunctionLowered`: the first parameter whose name is taken is blamed at its name, and one is blamed exactly when some parameter clashes; once the body lowers, the result is what assembling the buffer yields, with the parameters' slots first; a unit function always assembles, because its buffer ends with a synthesised `return ()`; the scope stack is restored |
| DeclLowering.BuildDeclaration | src/ir/builder.rs:75-162 | a signature error comes first; then a name already global is rejected at the declaration; otherwise the name is bound globally to its signature; an external function is then complete, and a function is lowered exactly as `BuildFunction` states (parameter clash, slots, assembled body); a result lowers the declaration, and an error is one `DeclFails` allows |
| DeclLowering.LoweredExtend | src/ir/builder.rs:63-73 | appending one lowered declaration under a new name keeps the unit lowered in order and its names distinct |
| DeclLowering.LowerNext | src/ir/builder.rs:68-69 | one loop step: a lowered declaration extends the lowered prefix and its name joins the global names, which are exactly the names lowered so far; an error is declaration j's failure after the prefix lowered |
| DeclLowering.ExternsNeverFail | src/ir/builder.rs:75-100 | an external function with a lowered signature and a name of its own cannot be where a unit fails |
| DeclLowering.BuildTranslationUnit | src/ir/builder.rs:63-73 | a lowered unit lowers each input declaration in order (same kind, name and signature; for a function, clash-free parameters whose slots come first), under distinct names; an error is the failure of some declaration after all before it lowered; a unit of external functions with lowered signatures and distinct names lowers to exactly those functions |

## Left out

- Integer widths: counters, slot ids and labels are `usize` in the source and unbounded here. Wrap-around after 2^64 allocations is not modelled.
- Iteration order of the predecessor sets in the flood: the model visits predecessors in an unspecified order. Only the final visited set matters, and it is the same for every order.
- clippy_runner.py is not part of this model. It only runs an external linter.
- Diagnostics carry an error kind and the blamed span; the message text is not modelled.
- `Double` literal payloads are opaque values with no arithmetic.
- Array literals panic (`unimplemented!()`) in the source. The model rejects them with an `Unimplemented` error instead.
- The type checker for operators and casts (`ir::tyck`) is not part of this model. It is a parameter `Tyck.Oracle` of total functions, and contracts are stated relative to it.
- The parser and the `ast`/`ir` module definitions are not part of this model. `Ast` and `Ir` mirror only the forms the lowering uses.
- The builder's borrowed `&mut SymbolTable` is a shared object reference.
- ExprLowering.BuildExpression: the dispatcher states the invariant, growth, that its result is fresh and defined by an entry it appends, and the rejection of array literals. The shape of each expression form is stated by the method for that form, not restated here. Which error a failing sub-expression produces is not stated beyond being propagated.
- ExprLowering.BuildAssign, ExprLowering.BuildSubscript, ExprLowering.BuildArith, ExprLowering.BuildUnary, ExprLowering.BuildCall and ExprLowering.BuildCast: their contracts state the success shape only. Their rejection cases (mismatching types, a non-location target, non-callable callee) are modelled in the bodies but not stated as ensures.
- ExprLowering.BuildAssign, ExprLowering.BuildSubscript, ExprLowering.BuildArith, ExprLowering.BuildUnary, ExprLowering.BuildCall, ExprLowering.BuildCast, ExprLowering.EvaluateOperand, ExprLowering.BuildAnd, ExprLowering.BuildOr, ExprLowering.AndRest, ExprLowering.OrRest, ExprLowering.AndRight, ExprLowering.OrRight, StmtLowering.BuildCondition, StmtLowering.BuildLet, StmtLowering.BuildReturn, StmtLowering.WhileRest, StmtLowering.BuildBranch, StmtLowering.BuildBranches and StmtLowering.BuildIf: an operand's value is tied to its sub-expression only by position. It is a fresh temporary, defined by an entry in the segment of the buffer that lowering the operand appended, and the segments and temporaries follow the source's evaluation order. That the defining entry computes the sub-expression is not stated, because the model gives expression lowering no reference semantics.
- DeclLowering.BuildDeclaration and DeclLowering.BuildTranslationUnit: the error of a function whose parameters do not clash (from its body or from "not all paths return") is not characterised beyond being that function's; the assembled body is stated in terms of the buffer, not of the body's statements.
- StmtLowering.BuildStatement: requires an open scope. The source unwraps the innermost scope when binding a `let`, and statements only occur inside compound statements, which always open one.
- StmtLowering.BuildLoopBody: does not state the loop context the body is lowered under. The body's own `break` and `continue` jumps are not related to it, because the emitted entries do not record which statement produced a jump.
- StmtLowering.BuildLoop and StmtLowering.BuildWhile: that `break` and `continue` inside the body jump to this loop's labels is not stated. `BuildBreak` and `BuildContinue` state the jump to the loop context in force, but no contract states which context is in force while the body is lowered.
- On an error the source returns early, leaving scopes pushed and the loop context set. The model does the same, but its contracts promise nothing about scopes or loop context after an error, since the whole unit is abandoned.
- Cfg.Retained: its contract states which blocks are kept. That they stay in their original order follows from its definition as a filter, but is not stated.

=== FILE: ast.dfy ===
/** The abstract syntax tree consumed by the lowering pass. The parser and the
    `ast` module are not part of this model; these datatypes mirror the forms
    that src/ir/builder.rs matches on. Every node that can be blamed in a
    diagnostic carries its span. */
module Ast {
  import Ir

  datatype ParseType = ParseType(kind: ParseTypeKind, span: Ir.Span)

  datatype ParseTypeKind =
    | UnitTy
    | ArrayTy(sub: ParseType, size: nat)
    | PtrTy(sub: ParseType)
    | LitTy(name: string)

  datatype Literal =
    | UnitLit
    | IntLit(i: int)
    | DoubleLit(d: Ir.DoubleBits)
    | BoolLit(b: bool)
    | CharLit(text: string)

  /** Binary operator codes; the non-logical ones are only forwarded to the type-check oracle. */
  datatype BinOpCode = LogicalAnd | LogicalOr | OtherBinOp(code: nat)

  /** Unary operator codes; only address-of is treated specially by the lowering. */
  datatype UnOpCode = AddressOf | OtherUnOp(code: nat)

  datatype Expr = Expr(inner: ExprKind, span: Ir.Span)

  datatype ExprKind =
    | Assign(lhs: Expr, rhs: Expr)
    | Subscript(arr: Expr, index: Expr)
    | BinOp(op: BinOpCode, lhs: Expr, rhs: Expr)
    | UnOp(uop: UnOpCode, operand: Expr)
    | FuncCall(callee: Expr, args: seq<Expr>)
    | Cast(operand: Expr, target: ParseType)
    | Paren(expr: Expr)
    | Identifier(name: string)
    | Literal(lit: Literal)
    | ArrayFullLiteral(elems: seq<Expr>)
    | ArrayDefaultLiteral(init: Expr, count: nat)

  datatype Compound = Compound(stmts: seq<Stmt>, span: Ir.Span)

  datatype Branch = Branch(cond: Expr, body: Compound)

  datatype Stmt = Stmt(inner: StmtKind, span: Ir.Span)

  datatype StmtKind =
    | Block(body: Compound)
    | Let(name: string, ty: Ir.Option<ParseType>, init: Expr)
    | Loop(body: Compound)
    | While(cond: Expr, body: Compound)
    | If(ifBranch: Branch, elseIfs: seq<Branch>, elseBranch: Ir.Option<Compound>)
    | Break
    | Continue
    | Return(value: Ir.Option<Expr>)
    | ExprStmt(expr: Expr)

  datatype Param = Param(name: string, nameSpan: Ir.Span, ty: ParseType)

  datatype Declaration =
    | ExternFunction(name: string, paramTys: seq<ParseType>, returnTy: ParseType, span: Ir.Span)
    | Function(name: string, params: seq<Param>, returnTy: ParseType, body: Compound, span: Ir.Span)

  datatype TranslationUnit = TranslationUnit(declarations: seq<Declaration>)
}

=== FILE: builder.dfy ===
/** Per-function lowering state (`FunctionBuilder`): counters for temporaries,
    labels and stack slots, the append-only item buffer, the slot
    descriptors, and the (continue, break) labels of the innermost loop. */
module Builder {
  import opened Ir
  import Cfg
  import opened Symbols

  /** Every label a buffer entry mentions was handed out before `bound`, and
      none of them is the entry block 0. */
  predicate LabelsBelow(it: Cfg.Item, bound: nat)
  {
    it.Marker? ==>
      && 1 <= it.opens < bound
      && forall x :: x in Targets(Cfg.CloseWith(it.term, it.opens)) ==> 1 <= x < bound
  }

  lemma LabelsBelowMonotone(items: seq<Cfg.Item>, bound: nat, bound': nat)
    requires bound <= bound'
    requires forall k :: 0 <= k < |items| ==> LabelsBelow(items[k], bound)
    ensures forall k :: 0 <= k < |items| ==> LabelsBelow(items[k], bound')
  {
  }

  class FunctionBuilder {
    const name: string
    const ty: FunctionType
    const symbolTable: SymbolTable
    var locals: seq<LocalVar>
    var items: seq<Cfg.Item>
    var localCounter: nat
    var labelCounter: nat
    var currentTempId: nat
    /** The (continue, break) labels of the innermost enclosing loop. */
    var currentLoopInfo: Option<(BlockId, BlockId)>

    /** The builder's invariant: label 0 is reserved for the entry block, slot
        descriptors sit at the index of their own id, and every label in the
        buffer or the loop context was handed out already. */
    ghost predicate Valid()
      reads this`labelCounter, this`localCounter, this`locals, this`items, this`currentLoopInfo
    {
      && labelCounter >= 1
      && localCounter == |locals|
      && (forall i :: 0 <= i < |locals| ==> locals[i].id == i)
      && (forall k :: 0 <= k < |items| ==> LabelsBelow(items[k], labelCounter))
      && (currentLoopInfo.Some? ==>
            1 <= currentLoopInfo.value.0 < labelCounter && 1 <= currentLoopInfo.value.1 < labelCounter)
    }

    /** A label the builder has handed out. */
    predicate Allocated(l: BlockId)
      reads this`labelCounter
    {
      1 <= l < labelCounter
    }

    constructor (name: string, ty: FunctionType, st: SymbolTable)
      ensures Valid()
      ensures this.name == name && this.ty == ty && symbolTable == st
      ensures locals == [] && items == [] && currentLoopInfo == None
      ensures localCounter == 0 && labelCounter == 1 && currentTempId == 0
    {
      this.name := name;
      this.ty := ty;
      symbolTable := st;
      locals := [];
      items := [];
      localCounter := 0;
      labelCounter := 1;
      currentTempId := 0;
      currentLoopInfo := None;
    }

    /** A temporary never handed out before: ids grow by one per call. */
    method NewTempValue(t: Type) returns (v: Value)
      modifies this`currentTempId
      ensures v == Value(old(currentTempId), t)
      ensures currentTempId == old(currentTempId) + 1
    {
      v := Value(currentTempId, t);
      currentTempId := currentTempId + 1;
    }

    /** A label never handed out before; it is never the entry block. */
    method NewLabel() returns (l: BlockId)
      modifies this`labelCounter
      ensures l == old(labelCounter) && labelCounter == l + 1
      ensures old(Valid()) ==> Valid() && l >= 1
    {
      ghost var wasValid := Valid();
      l := labelCounter;
      labelCounter := labelCounter + 1;
      if wasValid {
        LabelsBelowMonotone(items, l, labelCounter);
      }
    }

    /** Closes the open block with `t` (fall through when `None`) and opens block `l`. */
    method PushTerminatorLabel(t: Option<Terminator>, l: BlockId)
      modifies this`items
      ensures items == old(items) + [Cfg.Marker(t, l)]
      ensures old(Valid()) && LabelsBelow(Cfg.Marker(t, l), labelCounter) ==> Valid()
    {
      items := items + [Cfg.Marker(t, l)];
    }

    /** Closes the open block with `t` and opens a block under a fresh label. */
    method PushTerminator(t: Option<Terminator>)
      modifies this`items, this`labelCounter
      ensures labelCounter == old(labelCounter) + 1
      ensures items == old(items) + [Cfg.Marker(t, old(labelCounter))]
      ensures old(Valid()) && (t.Some? ==> forall x :: x in Targets(t.value) ==> old(Allocated(x))) ==> Valid()
    {
      var l := NewLabel();
      PushTerminatorLabel(t, l);
    }

    method PushStatement(s: Statement)
      modifies this`items
      ensures items == old(items) + [Cfg.Stmt(s)]
      ensures old(Valid()) ==> Valid()
    {
      items := items + [Cfg.Stmt(s)];
    }

    /** Gives `name` a fresh stack slot in the innermost scope. The answer is
        false when the innermost scope already bound the name; the slot is
        created and the binding replaced either way. */
    method RegisterParam(name: string, t: Type, paramIndex: Option<nat>) returns (isNew: bool)
      requires |symbolTable.locals| > 0
      modifies this`locals, this`localCounter, symbolTable`locals
      ensures isNew == (name !in old(symbolTable.locals)[|old(symbolTable.locals)| - 1])
      ensures symbolTable.locals ==
              old(symbolTable.locals)[..|old(symbolTable.locals)| - 1] +
              [old(symbolTable.locals)[|old(symbolTable.locals)| - 1][name := (old(localCounter), t)]]
      ensures locals == old(locals) + [LocalVar(old(localCounter), t, paramIndex)]
      ensures localCounter == old(localCounter) + 1
      ensures old(Valid()) ==> Valid()
    {
      isNew := symbolTable.RegisterLocal(name, t, localCounter);
      locals := locals + [LocalVar(localCounter, t, paramIndex)];
      localCounter := localCounter + 1;
    }

    /** A named local variable: a parameter slot without a parameter index. */
    method RegisterLocalVariable(name: string, t: Type) returns (isNew: bool)
      requires |symbolTable.locals| > 0
      modifies this`locals, this`localCounter, symbolTable`locals
      ensures isNew == (name !in old(symbolTable.locals)[|old(symbolTable.locals)| - 1])
      ensures symbolTable.locals ==
              old(symbolTable.locals)[..|old(symbolTable.locals)| - 1] +
              [old(symbolTable.locals)[|old(symbolTable.locals)| - 1][name := (old(localCounter), t)]]
      ensures locals == old(locals) + [LocalVar(old(localCounter), t, None)]
      ensures localCounter == old(localCounter) + 1
      ensures old(Valid()) ==> Valid()
    {
      isNew := RegisterParam(name, t, None);
    }

    /** An anonymous boolean slot for a short-circuit operator; no name is
        bound, so the symbol table is left alone. */
    method RegisterLocalLogical() returns (id: LocalVarId)
      modifies this`locals, this`localCounter
      ensures id == old(localCounter)
      ensures locals == old(locals) + [LocalVar(id, Bool, None)]
      ensures localCounter == old(localCounter) + 1
      ensures old(Valid()) ==> Valid()
    {
      id := localCounter;
      locals := locals + [LocalVar(id, Bool, None)];
      localCounter := localCounter + 1;
    }

    /** Assembles the buffer into the function's declaration. */
    method ToFunction(span: Span) returns (r: Result<Declaration>)
      ensures match Cfg.AssembleSpec(items, span)
              case Err(e) => r == Err(e)
              case Ok(bbs) => r == Ok(Declaration.Function(name, ty, locals, bbs))
    {
      var bbs := Cfg.Assemble(items, span);
      if bbs.Err? {
        return Err(bbs.error);
      }
      r := Ok(Declaration.Function(name, ty, locals, bbs.value));
    }
  }

  /** What every lowering step does to the builder: the buffer, the slot list
      and both counters only grow. */
  twostate predicate Grows(fb: FunctionBuilder)
    reads fb
  {
    && old(fb.items) <= fb.items
    && old(fb.locals) <= fb.locals
    && old(fb.labelCounter) <= fb.labelCounter
    && old(fb.currentTempId) <= fb.currentTempId
  }
}

=== FILE: cfg.dfy ===
/** CFG assembly and pruning (`FunctionBuilder::to_function`): the linear item
    buffer of one function is folded into basic blocks, a sentinel block
    stands for "control falls off the end", a backward flood from the sentinel
    decides whether every path from the entry returns, and blocks without
    predecessors (other than the entry) are dropped. */
module Cfg {
  import opened Ir

  /** An entry of a function's item buffer: a statement, or a block boundary
      carrying the terminator of the block it closes (`None` = fall through)
      and the label of the block it opens. */
  datatype Item = Stmt(stmt: Statement) | Marker(term: Option<Terminator>, opens: BlockId)

  /** A block terminator during assembly; `Panic` marks the sentinel block. */
  datatype PanicTerminator = Real(t: Terminator) | Panic

  datatype TempBlock = TempBlock(id: BlockId, stmts: seq<Statement>, terminator: PanicTerminator)

  /** Predecessor map: `g[t]` is the set of blocks whose terminator may jump to `t`. */
  type Graph = map<BlockId, set<BlockId>>

  // ---------------------------------------------------------------------------
  // Folding the item buffer into blocks
  // ---------------------------------------------------------------------------

  /** The terminator that closes a block at a marker: the given one, or a
      fall-through branch to the block the marker opens. */
  function CloseWith(term: Option<Terminator>, opens: BlockId): Terminator
  {
    if term.Some? then term.value else Br(opens)
  }

  /** The state of the fold: closed blocks, and the id and statements of the open block. */
  datatype Assembly = Assembly(blocks: seq<TempBlock>, currentId: BlockId, current: seq<Statement>)

  function Step(a: Assembly, it: Item): Assembly
  {
    match it
    case Stmt(s) => a.(current := a.current + [s])
    case Marker(t, l) => Assembly(a.blocks + [TempBlock(a.currentId, a.current, Real(CloseWith(t, l)))], l, [])
  }

  /** The fold over a whole buffer, starting with block 0 open and empty. Every
      closed block carries a real terminator. */
  function Fold(items: seq<Item>): (a: Assembly)
    ensures forall k :: 0 <= k < |a.blocks| ==> a.blocks[k].terminator.Real?
    decreases |items|
  {
    if |items| == 0 then Assembly([], 0, [])
    else Step(Fold(items[..|items| - 1]), items[|items| - 1])
  }

  /** The blocks of a buffer followed by the sentinel that stands for falling off the end. */
  function Sealed(items: seq<Item>): (bs: seq<TempBlock>)
    ensures |bs| > 0 && bs[|bs| - 1].terminator == Panic
  {
    var a := Fold(items);
    a.blocks + [TempBlock(a.currentId, a.current, Panic)]
  }

  /** The block boundaries of a buffer, in order. */
  function Markers(items: seq<Item>): (m: seq<Item>)
    ensures forall k :: 0 <= k < |m| ==> m[k].Marker? && m[k] in items
    decreases |items|
  {
    if |items| == 0 then []
    else
      var front := Markers(items[..|items| - 1]);
      var last := items[|items| - 1];
      front + (if last.Marker? then [last] else [])
  }

  /** The statements of a buffer, in order. */
  function Statements(items: seq<Item>): seq<Statement>
    decreases |items|
  {
    if |items| == 0 then []
    else
      var last := items[|items| - 1];
      Statements(items[..|items| - 1]) + (if last.Stmt? then [last.stmt] else [])
  }

  /** The statements of a list of blocks, block after block. */
  function Flatten(blocks: seq<TempBlock>): seq<Statement>
    decreases |blocks|
  {
    if |blocks| == 0 then [] else Flatten(blocks[..|blocks| - 1]) + blocks[|blocks| - 1].stmts
  }

  /** Closed blocks follow the boundaries: the k-th marker closes block k
      with its terminator (or a fall-through branch) and opens the next block
      under its label; the first block is block 0. */
  predicate FollowsMarkers(a: Assembly, m: seq<Item>)
  {
    && |a.blocks| == |m|
    && (forall k :: 0 <= k < |m| ==> m[k].Marker?)
    && (forall k :: 0 <= k < |m| ==>
          && a.blocks[k].id == (if k == 0 then 0 else m[k - 1].opens)
          && a.blocks[k].terminator == Real(CloseWith(m[k].term, m[k].opens)))
    && a.currentId == (if |m| == 0 then 0 else m[|m| - 1].opens)
  }

  /** One boundary of `FollowsMarkers`, spelled out. */
  lemma FollowsMarkersAt(a: Assembly, m: seq<Item>, k: nat)
    requires FollowsMarkers(a, m) && k < |m|
    ensures a.blocks[k].id == (if k == 0 then 0 else m[k - 1].opens)
    ensures a.blocks[k].terminator == Real(CloseWith(m[k].term, m[k].opens))
  {
  }

  lemma {:induction false} FoldBlocks(items: seq<Item>)
    ensures FollowsMarkers(Fold(items), Markers(items))
    decreases |items|
  {
    if |items| > 0 {
      var n := |items| - 1;
      var front := items[..n];
      FoldBlocks(front);
      var a0, m0 := Fold(front), Markers(front);
      if items[n].Marker? {
        var m := m0 + [items[n]];
        var a := Assembly(a0.blocks + [TempBlock(a0.currentId, a0.current, Real(CloseWith(items[n].term, items[n].opens)))], items[n].opens, []);
        assert Markers(items) == m && Fold(items) == a;
        forall k | 0 <= k < |m|
          ensures a.blocks[k].id == (if k == 0 then 0 else m[k - 1].opens)
          ensures a.blocks[k].terminator == Real(CloseWith(m[k].term, m[k].opens))
        {
          if k < |m0| {
            FollowsMarkersAt(a0, m0, k);
            assert a.blocks[k] == a0.blocks[k] && m[k] == m0[k];
            if k > 0 {
              assert m[k - 1] == m0[k - 1];
            }
          } else if k > 0 {
            assert m[k - 1] == m0[|m0| - 1];
          }
        }
        assert |a.blocks| == |m|;
        assert a.currentId == (if |m| == 0 then 0 else m[|m| - 1].opens);
        assert FollowsMarkers(a, m);
      } else {
        assert Markers(items) == m0 && Fold(items).blocks == a0.blocks && Fold(items).currentId == a0.currentId;
      }
    }
  }

  /** The closed blocks' statements, then the open block's, are the buffer's
      statements in push order. */
  lemma {:induction false} FoldStatements(items: seq<Item>)
    ensures Flatten(Fold(items).blocks) + Fold(items).current == Statements(items)
    decreases |items|
  {
    if |items| > 0 {
      var n := |items| - 1;
      var front := items[..n];
      FoldStatements(front);
      var a0, a := Fold(front), Fold(items);
      if items[n].Stmt? {
        assert a.blocks == a0.blocks && a.current == a0.current + [items[n].stmt];
        assert Statements(items) == Statements(front) + [items[n].stmt];
      } else {
        var b := TempBlock(a0.currentId, a0.current, Real(CloseWith(items[n].term, items[n].opens)));
        assert a.blocks == a0.blocks + [b] && a.current == [];
        assert (a0.blocks + [b])[..|a0.blocks|] == a0.blocks;
        assert Flatten(a.blocks) == Flatten(a0.blocks) + a0.current;
        assert Statements(items) == Statements(front);
      }
    }
  }

  /** The positions of a buffer's boundaries, in order: entry k is where the
      k-th marker sits (`MarkerAt`). */
  function MarkerIndices(items: seq<Item>): seq<nat>
    decreases |items|
  {
    if |items| == 0 then []
    else
      var n := |items| - 1;
      MarkerIndices(items[..n]) + (if items[n].Marker? then [n] else [])
  }

  /** Entry k of `MarkerIndices` is the position of the k-th boundary. */
  predicate MarkerAt(items: seq<Item>, ix: seq<nat>, k: nat)
  {
    k < |ix| && k < |Markers(items)| && ix[k] < |items| && items[ix[k]] == Markers(items)[k]
  }

  /** The positions are those of the boundaries, one each, in increasing order. */
  lemma {:induction false} MarkerIndicesMeaning(items: seq<Item>)
    ensures var ix := MarkerIndices(items);
      && |ix| == |Markers(items)|
      && (forall k :: 0 <= k < |ix| ==> MarkerAt(items, ix, k))
      && (forall k, k' :: 0 <= k < k' < |ix| ==> ix[k] < ix[k'])
    decreases |items|
  {
    if |items| > 0 {
      var n := |items| - 1;
      var front := items[..n];
      MarkerIndicesMeaning(front);
      var ix0, ix := MarkerIndices(front), MarkerIndices(items);
      var m0, m := Markers(front), Markers(items);
      assert ix == ix0 + (if items[n].Marker? then [n] else []);
      assert m == m0 + (if items[n].Marker? then [items[n]] else []);
      forall k | 0 <= k < |ix|
        ensures MarkerAt(items, ix, k)
      {
        if k < |ix0| {
          assert MarkerAt(front, ix0, k);
          assert ix[k] == ix0[k] && m[k] == m0[k] && items[ix0[k]] == front[ix0[k]];
        }
      }
      forall k, k' | 0 <= k < k' < |ix|
        ensures ix[k] < ix[k']
      {
        if k' < |ix0| {
          assert ix[k] == ix0[k] && ix[k'] == ix0[k'];
        } else {
          assert MarkerAt(front, ix0, k);
        }
      }
    }
  }

  /** Where segment k of a buffer starts: at 0 for the first, otherwise just
      after the (k - 1)-th marker. */
  function SegmentStart(ix: seq<nat>, k: nat): nat
    requires k <= |ix|
  {
    if k == 0 then 0 else ix[k - 1] + 1
  }

  /** Closed block k holds the statements strictly between the boundary
      before it (or the start) and the boundary that closes it. */
  predicate BlockHolds(a: Assembly, items: seq<Item>, ix: seq<nat>, k: nat)
  {
    && k < |ix| && k < |a.blocks|
    && SegmentStart(ix, k) <= ix[k] <= |items|
    && a.blocks[k].stmts == Statements(items[SegmentStart(ix, k)..ix[k]])
  }

  /** The first `n` closed blocks hold their segments. */
  predicate BlocksFollow(a: Assembly, items: seq<Item>, ix: seq<nat>, n: nat)
  {
    && n <= |ix| && n <= |a.blocks|
    && forall k :: 0 <= k < n ==> BlockHolds(a, items, ix, k)
  }

  /** Each closed block holds the statements of its segment; the open block
      holds those after the last boundary. */
  predicate SegmentsFollow(a: Assembly, items: seq<Item>, ix: seq<nat>)
  {
    && |a.blocks| == |ix|
    && BlocksFollow(a, items, ix, |ix|)
    && SegmentStart(ix, |ix|) <= |items|
    && a.current == Statements(items[SegmentStart(ix, |ix|)..])
  }

  /** The statements of a slice that ends with one more entry. */
  lemma StatementsOfLonger(items: seq<Item>, lo: nat, hi: nat)
    requires lo < hi <= |items|
    ensures Statements(items[lo..hi]) ==
              Statements(items[lo..hi - 1]) + (if items[hi - 1].Stmt? then [items[hi - 1].stmt] else [])
  {
    assert items[lo..hi][..hi - 1 - lo] == items[lo..hi - 1];
  }

  /** The closed blocks of a buffer stay as they were, segment for segment,
      when one more entry is pushed. */
  lemma BlocksKeep(a0: Assembly, front: seq<Item>, ix0: seq<nat>, a: Assembly, items: seq<Item>, ix: seq<nat>)
    requires BlocksFollow(a0, front, ix0, |ix0|)
    requires front <= items && ix0 <= ix && |a0.blocks| <= |a.blocks| && a.blocks[..|a0.blocks|] == a0.blocks
    ensures BlocksFollow(a, items, ix, |ix0|)
  {
    forall k | 0 <= k < |ix0|
      ensures BlockHolds(a, items, ix, k)
    {
      assert BlockHolds(a0, front, ix0, k);
      assert ix[k] == ix0[k] && SegmentStart(ix, k) == SegmentStart(ix0, k);
      assert items[..|front|] == front;
      assert front[SegmentStart(ix0, k)..ix0[k]] == items[SegmentStart(ix0, k)..ix0[k]];
      assert a.blocks[k] == a0.blocks[k];
    }
  }

  /** One more entry keeps every block on its segment: a statement joins the
      open block, a boundary closes it with the statements of the last
      segment and opens an empty one. */
  lemma SegmentsPush(a0: Assembly, front: seq<Item>, ix0: seq<nat>, it: Item)
    requires SegmentsFollow(a0, front, ix0)
    ensures SegmentsFollow(Step(a0, it), front + [it], ix0 + (if it.Marker? then [|front|] else []))
  {
    var items := front + [it];
    var ix := ix0 + (if it.Marker? then [|front|] else []);
    var a := Step(a0, it);
    var start := SegmentStart(ix0, |ix0|);
    assert SegmentStart(ix, |ix0|) == start;
    assert front[start..] == items[start..|front|];
    assert a.blocks[..|a0.blocks|] == a0.blocks;
    BlocksKeep(a0, front, ix0, a, items, ix);
    if it.Marker? {
      assert BlockHolds(a, items, ix, |ix0|);
      assert items[SegmentStart(ix, |ix|)..] == [];
    } else {
      StatementsOfLonger(items, start, |items|);
      assert items[start..] == items[start..|items|];
    }
  }

  /** Statements land in the block open when they were pushed: block k holds
      exactly the statements between its two boundaries. */
  lemma {:induction false} FoldSegments(items: seq<Item>)
    ensures SegmentsFollow(Fold(items), items, MarkerIndices(items))
    decreases |items|
  {
    if |items| > 0 {
      var n := |items| - 1;
      var front := items[..n];
      FoldSegments(front);
      SegmentsPush(Fold(front), front, MarkerIndices(front), items[n]);
      assert front + [items[n]] == items;
    }
  }

  /** The shape of the assembled blocks: block structure and statement order together. */
  lemma FoldShape(items: seq<Item>)
    ensures FollowsMarkers(Fold(items), Markers(items))
    ensures SegmentsFollow(Fold(items), items, MarkerIndices(items))
    ensures Flatten(Fold(items).blocks) + Fold(items).current == Statements(items)
  {
    FoldBlocks(items);
    FoldSegments(items);
    FoldStatements(items);
  }

  // ---------------------------------------------------------------------------
  // Predecessors
  // ---------------------------------------------------------------------------

  /** The branch targets of a block terminator; the sentinel has none. */
  function BlockTargets(t: PanicTerminator): set<BlockId>
  {
    match t
    case Panic => {}
    case Real(r) => Targets(r)
  }

  /** Records `x` as a predecessor of `t`, creating the entry when needed. */
  function Insert(g: Graph, t: BlockId, x: BlockId): Graph
  {
    g[t := (if t in g then g[t] else {}) + {x}]
  }

  function AddEdges(g: Graph, b: TempBlock): Graph
  {
    match b.terminator
    case Panic => g
    case Real(Br(l)) => Insert(g, l, b.id)
    case Real(Ret(_)) => g
    case Real(BrCond(_, l1, l2)) => Insert(Insert(g, l1, b.id), l2, b.id)
  }

  /** The predecessor map of a list of blocks, built block after block. */
  function PredMap(bs: seq<TempBlock>): Graph
    decreases |bs|
  {
    if |bs| == 0 then map[] else AddEdges(PredMap(bs[..|bs| - 1]), bs[|bs| - 1])
  }

  /** Block `x` ends with a jump that may reach block `t`. */
  ghost predicate IsPred(bs: seq<TempBlock>, x: BlockId, t: BlockId)
  {
    exists k :: 0 <= k < |bs| && bs[k].id == x && t in BlockTargets(bs[k].terminator)
  }

  lemma AddEdgesMeaning(g: Graph, b: TempBlock)
    ensures forall t :: t in AddEdges(g, b) <==> t in g || t in BlockTargets(b.terminator)
    ensures forall t, x :: t in AddEdges(g, b) && x in AddEdges(g, b)[t] <==>
                           (t in g && x in g[t]) || (x == b.id && t in BlockTargets(b.terminator))
  {
  }

  /** The predecessor map records exactly the jumps of the blocks, and every
      entry it creates is non-empty. */
  lemma {:induction false} PredMapMeaning(bs: seq<TempBlock>)
    ensures forall t :: t in PredMap(bs) ==> PredMap(bs)[t] != {}
    ensures forall t, x :: t in PredMap(bs) && x in PredMap(bs)[t] <==> IsPred(bs, x, t)
    decreases |bs|
  {
    if |bs| > 0 {
      var n := |bs| - 1;
      var front := bs[..n];
      PredMapMeaning(front);
      var b := bs[n];
      AddEdgesMeaning(PredMap(front), b);
      forall t, x
        ensures t in PredMap(bs) && x in PredMap(bs)[t] <==> IsPred(bs, x, t)
      {
        if IsPred(bs, x, t) {
          var k :| 0 <= k < |bs| && bs[k].id == x && t in BlockTargets(bs[k].terminator);
          if k < n {
            assert front[k] == bs[k];
            assert IsPred(front, x, t);
          }
        }
        if IsPred(front, x, t) {
          var k :| 0 <= k < n && front[k].id == x && t in BlockTargets(front[k].terminator);
          assert bs[k] == front[k];
        }
      }
    }
  }

  /** Builds the predecessor map with a pass over the blocks. */
  method BuildPreds(blocks: seq<TempBlock>) returns (preds: Graph)
    ensures preds == PredMap(blocks)
  {
    preds := map[];
    var i := 0;
    while i < |blocks|
      invariant 0 <= i <= |blocks|
      invariant preds == PredMap(blocks[..i])
    {
      var bb := blocks[i];
      match bb.terminator {
        case Real(Br(id)) =>
          preds := Insert(preds, id, bb.id);
        case Real(Ret(_)) =>
        case Real(BrCond(_, id1, id2)) =>
          preds := Insert(preds, id1, bb.id);
          preds := Insert(preds, id2, bb.id);
        case Panic =>
      }
      assert blocks[..i + 1][..i] == blocks[..i];
      i := i + 1;
    }
    assert blocks[..i] == blocks;
  }

  // ---------------------------------------------------------------------------
  // Reachability
  // ---------------------------------------------------------------------------

  /** Control may pass from `x` to `t`. */
  ghost predicate Edge(g: Graph, x: BlockId, t: BlockId)
  {
    t in g && x in g[t]
  }

  ghost predicate IsPath(g: Graph, p: seq<BlockId>)
  {
    |p| >= 1 && forall i :: 0 <= i < |p| - 1 ==> Edge(g, p[i], p[i + 1])
  }

  /** Some path of jumps leads from `a` to `b` (possibly the empty one). */
  ghost predicate Reaches(g: Graph, a: BlockId, b: BlockId)
  {
    exists p :: IsPath(g, p) && p[0] == a && p[|p| - 1] == b
  }

  lemma ReachesSelf(g: Graph, a: BlockId)
    ensures Reaches(g, a, a)
  {
    assert IsPath(g, [a]);
  }

  lemma ReachesStep(g: Graph, q: BlockId, x: BlockId, s: BlockId)
    requires Edge(g, q, x) && Reaches(g, x, s)
    ensures Reaches(g, q, s)
  {
    var p :| IsPath(g, p) && p[0] == x && p[|p| - 1] == s;
    var p' := [q] + p;
    assert forall i :: 1 <= i < |p'| - 1 ==> p'[i] == p[i - 1] && p'[i + 1] == p[i];
    assert IsPath(g, p');
  }

  /** A block with no recorded predecessor is reachable only from itself. */
  lemma {:induction false} NoPredsReachedOnlyFromItself(g: Graph, a: BlockId, b: BlockId)
    requires b !in g || g[b] == {}
    requires Reaches(g, a, b)
    ensures a == b
  {
    var p :| IsPath(g, p) && p[0] == a && p[|p| - 1] == b;
    assert |p| > 1 ==> Edge(g, p[|p| - 2], p[|p| - 1]);
  }

  /** A set containing `s` and closed under predecessors contains every block that reaches `s`. */
  lemma {:induction false} ClosedContainsReaching(g: Graph, s: BlockId, closed: set<BlockId>, p: seq<BlockId>)
    requires s in closed
    requires forall x, q :: x in closed && Edge(g, q, x) ==> q in closed
    requires IsPath(g, p) && p[|p| - 1] == s
    ensures p[0] in closed
    decreases |p|
  {
    if |p| > 1 {
      var rest := p[1..];
      forall i | 0 <= i < |rest| - 1
        ensures Edge(g, rest[i], rest[i + 1])
      {
        assert rest[i] == p[i + 1] && rest[i + 1] == p[i + 2];
      }
      ClosedContainsReaching(g, s, closed, rest);
      assert Edge(g, p[0], p[1]);
    }
  }

  /** Every block that appears as a predecessor somewhere. */
  function Sources(g: Graph): set<BlockId>
  {
    set t, x | t in g && x in g[t] :: x
  }

  /** How many entries of a work list are already in `done`. */
  function CountIn(s: seq<BlockId>, done: set<BlockId>): nat
    decreases |s|
  {
    if |s| == 0 then 0
    else CountIn(s[..|s| - 1], done) + (if s[|s| - 1] in done then 1 else 0)
  }

  /** The blocks recorded as jumping to `t`. */
  function PredsOf(g: Graph, t: BlockId): set<BlockId>
  {
    if t in g then g[t] else {}
  }

  /** Everything the flood can ever collect from `s`. */
  function Universe(g: Graph, s: BlockId): set<BlockId>
  {
    {s} + Sources(g)
  }

  /** The invariant of the flood: what is collected and what is waiting all
      reach `s`; `s` itself is collected or waiting; and every predecessor of a
      collected block is collected or waiting. */
  ghost predicate FloodInv(g: Graph, s: BlockId, worklist: seq<BlockId>, reaching: set<BlockId>)
  {
    && reaching <= Universe(g, s)
    && (forall i :: 0 <= i < |worklist| ==> worklist[i] in Universe(g, s) && Reaches(g, worklist[i], s))
    && (forall y :: y in reaching ==> Reaches(g, y, s))
    && (s in reaching || s in worklist)
    && (forall x, q :: x in reaching && Edge(g, q, x) ==> q in reaching || q in worklist)
  }

  lemma CountInAppend(s: seq<BlockId>, x: BlockId, done: set<BlockId>)
    ensures CountIn(s + [x], done) == CountIn(s, done) + (if x in done then 1 else 0)
  {
    assert (s + [x])[..|s|] == s;
  }

  /** The inner loop of the flood: pushes every predecessor of the popped block
      that is not collected yet. */
  method PushUnvisited(worklist: seq<BlockId>, preds: set<BlockId>, reaching: set<BlockId>) returns (w: seq<BlockId>)
    ensures |worklist| <= |w| && w[..|worklist|] == worklist
    ensures forall i :: |worklist| <= i < |w| ==> w[i] in preds && w[i] !in reaching
    ensures forall q :: q in preds && q !in reaching ==> q in w
    ensures CountIn(w, reaching) == CountIn(worklist, reaching)
  {
    w := worklist;
    var todo := preds;
    while todo != {}
      invariant todo <= preds
      invariant |worklist| <= |w| && w[..|worklist|] == worklist
      invariant forall i :: |worklist| <= i < |w| ==> w[i] in preds && w[i] !in reaching
      invariant forall q :: q in preds - todo && q !in reaching ==> q in w
      invariant CountIn(w, reaching) == CountIn(worklist, reaching)
      decreases todo
    {
      var q :| q in todo;
      if q !in reaching {
        CountInAppend(w, q, reaching);
        assert (w + [q])[..|w|] == w;
        w := w + [q];
      }
      todo := todo - {q};
    }
  }

  /** One round of the flood keeps its invariant: `id` is popped and collected
      and its uncollected predecessors are pushed. */
  lemma FloodStep(g: Graph, s: BlockId, rest: seq<BlockId>, id: BlockId, reaching: set<BlockId>, w: seq<BlockId>)
    requires FloodInv(g, s, rest + [id], reaching)
    requires |rest| <= |w| && w[..|rest|] == rest
    requires forall i :: |rest| <= i < |w| ==> w[i] in PredsOf(g, id) && w[i] !in reaching
    requires forall q :: q in PredsOf(g, id) && q !in reaching ==> q in w
    ensures FloodInv(g, s, w, reaching + {id})
  {
    var worklist := rest + [id];
    assert worklist[|rest|] == id;
    forall i | 0 <= i < |w|
      ensures w[i] in Universe(g, s) && Reaches(g, w[i], s)
    {
      if i < |rest| {
        assert w[i] == rest[i] == worklist[i];
      } else {
        assert Edge(g, w[i], id);
        ReachesStep(g, w[i], id, s);
      }
    }
    forall x, q | x in reaching + {id} && Edge(g, q, x)
      ensures q in reaching + {id} || q in w
    {
      if x != id && q !in reaching && q != id {
        assert q in worklist;
        var j :| 0 <= j < |worklist| && worklist[j] == q;
        assert w[j] == q;
      }
    }
    if s !in reaching && s != id {
      var j :| 0 <= j < |worklist| && worklist[j] == s;
      assert w[j] == s;
    }
  }

  /** The work-list flood of `to_function`: collects the blocks from which the
      sentinel `s` can be reached, by walking predecessor edges backwards. The
      list may hold duplicates; it shrinks because each pop either adds a new
      block to the result or removes an entry that is already in it. */
  method BackwardFlood(g: Graph, s: BlockId) returns (reaching: set<BlockId>)
    ensures forall y :: y in reaching <==> Reaches(g, y, s)
  {
    var worklist := [s];
    reaching := {};
    ReachesSelf(g, s);
    while |worklist| != 0
      invariant FloodInv(g, s, worklist, reaching)
      decreases |Universe(g, s) - reaching|, CountIn(worklist, reaching)
    {
      var id := worklist[|worklist| - 1];
      var rest := worklist[..|worklist| - 1];
      assert worklist == rest + [id];
      var next := PushUnvisited(rest, PredsOf(g, id), reaching);
      FloodStep(g, s, rest, id, reaching, next);
      CountInAppend(rest, id, reaching);
      FloodShrinks(Universe(g, s), reaching, id);
      worklist := next;
      reaching := reaching + {id};
    }
    FloodDone(g, s, reaching);
  }

  /** Collecting a block either shrinks what is left to collect or leaves the collection unchanged. */
  lemma FloodShrinks(universe: set<BlockId>, reaching: set<BlockId>, id: BlockId)
    requires id in reaching || id in universe
    ensures id in reaching ==> reaching + {id} == reaching
    ensures id !in reaching ==> |universe - (reaching + {id})| < |universe - reaching|
  {
    if id !in reaching {
      assert (universe - reaching) - {id} == universe - (reaching + {id});
    }
  }

  /** When nothing is waiting, the invariant makes the collection exactly the blocks reaching `s`. */
  lemma FloodDone(g: Graph, s: BlockId, reaching: set<BlockId>)
    requires FloodInv(g, s, [], reaching)
    ensures forall y :: y in reaching <==> Reaches(g, y, s)
  {
    forall y | Reaches(g, y, s)
      ensures y in reaching
    {
      var p :| IsPath(g, p) && p[0] == y && p[|p| - 1] == s;
      ClosedContainsReaching(g, s, reaching, p);
    }
  }

  // ---------------------------------------------------------------------------
  // Pruning and the whole assembly
  // ---------------------------------------------------------------------------

  /** The retention test: the entry block, or a block with a non-empty predecessor set. */
  predicate Keep(g: Graph, id: BlockId)
  {
    id == 0 || (id in g && |g[id]| != 0)
  }

  /** The blocks that pass the retention test, in their original order. */
  function Retained(bs: seq<TempBlock>, g: Graph): (r: seq<TempBlock>)
    ensures forall b :: b in r <==> b in bs && Keep(g, b.id)
    ensures |r| <= |bs|
    decreases |bs|
  {
    if |bs| == 0 then []
    else (if Keep(g, bs[0].id) then [bs[0]] else []) + Retained(bs[1..], g)
  }

  function ToReal(bs: seq<TempBlock>): seq<BasicBlock>
    requires forall k :: 0 <= k < |bs| ==> bs[k].terminator.Real?
  {
    seq(|bs|, k requires 0 <= k < |bs| => BasicBlock(bs[k].id, bs[k].stmts, bs[k].terminator.t))
  }

  /** What `to_function` computes from a buffer: an error exactly when the
      entry block reaches the sentinel, and otherwise the real blocks that pass
      the retention test. */
  ghost function AssembleSpec(items: seq<Item>, span: Span): Result<seq<BasicBlock>>
  {
    var bs := Sealed(items);
    var g := PredMap(bs);
    if Reaches(g, 0, bs[|bs| - 1].id) then Err(SyntaxError(MissingReturn, span))
    else Ok(ToReal(Retained(Fold(items).blocks, g)))
  }

  /** Folds the buffer into blocks, seals it with the sentinel, floods
      backwards from the sentinel, rejects a function whose entry falls off the
      end, then drops the sentinel and the blocks without predecessors. */
  method Assemble(items: seq<Item>, span: Span) returns (r: Result<seq<BasicBlock>>)
    ensures r == AssembleSpec(items, span)
  {
    var blocks: seq<TempBlock> := [];
    var currentId: BlockId := 0;
    var currentStmts: seq<Statement> := [];
    var i := 0;
    while i < |items|
      invariant 0 <= i <= |items|
      invariant Assembly(blocks, currentId, currentStmts) == Fold(items[..i])
    {
      match items[i] {
        case Stmt(s) =>
          currentStmts := currentStmts + [s];
        case Marker(terminator, opens) =>
          var term := if terminator.Some? then terminator.value else Br(opens);
          blocks := blocks + [TempBlock(currentId, currentStmts, Real(term))];
          currentId := opens;
          currentStmts := [];
      }
      assert items[..i + 1][..i] == items[..i];
      i := i + 1;
    }
    assert items[..i] == items;
    var closed := blocks;
    blocks := blocks + [TempBlock(currentId, currentStmts, Panic)];
    var preds := BuildPreds(blocks);
    var reaching := BackwardFlood(preds, blocks[|blocks| - 1].id);
    if 0 in reaching {
      return Err(SyntaxError(MissingReturn, span));
    }
    assert blocks[..|blocks| - 1] == closed;
    blocks := blocks[..|blocks| - 1];
    r := Ok(ToReal(Retained(blocks, preds)));
  }

  // ---------------------------------------------------------------------------
  // Properties of the assembly
  // ---------------------------------------------------------------------------

  /** Block 0 is the first block closed, or still open when none is. */
  lemma {:induction false} FoldEntry(items: seq<Item>)
    ensures var a := Fold(items);
      && (|a.blocks| == 0 ==> a.currentId == 0)
      && (|a.blocks| > 0 ==> a.blocks[0].id == 0)
    decreases |items|
  {
    if |items| > 0 {
      FoldEntry(items[..|items| - 1]);
    }
  }

  /** A successful assembly starts with the entry block, block 0. */
  lemma EntryComesFirst(items: seq<Item>, span: Span)
    requires AssembleSpec(items, span).Ok?
    ensures var out := AssembleSpec(items, span).value; |out| > 0 && out[0].id == 0
  {
    FoldEntry(items);
    var a := Fold(items);
    var bs := Sealed(items);
    var g := PredMap(bs);
    assert bs[|bs| - 1].id == a.currentId;
    assert |a.blocks| > 0 by {
      if |a.blocks| == 0 {
        ReachesSelf(g, 0);
      }
    }
    assert Retained(a.blocks, g)[0] == a.blocks[0];
  }

  /** Pruning never drops a block that the entry can reach: a dropped block has
      no predecessor and is not the entry. */
  lemma ReachableBlocksKept(items: seq<Item>, span: Span, b: TempBlock)
    requires AssembleSpec(items, span).Ok?
    requires b in Fold(items).blocks
    requires Reaches(PredMap(Sealed(items)), 0, b.id)
    ensures b in Retained(Fold(items).blocks, PredMap(Sealed(items)))
  {
    var g := PredMap(Sealed(items));
    if !Keep(g, b.id) {
      NoPredsReachedOnlyFromItself(g, 0, b.id);
    }
  }

  /** A buffer whose last boundary opens a block that no jump targets, under a
      non-zero label, always assembles: the sentinel is then unreachable from
      the entry. This is what the trailing `return` synthesised for functions
      returning unit guarantees. */
  lemma FreshSentinelAssembles(items: seq<Item>, span: Span)
    requires |items| > 0 && items[|items| - 1].Marker? && items[|items| - 1].opens != 0
    requires forall it :: it in items && it.Marker? ==>
               items[|items| - 1].opens !in Targets(CloseWith(it.term, it.opens))
    ensures AssembleSpec(items, span).Ok?
  {
    var l := items[|items| - 1].opens;
    FoldShape(items);
    var a, m := Fold(items), Markers(items);
    assert Markers(items) == Markers(items[..|items| - 1]) + [items[|items| - 1]];
    assert a.currentId == l;
    var bs := Sealed(items);
    var g := PredMap(bs);
    PredMapMeaning(bs);
    assert l !in g;
    if Reaches(g, 0, l) {
      NoPredsReachedOnlyFromItself(g, 0, l);
    }
  }
}

=== FILE: decls.dfy ===
/** Declaration lowering (`build_translation_unit`, `build_declaration`):
    every declaration's signature is lowered and its name bound globally,
    and a function's parameters and body are lowered into a fresh
    `FunctionBuilder` whose buffer is then assembled into basic blocks. A
    function returning unit gets a trailing `return ()` of its own, so its
    assembly never fails. */
module DeclLowering {
  import opened Ir
  import Ast
  import Cfg
  import opened Symbols
  import opened Builder
  import opened Types
  import Tyck
  import opened StmtLowering

  /** The lowering of a list of parsed types: all of them, or the error of
      the first that fails. */
  function BuildAll(tys: seq<Ast.ParseType>): (r: Result<seq<Type>>)
    ensures r.Ok? <==> forall j :: 0 <= j < |tys| ==> BuildType(tys[j]).Ok?
    ensures r.Ok? ==> |r.value| == |tys| && forall j :: 0 <= j < |tys| ==> r.value[j] == BuildType(tys[j]).value
    ensures forall j :: 0 <= j < |tys| && BuildType(tys[j]).Err? && (forall i :: 0 <= i < j ==> BuildType(tys[i]).Ok?) ==>
              r == Err(BuildType(tys[j]).error)
    decreases |tys|
  {
    if |tys| == 0 then Ok([])
    else
      var head := BuildType(tys[0]);
      if head.Err? then Err(head.error)
      else
        var tail := BuildAll(tys[1..]);
        assert forall j :: 1 <= j < |tys| ==> tys[1..][j - 1] == tys[j];
        if tail.Err? then tail else Ok([head.value] + tail.value)
  }

  /** Lowers parameter types in order, stopping at the first failure. */
  method BuildTypes(tys: seq<Ast.ParseType>) returns (r: Result<seq<Type>>)
    ensures r == BuildAll(tys)
  {
    var out: seq<Type> := [];
    var j := 0;
    while j < |tys|
      invariant 0 <= j <= |tys| && |out| == j
      invariant forall i :: 0 <= i < j ==> BuildType(tys[i]).Ok? && out[i] == BuildType(tys[i]).value
    {
      var t := BuildType(tys[j]);
      if t.Err? {
        assert BuildAll(tys) == Err(BuildType(tys[j]).error);
        return Err(t.error);
      }
      out := out + [t.value];
      j := j + 1;
    }
    assert BuildAll(tys).Ok? && BuildAll(tys).value == out;
    r := Ok(out);
  }

  /** The parsed types of a function's parameters. */
  function ParamTypes(params: seq<Ast.Param>): seq<Ast.ParseType>
  {
    seq(|params|, j requires 0 <= j < |params| => params[j].ty)
  }

  /** A declaration's lowered signature: its return type first, then its
      parameter types, failing on the first type that does not lower. */
  function Signature(decl: Ast.Declaration): (r: Result<FunctionType>)
    ensures r.Ok? ==> BuildType(decl.returnTy) == Ok(r.value.returnTy)
    ensures r.Ok? && decl.Function? ==> |r.value.paramsTy| == |decl.params|
    ensures r.Ok? && decl.ExternFunction? ==> |r.value.paramsTy| == |decl.paramTys|
    ensures BuildType(decl.returnTy).Err? ==> r == Err(BuildType(decl.returnTy).error)
  {
    var returnTy := BuildType(decl.returnTy);
    if returnTy.Err? then Err(returnTy.error)
    else
      var paramsTy := BuildAll(if decl.Function? then ParamTypes(decl.params) else decl.paramTys);
      if paramsTy.Err? then Err(paramsTy.error) else Ok(FunctionType(returnTy.value, paramsTy.value))
  }

  /** Parameter j's name is bound already: in the scope the parameters go
      into, or by an earlier parameter. */
  predicate Clashes(params: seq<Ast.Param>, scope: Scope, j: nat)
    requires j < |params|
  {
    params[j].name in scope || exists i :: 0 <= i < j && params[i].name == params[j].name
  }

  /** The names of the first `j` parameters. */
  function NamesBefore(params: seq<Ast.Param>, j: nat): set<string>
    requires j <= |params|
  {
    set i | 0 <= i < j :: params[i].name
  }

  lemma NamesBeforeStep(params: seq<Ast.Param>, j: nat)
    requires j < |params|
    ensures NamesBefore(params, j + 1) == NamesBefore(params, j) + {params[j].name}
  {
    forall x | x in NamesBefore(params, j + 1)
      ensures x in NamesBefore(params, j) + {params[j].name}
    {
      var i :| 0 <= i < j + 1 && params[i].name == x;
      if i < j {
        assert x in NamesBefore(params, j);
      }
    }
  }

  /** Parameter j clashes exactly when its name is in the scope the
      parameters before it have extended. */
  lemma ClashesIffBound(params: seq<Ast.Param>, scope: Scope, j: nat, bound: set<string>)
    requires j < |params| && bound == scope.Keys + NamesBefore(params, j)
    ensures Clashes(params, scope, j) <==> params[j].name in bound
  {
    if params[j].name in NamesBefore(params, j) {
      var i :| 0 <= i < j && params[i].name == params[j].name;
    }
  }

  /** The stack slots of parameters with types `tys`, numbered from `base`. */
  function ParamSlots(base: nat, tys: seq<Type>): seq<LocalVar>
  {
    seq(|tys|, j requires 0 <= j < |tys| => LocalVar(base + j, tys[j], Some(j)))
  }

  /** What registering the first `j` parameters has done to the innermost
      scope (index `n`, `scope` before): their names are added, each bound to
      its slot, numbered from `base`. */
  ghost predicate ParamsBound(fb: FunctionBuilder, params: seq<Ast.Param>, tys: seq<Type>, j: nat,
                              scope: Scope, n: nat, base: nat)
    requires |params| == |tys| && j <= |params|
    reads fb, fb.symbolTable
  {
    && n < |fb.symbolTable.locals|
    && fb.symbolTable.locals[n].Keys == scope.Keys + NamesBefore(params, j)
    && forall i :: 0 <= i < j ==>
         params[i].name in fb.symbolTable.locals[n] &&
         fb.symbolTable.locals[n][params[i].name] == (base + i, tys[i])
  }

  /** Registers parameter j in the innermost scope; it is new exactly when it
      does not clash. */
  method RegisterNext(fb: FunctionBuilder, params: seq<Ast.Param>, tys: seq<Type>, j: nat,
                      ghost scope: Scope, ghost base: nat) returns (isNew: bool)
    requires |params| == |tys| && j < |params|
    requires fb.Valid() && fb.localCounter == base + j && |fb.symbolTable.locals| > 0
    requires ParamsBound(fb, params, tys, j, scope, |fb.symbolTable.locals| - 1, base)
    modifies fb`locals, fb`localCounter, fb.symbolTable`locals
    ensures isNew <==> !Clashes(params, scope, j)
    ensures fb.Valid() && fb.localCounter == base + j + 1
    ensures InnermostOnly(old(fb.symbolTable.locals), fb.symbolTable.locals)
    ensures fb.locals == old(fb.locals) + [LocalVar(base + j, tys[j], Some(j))]
    ensures isNew ==> ParamsBound(fb, params, tys, j + 1, scope, |fb.symbolTable.locals| - 1, base)
  {
    ghost var n := |fb.symbolTable.locals| - 1;
    ghost var inner := fb.symbolTable.locals[n];
    ClashesIffBound(params, scope, j, inner.Keys);
    isNew := fb.RegisterParam(params[j].name, tys[j], Some(j));
    if isNew {
      NamesBeforeStep(params, j);
      assert fb.symbolTable.locals[n] == inner[params[j].name := (base + j, tys[j])];
    }
  }

  /** Gives each parameter, in order, a stack slot carrying its position,
      bound under its name in the innermost scope; the first parameter whose
      name is already bound there (index `clash`) is rejected at its name. */
  method RegisterParams(fb: FunctionBuilder, params: seq<Ast.Param>, tys: seq<Type>)
      returns (r: Result<()>, ghost clash: nat)
    requires |params| == |tys| && fb.Valid() && |fb.symbolTable.locals| > 0
    modifies fb`locals, fb`localCounter, fb.symbolTable`locals
    ensures fb.Valid()
    ensures InnermostOnly(old(fb.symbolTable.locals), fb.symbolTable.locals)
    ensures var scope := old(fb.symbolTable.locals)[|old(fb.symbolTable.locals)| - 1];
            r.Ok? <==> forall j :: 0 <= j < |params| ==> !Clashes(params, scope, j)
    ensures var scope := old(fb.symbolTable.locals)[|old(fb.symbolTable.locals)| - 1];
            r.Err? ==>
              && clash < |params| && Clashes(params, scope, clash)
              && (forall j :: 0 <= j < clash ==> !Clashes(params, scope, j))
              && r.error == SyntaxError(DuplicateDefinition, params[clash].nameSpan)
    ensures r.Ok? ==> fb.locals == old(fb.locals) + ParamSlots(old(fb.localCounter), tys)
    ensures r.Ok? ==>
              var inner := fb.symbolTable.locals[|fb.symbolTable.locals| - 1];
              forall j :: 0 <= j < |params| ==>
                params[j].name in inner && inner[params[j].name] == (old(fb.localCounter) + j, tys[j])
  {
    ghost var stack := fb.symbolTable.locals;
    ghost var n := |stack| - 1;
    ghost var scope := stack[n];
    ghost var base := fb.localCounter;
    assert NamesBefore(params, 0) == {};
    var j := 0;
    while j < |params|
      invariant 0 <= j <= |params|
      invariant fb.Valid() && fb.localCounter == base + j
      invariant InnermostOnly(stack, fb.symbolTable.locals)
      invariant fb.locals == old(fb.locals) + ParamSlots(base, tys[..j])
      invariant forall i :: 0 <= i < j ==> !Clashes(params, scope, i)
      invariant ParamsBound(fb, params, tys, j, scope, n, base)
    {
      var isNew := RegisterNext(fb, params, tys, j, scope, base);
      if !isNew {
        return Err(SyntaxError(DuplicateDefinition, params[j].nameSpan)), j;
      }
      assert ParamSlots(base, tys[..j + 1]) == ParamSlots(base, tys[..j]) + [LocalVar(base + j, tys[j], Some(j))];
      j := j + 1;
    }
    assert tys[..j] == tys;
    r, clash := Ok(()), |params|;
  }

  /** The `return ()` closing a unit function: a unit temporary, and a
      return that opens a block under a label handed out only now, so that
      no jump targets it and the buffer always assembles. */
  method PushUnitReturn(fb: FunctionBuilder, span: Span)
    requires fb.Valid()
    modifies fb`items, fb`labelCounter, fb`currentTempId
    ensures Cfg.AssembleSpec(fb.items, span).Ok?
    ensures var value := Value(old(fb.currentTempId), Unit);
            fb.items == old(fb.items) + [Cfg.Stmt(Assign(value, Lit(UnitLit))), Cfg.Marker(Some(Ret(value)), old(fb.labelCounter))]
    ensures fb.currentTempId == old(fb.currentTempId) + 1 && fb.labelCounter == old(fb.labelCounter) + 1
    ensures |fb.items| > 0
    ensures var last := fb.items[|fb.items| - 1];
            last.Marker? && last.term.Some? && last.term.value.Ret? && last.term.value.result.ty == Unit
  {
    var value := fb.NewTempValue(Unit);
    fb.PushStatement(Assign(value, Lit(UnitLit)));
    ghost var before := fb.items;
    var sentinel := fb.NewLabel();
    fb.PushTerminatorLabel(Some(Ret(value)), sentinel);
    forall it | it in fb.items && it.Marker?
      ensures sentinel !in Targets(Cfg.CloseWith(it.term, it.opens))
    {
      var k :| 0 <= k < |fb.items| && fb.items[k] == it;
      if k < |before| {
        assert Builder.LabelsBelow(before[k], sentinel);
      }
    }
    Cfg.FreshSentinelAssembles(fb.items, span);
  }

  /** The part of a function after its parameters: the body, for a unit
      function a trailing `return ()`, the end of the parameter scope, and
      assembly. `items` is the assembled buffer, when the body lowered. */
  method LowerBody(fb: FunctionBuilder, body: Ast.Compound, span: Span, o: Tyck.Oracle)
      returns (r: Result<Declaration>, ghost items: Option<seq<Cfg.Item>>)
    requires fb.Valid() && |fb.symbolTable.locals| > 0
    modifies fb, fb.symbolTable`locals
    ensures old(fb.locals) <= fb.locals
    ensures items.None? ==> r.Err?
    ensures items.Some? ==> items.value == fb.items
    ensures items.Some? ==>
              match Cfg.AssembleSpec(items.value, span)
              case Err(e) => r == Err(e)
              case Ok(bbs) => r == Ok(Declaration.Function(fb.name, fb.ty, fb.locals, bbs))
    ensures items.Some? && fb.ty.returnTy == Unit ==> r.Ok?
    ensures items.Some? && fb.ty.returnTy == Unit ==>
              && |items.value| > 0
              && var last := items.value[|items.value| - 1];
              last.Marker? && last.term.Some? && last.term.value.Ret? && last.term.value.result.ty == Unit
    ensures r.Ok? ==>
              fb.symbolTable.locals == old(fb.symbolTable.locals)[..|old(fb.symbolTable.locals)| - 1]
  {
    var lowered := BuildCompound(fb, body, o);
    if lowered.Err? {
      return Err(lowered.error), None;
    }
    if fb.ty.returnTy == Unit {
      PushUnitReturn(fb, span);
    }
    fb.symbolTable.EndLocalScope();
    items := Some(fb.items);
    r := fb.ToFunction(span);
  }

  /** Parameter `c` is the first one that clashes with an earlier one. */
  predicate FirstClash(params: seq<Ast.Param>, c: nat)
  {
    c < |params| && Clashes(params, map[], c) && forall j :: 0 <= j < c ==> !Clashes(params, map[], j)
  }

  /** What lowering function `name` with signature `fty` yields: the first
      parameter (index `clash`) whose name is taken is rejected at its name;
      otherwise, once the body lowers to the buffer `items`, the result is
      what assembling `items` yields, with the parameters' slots first, and a
      unit function always assembles, its buffer ending in a `return` of a
      unit value. */
  ghost predicate FunctionLowered(name: string, fty: FunctionType, params: seq<Ast.Param>, span: Span,
                                  r: Result<Declaration>, items: Option<seq<Cfg.Item>>, clash: nat)
  {
    && clash <= |params|
    && (clash == |params| <==> forall j :: 0 <= j < |params| ==> !Clashes(params, map[], j))
    && (clash < |params| ==>
          FirstClash(params, clash) && r == Err(SyntaxError(DuplicateDefinition, params[clash].nameSpan)))
    && (items.None? ==> r.Err?)
    && (items.Some? ==>
          && clash == |params|
          && match Cfg.AssembleSpec(items.value, span)
             case Err(e) => r == Err(e)
             case Ok(bbs) =>
               && r.Ok? && r.value.Function? && r.value.name == name && r.value.ty == fty && r.value.bbs == bbs
               && |r.value.locals| >= |params|
               && r.value.locals[..|params|] == ParamSlots(0, fty.paramsTy))
    && (items.Some? && fty.returnTy == Unit ==>
          && r.Ok? && |items.value| > 0
          && var last := items.value[|items.value| - 1];
          last.Marker? && last.term.Some? && last.term.value.Ret? && last.term.value.result.ty == Unit)
  }

  /** Lowers a function once its signature `fty` is known: a fresh builder,
      a scope holding the parameters, then the rest as `LowerBody` does it.
      `items` is the assembled buffer, when the parameters and the body
      lowered. */
  method BuildFunction(name: string, fty: FunctionType, params: seq<Ast.Param>, body: Ast.Compound, span: Span,
                       st: SymbolTable, o: Tyck.Oracle)
      returns (r: Result<Declaration>, ghost items: Option<seq<Cfg.Item>>, ghost clash: nat)
    requires |params| == |fty.paramsTy|
    modifies st`locals
    ensures FunctionLowered(name, fty, params, span, r, items, clash)
    ensures r.Ok? ==> st.locals == old(st.locals)
  {
    ghost var outer := st.locals;
    var fb := new FunctionBuilder(name, fty, st);
    st.StartLocalScope();
    assert st.locals[|st.locals| - 1] == map[] && st.locals[..|outer|] == outer;
    var registered;
    registered, clash := RegisterParams(fb, params, fty.paramsTy);
    if registered.Err? {
      return Err(registered.error), None, clash;
    }
    clash := |params|;
    ghost var slots := fb.locals;
    ghost var scoped := st.locals;
    assert slots == ParamSlots(0, fty.paramsTy);
    assert |scoped| == |outer| + 1 && scoped[..|outer|] == outer;
    r, items := LowerBody(fb, body, span, o);
    assert fb.locals[..|params|] == slots;
    assert r.Ok? ==> st.locals == outer;
  }

  /** Lowers one declaration. Its signature is lowered first; then its name
      is bound globally, which fails when the name is global already; an
      external function is then complete, and a function's parameters and
      body are lowered as `BuildFunction` does it (`items` and `clash` are
      its ghost results). */
  method BuildDeclaration(decl: Ast.Declaration, st: SymbolTable, o: Tyck.Oracle)
      returns (r: Result<Declaration>, ghost items: Option<seq<Cfg.Item>>, ghost clash: nat)
    modifies st
    ensures Signature(decl).Err? ==> r == Err(Signature(decl).error) && st.globals == old(st.globals)
    ensures Signature(decl).Ok? ==> st.globals == old(st.globals)[decl.name := Type.Function(Signature(decl).value)]
    ensures Signature(decl).Ok? && decl.name in old(st.globals) ==>
              r == Err(SyntaxError(DuplicateDefinition, decl.span))
    ensures Signature(decl).Ok? && decl.name !in old(st.globals) && decl.ExternFunction? ==>
              r == Ok(ExternFunction(decl.name, Signature(decl).value))
    ensures Signature(decl).Ok? && decl.name !in old(st.globals) && decl.Function? ==>
              FunctionLowered(decl.name, Signature(decl).value, decl.params, decl.span, r, items, clash)
    ensures r.Ok? ==> Signature(decl).Ok? && decl.name !in old(st.globals)
    ensures r.Ok? ==> DeclLowered(decl, r.value)
    ensures r.Err? ==> DeclFails(decl, old(st.globals).Keys, r.error)
    ensures r.Ok? && decl.Function? ==> items.Some?
    ensures r.Ok? ==> st.locals == old(st.locals)
    ensures items.Some? ==> decl.Function?
  {
    clash := 0;
    var returnTy := BuildType(decl.returnTy);
    if returnTy.Err? {
      return Err(returnTy.error), None, clash;
    }
    var paramsTy := BuildTypes(if decl.Function? then ParamTypes(decl.params) else decl.paramTys);
    if paramsTy.Err? {
      return Err(paramsTy.error), None, clash;
    }
    var fty := FunctionType(returnTy.value, paramsTy.value);
    var isNew := st.RegisterGlobal(decl.name, Type.Function(fty));
    if !isNew {
      return Err(SyntaxError(DuplicateDefinition, decl.span)), None, clash;
    }
    if decl.ExternFunction? {
      return Ok(ExternFunction(decl.name, fty)), None, clash;
    }
    r, items, clash := BuildFunction(decl.name, fty, decl.params, decl.body, decl.span, st, o);
    if r.Err? {
      forall c: nat | FirstClash(decl.params, c)
        ensures r.error == SyntaxError(DuplicateDefinition, decl.params[c].nameSpan)
      {
        FirstClashUnique(decl.params, c, clash);
      }
    }
  }

  /** `l` lowers `d`: same name and kind, the signature `d` describes, and
      for a function, parameters that do not clash, whose slots come first. */
  predicate DeclLowered(d: Ast.Declaration, l: Declaration)
  {
    && l.name == d.name
    && l.ExternFunction? == d.ExternFunction?
    && Signature(d) == Ok(l.ty)
    && (d.Function? ==>
          && l.Function?
          && (forall j :: 0 <= j < |d.params| ==> !Clashes(d.params, map[], j))
          && |l.locals| >= |d.params|
          && l.locals[..|d.params|] == ParamSlots(0, l.ty.paramsTy))
  }

  /** `out` lowers `decls` one to one, in order. */
  predicate LoweredInOrder(decls: seq<Ast.Declaration>, out: seq<Declaration>)
  {
    |out| == |decls| && forall j :: 0 <= j < |decls| ==> DeclLowered(decls[j], out[j])
  }

  /** No two declarations share a name. */
  predicate DistinctNames(decls: seq<Ast.Declaration>)
  {
    forall i, j :: 0 <= i < j < |decls| ==> decls[i].name != decls[j].name
  }

  /** The names the declarations `decls` bind. */
  function DeclNames(decls: seq<Ast.Declaration>): set<string>
  {
    set i | 0 <= i < |decls| :: decls[i].name
  }

  lemma DeclNamesStep(decls: seq<Ast.Declaration>, j: nat)
    requires j < |decls|
    ensures DeclNames(decls[..j + 1]) == DeclNames(decls[..j]) + {decls[j].name}
  {
    var short, long := decls[..j], decls[..j + 1];
    forall x | x in DeclNames(long)
      ensures x in DeclNames(short) + {decls[j].name}
    {
      var i :| 0 <= i < |long| && long[i].name == x;
      if i < j {
        assert short[i] == long[i];
      }
    }
    forall x | x in DeclNames(short)
      ensures x in DeclNames(long)
    {
      var i :| 0 <= i < |short| && short[i].name == x;
      assert long[i] == short[i];
    }
    assert long[j] == decls[j];
  }

  /** How declaration `d` fails with error `e` when the names `taken` are
      global already: its signature fails with `e`; or its name is taken and
      `e` blames the declaration; or it is a function (an external function
      with a fresh name always lowers) and `e` blames its first clashing
      parameter when there is one. */
  ghost predicate DeclFails(d: Ast.Declaration, taken: set<string>, e: SyntaxError)
  {
    match Signature(d)
    case Err(se) => e == se
    case Ok(_) =>
      if d.name in taken then e == SyntaxError(DuplicateDefinition, d.span)
      else
        && d.Function?
        && forall c: nat :: FirstClash(d.params, c) ==> e == SyntaxError(DuplicateDefinition, d.params[c].nameSpan)
  }

  /** Lowering stopped at declaration j with error `e`: every declaration
      before it has a lowered signature and a name of its own, and
      declaration j fails with `e` with their names taken. */
  ghost predicate FailsAt(decls: seq<Ast.Declaration>, j: nat, e: SyntaxError)
    requires j < |decls|
  {
    && DistinctNames(decls[..j])
    && (forall i :: 0 <= i < j ==> Signature(decls[i]).Ok?)
    && DeclFails(decls[j], DeclNames(decls[..j]), e)
  }

  /** One more lowered declaration, under a name not used before, keeps both. */
  lemma {:induction false} LoweredExtend(decls: seq<Ast.Declaration>, out: seq<Declaration>,
                                         next: Ast.Declaration, lowered: Declaration)
    requires LoweredInOrder(decls, out) && DistinctNames(decls)
    requires forall i :: 0 <= i < |decls| ==> decls[i].name != next.name
    requires DeclLowered(next, lowered)
    ensures LoweredInOrder(decls + [next], out + [lowered]) && DistinctNames(decls + [next])
  {
    var ds, os := decls + [next], out + [lowered];
    forall j | 0 <= j < |ds|
      ensures DeclLowered(ds[j], os[j])
    {
      if j < |decls| {
        assert ds[j] == decls[j] && os[j] == out[j];
      }
    }
    forall i, j | 0 <= i < j < |ds|
      ensures ds[i].name != ds[j].name
    {
      assert ds[i] == decls[i];
      if j < |decls| {
        assert ds[j] == decls[j];
      }
    }
  }

  /** Two first clashes are the same parameter. */
  lemma FirstClashUnique(params: seq<Ast.Param>, c: nat, c': nat)
    requires FirstClash(params, c) && FirstClash(params, c')
    ensures c == c'
  {
  }

  /** One step of `BuildTranslationUnit`: lowers declaration j after the
      declarations before it, which lowered to `out` and whose names are
      exactly the global scope. */
  method LowerNext(decls: seq<Ast.Declaration>, j: nat, out: seq<Declaration>, st: SymbolTable, o: Tyck.Oracle)
      returns (r: Result<Declaration>)
    requires j < |decls| && LoweredInOrder(decls[..j], out) && DistinctNames(decls[..j])
    requires st.locals == [] && st.globals.Keys == DeclNames(decls[..j])
    modifies st
    ensures r.Ok? ==>
              && LoweredInOrder(decls[..j + 1], out + [r.value]) && DistinctNames(decls[..j + 1])
              && st.locals == [] && st.globals.Keys == DeclNames(decls[..j + 1])
    ensures r.Err? ==> FailsAt(decls, j, r.error)
  {
    ghost var items, clash;
    var next := decls[j];
    r, items, clash := BuildDeclaration(next, st, o);
    if r.Ok? {
      LoweredPrefixExtend(decls, j, out, r.value);
      GlobalsExtend(decls, j, old(st.globals), st.globals, Type.Function(Signature(next).value));
    } else {
      LoweredSignatures(decls, j, out);
    }
  }

  /** Declaration j lowered under a name none before it has extends the
      lowered prefix by one. */
  lemma LoweredPrefixExtend(decls: seq<Ast.Declaration>, j: nat, out: seq<Declaration>, lowered: Declaration)
    requires j < |decls| && LoweredInOrder(decls[..j], out) && DistinctNames(decls[..j])
    requires DeclLowered(decls[j], lowered) && decls[j].name !in DeclNames(decls[..j])
    ensures LoweredInOrder(decls[..j + 1], out + [lowered]) && DistinctNames(decls[..j + 1])
  {
    NotInDeclNames(decls[..j], decls[j].name);
    LoweredExtend(decls[..j], out, decls[j], lowered);
    assert decls[..j + 1] == decls[..j] + [decls[j]];
  }

  /** Binding declaration j's name extends the global names by it. */
  lemma GlobalsExtend(decls: seq<Ast.Declaration>, j: nat, g0: map<string, Type>, g1: map<string, Type>, t: Type)
    requires j < |decls| && g0.Keys == DeclNames(decls[..j])
    requires g1 == g0[decls[j].name := t]
    ensures g1.Keys == DeclNames(decls[..j + 1])
  {
    DeclNamesStep(decls, j);
  }

  /** A name outside `DeclNames(decls)` is no declaration's name. */
  lemma NotInDeclNames(decls: seq<Ast.Declaration>, name: string)
    requires name !in DeclNames(decls)
    ensures forall i :: 0 <= i < |decls| ==> decls[i].name != name
  {
    forall i | 0 <= i < |decls|
      ensures decls[i].name != name
    {
      assert decls[i].name in DeclNames(decls);
    }
  }

  /** The declarations before j have lowered signatures when they lowered. */
  lemma LoweredSignatures(decls: seq<Ast.Declaration>, j: nat, out: seq<Declaration>)
    requires j <= |decls| && LoweredInOrder(decls[..j], out)
    ensures forall i :: 0 <= i < j ==> Signature(decls[i]).Ok?
  {
    forall i | 0 <= i < j
      ensures Signature(decls[i]).Ok?
    {
      assert decls[..j][i] == decls[i] && DeclLowered(decls[..j][i], out[i]);
    }
  }

  /** A unit of external functions whose signatures lower, under distinct
      names, fails nowhere. */
  lemma ExternsNeverFail(decls: seq<Ast.Declaration>, j: nat, e: SyntaxError)
    requires forall i :: 0 <= i < |decls| ==> decls[i].ExternFunction? && Signature(decls[i]).Ok?
    requires DistinctNames(decls) && j < |decls|
    ensures !FailsAt(decls, j, e)
  {
  }

  /** Lowers a translation unit with a fresh symbol table, declaration by
      declaration, stopping at the first error. A lowered unit lowers each
      input declaration in order, under distinct names; an error comes from
      the first declaration that fails; a unit of external functions whose
      signatures lower, under distinct names, lowers to exactly those
      functions. */
  method BuildTranslationUnit(tu: Ast.TranslationUnit, o: Tyck.Oracle) returns (r: Result<TranslationUnit>)
    ensures r.Ok? ==> LoweredInOrder(tu.declarations, r.value.declarations)
    ensures r.Ok? ==> DistinctNames(tu.declarations)
    ensures r.Err? ==> exists j :: 0 <= j < |tu.declarations| && FailsAt(tu.declarations, j, r.error)
    ensures (forall i :: 0 <= i < |tu.declarations| ==>
               tu.declarations[i].ExternFunction? && Signature(tu.declarations[i]).Ok?) &&
            DistinctNames(tu.declarations) ==>
              && r.Ok?
              && forall i :: 0 <= i < |tu.declarations| ==>
                   r.value.declarations[i] == ExternFunction(tu.declarations[i].name, Signature(tu.declarations[i]).value)
  {
    var decls := tu.declarations;
    var st := new SymbolTable();
    var out: seq<Declaration> := [];
    var j := 0;
    assert DeclNames(decls[..0]) == {};
    while j < |decls|
      invariant 0 <= j <= |decls|
      invariant st.locals == [] && st.globals.Keys == DeclNames(decls[..j])
      invariant LoweredInOrder(decls[..j], out) && DistinctNames(decls[..j])
    {
      var d := LowerNext(decls, j, out, st, o);
      if d.Err? {
        if forall i :: 0 <= i < |decls| ==> decls[i].ExternFunction? && Signature(decls[i]).Ok? {
          if DistinctNames(decls) {
            ExternsNeverFail(decls, j, d.error);
          }
        }
        return Err(d.error);
      }
      out := out + [d.value];
      j := j + 1;
    }
    assert decls[..j] == decls;
    r := Ok(TranslationUnit(out));
  }
}

=== FILE: ir.dfy ===
/** The intermediate representation produced by the lowering pass, together
    with the error values it reports. Every node mirrors a form used by
    src/ir/builder.rs; the `ir` module itself is not part of this model, so
    these datatypes are reconstructed from its uses. */
module Ir {

  /** Identifier of a stack slot (`ir::LocalVarId`). */
  type LocalVarId = nat
  /** Label of a basic block (`ir::BasicBlockId`); label 0 is the entry block. */
  type BlockId = nat

  newtype u8 = x: int | 0 <= x < 256

  datatype Option<T> = None | Some(value: T)

  /** A source range; only carried along for diagnostics. */
  datatype Span = Span(lo: nat, hi: nat)

  /** The kinds of user-facing lowering errors. The message text of each is abstracted away. */
  datatype ErrorKind =
    | DuplicateDefinition
    | UndefinedName
    | LetTypeMismatch
    | AssignTypeMismatch
    | ReturnTypeMismatch
    | AssignToNonLValue
    | SubscriptOnNonArray
    | IndexNotInt
    | OperatorTypeMismatch
    | InvalidCast
    | NotCallable
    | ParamMismatch
    | NonBoolCondition
    | BreakOutsideLoop
    | ContinueOutsideLoop
    | MissingReturn
    | UnrecognizedType
    | InvalidEscape
    | EmptyCharLiteral
    | MultiCharLiteral
    | Unimplemented

  datatype SyntaxError = SyntaxError(kind: ErrorKind, span: Span)

  datatype Result<T> = Ok(value: T) | Err(error: SyntaxError)

  /** `LValue(t)` is a storage location holding a `t`, as opposed to a plain `t` value. */
  datatype Type =
    | Unit
    | Bool
    | Int
    | Double
    | Char
    | Ptr(pointee: Type)
    | Array(elem: Type, size: nat)
    | Function(fty: FunctionType)
    | LValue(stored: Type)

  datatype FunctionType = FunctionType(returnTy: Type, paramsTy: seq<Type>)

  /** A floating-point payload, carried without interpretation. */
  datatype DoubleBits = DoubleBits(bits: nat)

  datatype Literal =
    | UnitLit
    | IntLit(i: int)
    | DoubleLit(d: DoubleBits)
    | BoolLit(b: bool)
    | CharLit(c: u8)

  /** Operation codes chosen by the type-check oracle; opaque to this pass. */
  datatype BinOperator = BinOperator(code: nat)
  datatype UnOperator = UnOperator(code: nat)
  datatype CastKind = CastKind(code: nat)

  /** The result of exactly one statement: a fresh id and its type. */
  datatype Value = Value(id: nat, ty: Type)

  datatype Expression =
    | Lit(lit: Literal)
    | GlobalLoad(name: string)
    | LocalVarLoad(local: LocalVarId)
    | LValueLoad(location: Value)
    | BinOp(bop: BinOperator, left: Value, right: Value)
    | UnOp(uop: UnOperator, operand: Value)
    | CastOp(kind: CastKind, source: Value)
    | ReadArray(arr: Value, index: Value)
    | FuncCall(callee: Value, args: seq<Value>)

  datatype Statement =
    | Assign(target: Value, rhs: Expression)
    | LValueSet(lvalue: Value, rvalue: Value)

  datatype Terminator =
    | Br(target: BlockId)
    | BrCond(cond: Value, ifTrue: BlockId, ifFalse: BlockId)
    | Ret(result: Value)

  datatype BasicBlock = BasicBlock(id: BlockId, stmts: seq<Statement>, terminator: Terminator)

  /** One stack slot; `paramIndex` is `Some(i)` for the i-th parameter. */
  datatype LocalVar = LocalVar(id: LocalVarId, ty: Type, paramIndex: Option<nat>)

  datatype Declaration =
    | ExternFunction(name: string, ty: FunctionType)
    | Function(name: string, ty: FunctionType, locals: seq<LocalVar>, bbs: seq<BasicBlock>)

  datatype TranslationUnit = TranslationUnit(declarations: seq<Declaration>)

  /** A type in which no storage-location wrapper occurs at any depth. */
  predicate NoLValue(t: Type)
  {
    match t
    case Ptr(p) => NoLValue(p)
    case Array(e, _) => NoLValue(e)
    case Function(f) => NoLValue(f.returnTy) && forall i :: 0 <= i < |f.paramsTy| ==> NoLValue(f.paramsTy[i])
    case LValue(_) => false
    case _ => true
  }

  /** The branch targets of a terminator. */
  function Targets(t: Terminator): set<BlockId>
  {
    match t
    case Br(l) => {l}
    case BrCond(_, a, b) => {a, b}
    case Ret(_) => {}
  }
}

=== FILE: literals.dfy ===
/** Literal lowering (`build_literal`): every literal form maps to its IR
    literal unchanged except character literals, whose source text is
    unescaped and must then be exactly one byte long in UTF-8. */
module Literals {
  import opened Ir
  import Ast

  /** The character an escape letter stands for after a backslash, or `None`
      when the letter is not one of the ten accepted escapes. A backslash
      itself is not among them. */
  function EscapeCode(c: char): (r: Option<char>)
    ensures r.Some? ==> c != '\\'
  {
    match c
    case '\'' => Some('\'')
    case '"' => Some('"')
    case 'a' => Some(7 as char)
    case 'b' => Some(8 as char)
    case 'f' => Some(12 as char)
    case 'n' => Some('\n')
    case 'r' => Some('\r')
    case 't' => Some('\t')
    case 'v' => Some(11 as char)
    case '0' => Some(0 as char)
    case _ => None
  }

  /** Prefixes decoded text, propagating a failure. */
  function Then(prefix: string, rest: Option<string>): Option<string>
  {
    if rest.None? then None else Some(prefix + rest.value)
  }

  lemma ThenAppend(a: string, b: string, rest: Option<string>)
    ensures Then(a, Then(b, rest)) == Then(a + b, rest)
    ensures Then([], rest) == rest
  {
    if rest.Some? {
      assert a + (b + rest.value) == (a + b) + rest.value;
      assert [] + rest.value == rest.value;
    }
  }

  /** The decoding of a character literal's text, read from the front: a
      plain character stands for itself, a backslash and an accepted letter
      stand for its code, a backslash and any other letter make the whole text
      invalid, and a backslash at the very end is dropped. */
  function Unescape(s: string): Option<string>
    decreases |s|
  {
    if |s| == 0 then Some([])
    else if s[0] != '\\' then Then([s[0]], Unescape(s[1..]))
    else if |s| == 1 then Some([])
    else
      var code := EscapeCode(s[1]);
      if code.None? then None else Then([code.value], Unescape(s[2..]))
  }

  /** Bytes needed to encode `c` in UTF-8. */
  function Utf8Width(c: char): nat
  {
    if c as int < 0x80 then 1
    else if c as int < 0x800 then 2
    else if c as int < 0x1_0000 then 3
    else 4
  }

  /** The UTF-8 byte length of a string (`String::len`). */
  function Utf8Length(s: string): nat
    decreases |s|
  {
    if |s| == 0 then 0 else Utf8Width(s[0]) + Utf8Length(s[1..])
  }

  /** A text is one byte long exactly when it is a single ASCII character, and
      empty exactly when it has no characters. */
  lemma {:induction false} Utf8LengthOne(s: string)
    ensures Utf8Length(s) == 0 <==> |s| == 0
    ensures Utf8Length(s) == 1 <==> |s| == 1 && (s[0] as int) < 0x80
    decreases |s|
  {
    if |s| > 0 {
      Utf8LengthOne(s[1..]);
    }
  }

  /** The outcome for decoded text: too long, empty, or its single byte. */
  function CharFromDecoded(out: string, span: Span): (r: Result<Ir.Literal>)
    ensures r.Ok? <==> |out| == 1 && (out[0] as int) < 0x80
    ensures r.Ok? ==> r.value == CharLit(out[0] as int as u8)
    ensures r.Err? ==> r.error.span == span
    ensures r == Err(SyntaxError(EmptyCharLiteral, span)) <==> |out| == 0
    ensures |out| > 0 && r.Err? ==> r.error.kind == MultiCharLiteral
  {
    Utf8LengthOne(out);
    var n := Utf8Length(out);
    if n > 1 then Err(SyntaxError(MultiCharLiteral, span))
    else if n == 0 then Err(SyntaxError(EmptyCharLiteral, span))
    else Ok(CharLit(out[0] as int as u8))
  }

  /** What `build_literal` answers for a literal. */
  function LiteralSpec(lit: Ast.Literal, span: Span): Result<Ir.Literal>
  {
    match lit
    case UnitLit => Ok(Ir.UnitLit)
    case IntLit(i) => Ok(Ir.IntLit(i))
    case DoubleLit(d) => Ok(Ir.DoubleLit(d))
    case BoolLit(b) => Ok(Ir.BoolLit(b))
    case CharLit(text) =>
      var out := Unescape(text);
      if out.None? then Err(SyntaxError(InvalidEscape, span)) else CharFromDecoded(out.value, span)
  }

  /** Lowers a literal; a character literal is unescaped in one pass over its
      text, carrying whether the previous character was an unconsumed backslash. */
  method BuildLiteral(lit: Ast.Literal, span: Span) returns (r: Result<Ir.Literal>)
    ensures r == LiteralSpec(lit, span)
  {
    match lit {
      case UnitLit => return Ok(Ir.UnitLit);
      case IntLit(i) => return Ok(Ir.IntLit(i));
      case DoubleLit(d) => return Ok(Ir.DoubleLit(d));
      case BoolLit(b) => return Ok(Ir.BoolLit(b));
      case CharLit(text) =>
        var output: string := [];
        var slash := false;
        var i := 0;
        ThenAppend([], [], Unescape(text));
        assert text[0..] == text;
        while i < |text|
          invariant 0 <= i <= |text|
          invariant slash ==> i > 0 && text[i - 1] == '\\'
          invariant Unescape(text) == Then(output, Unescape(text[(if slash then i - 1 else i)..]))
        {
          var c := text[i];
          if slash {
            var code := EscapeCode(c);
            if code.None? {
              return Err(SyntaxError(InvalidEscape, span));
            }
            assert text[i - 1..][2..] == text[i + 1..];
            ThenAppend(output, [code.value], Unescape(text[i + 1..]));
            output := output + [code.value];
            slash := false;
          } else if c == '\\' {
            slash := true;
          } else {
            assert text[i..][1..] == text[i + 1..];
            ThenAppend(output, [c], Unescape(text[i + 1..]));
            output := output + [c];
          }
          i := i + 1;
        }
        assert output + [] == output;
        assert Unescape(text) == Some(output);
        Utf8LengthOne(output);
        var n := Utf8Length(output);
        if n > 1 {
          r := Err(SyntaxError(MultiCharLiteral, span));
        } else if n == 0 {
          r := Err(SyntaxError(EmptyCharLiteral, span));
        } else {
          r := Ok(CharLit(output[0] as int as u8));
        }
    }
  }

  // ---------------------------------------------------------------------------
  // Properties of the decoding
  // ---------------------------------------------------------------------------

  /** Text without backslashes decodes to itself. */
  lemma {:induction false} PlainTextUnchanged(s: string)
    requires forall k :: 0 <= k < |s| ==> s[k] != '\\'
    ensures Unescape(s) == Some(s)
    decreases |s|
  {
    if |s| > 0 {
      PlainTextUnchanged(s[1..]);
      assert [s[0]] + s[1..] == s;
    }
  }

  /** A backslash left dangling at the end of plain text is dropped. */
  lemma {:induction false} TrailingBackslashDropped(s: string)
    requires forall k :: 0 <= k < |s| ==> s[k] != '\\'
    ensures Unescape(s + "\\") == Some(s)
    decreases |s|
  {
    if |s| > 0 {
      assert (s + "\\")[1..] == s[1..] + "\\";
      TrailingBackslashDropped(s[1..]);
      assert [s[0]] + s[1..] == s;
    }
  }

  /** The letter that escapes a character, when the character has one. */
  function EscapeLetter(c: char): Option<char>
  {
    if c == '\'' then Some('\'')
    else if c == '"' then Some('"')
    else if c == 7 as char then Some('a')
    else if c == 8 as char then Some('b')
    else if c == 12 as char then Some('f')
    else if c == '\n' then Some('n')
    else if c == '\r' then Some('r')
    else if c == '\t' then Some('t')
    else if c == 11 as char then Some('v')
    else if c == 0 as char then Some('0')
    else None
  }

  /** Writes text in escaped form: every character that has an escape letter
      becomes a backslash and that letter. */
  function Escape(s: string): string
    decreases |s|
  {
    if |s| == 0 then []
    else
      var l := EscapeLetter(s[0]);
      (if l.Some? then ['\\', l.value] else [s[0]]) + Escape(s[1..])
  }

  /** Every text without backslashes survives escaping and decoding. */
  lemma {:induction false} EscapeRoundTrip(s: string)
    requires forall k :: 0 <= k < |s| ==> s[k] != '\\'
    ensures Unescape(Escape(s)) == Some(s)
    decreases |s|
  {
    if |s| > 0 {
      EscapeRoundTrip(s[1..]);
      var l := EscapeLetter(s[0]);
      var e := Escape(s);
      if l.Some? {
        assert e[2..] == Escape(s[1..]);
        assert EscapeCode(l.value) == Some(s[0]);
      } else {
        assert e[1..] == Escape(s[1..]);
      }
      assert [s[0]] + s[1..] == s;
    }
  }

  /** Each accepted escape on its own yields the byte of its code, and an
      escaped backslash is rejected. */
  lemma SingleEscape(c: char, span: Span)
    ensures EscapeCode(c).Some? ==>
              LiteralSpec(Ast.CharLit(['\\', c]), span) == Ok(CharLit(EscapeCode(c).value as int as u8))
    ensures EscapeCode(c).None? ==>
              LiteralSpec(Ast.CharLit(['\\', c]), span) == Err(SyntaxError(InvalidEscape, span))
  {
    var s := ['\\', c];
    assert s[2..] == [];
    if EscapeCode(c).Some? {
      assert [EscapeCode(c).value] + [] == [EscapeCode(c).value];
      assert Unescape(s) == Some([EscapeCode(c).value]);
    }
  }

  /** A single plain character is accepted exactly when it is ASCII: any
      other character takes more than one byte. */
  lemma SinglePlainChar(c: char, span: Span)
    requires c != '\\'
    ensures LiteralSpec(Ast.CharLit([c]), span) ==
            if (c as int) < 0x80 then Ok(CharLit(c as int as u8)) else Err(SyntaxError(MultiCharLiteral, span))
  {
    var s := [c];
    assert s[1..] == [];
    assert [c] + [] == [c];
    assert Unescape(s) == Some([c]);
    Utf8LengthOne([c]);
  }

  /** Decoding never lengthens text, so the decoded text of an empty
      literal is empty and the literal is rejected. */
  lemma {:induction false} UnescapeShrinks(s: string)
    ensures Unescape(s).Some? ==> |Unescape(s).value| <= |s|
    decreases |s|
  {
    if |s| == 1 {
    } else if |s| > 1 {
      UnescapeShrinks(s[1..]);
      UnescapeShrinks(s[2..]);
    }
  }
}

=== FILE: lowering.dfy ===
/** Expression lowering (`build_expression`, `build_lvalue_to_rvalue`): each
    expression becomes straight-line statements that define one fresh
    temporary per intermediate value, except the short-circuit operators,
    which open blocks and go through an anonymous boolean slot. */
module ExprLowering {
  import opened Ir
  import Ast
  import Cfg
  import opened Symbols
  import opened Builder
  import Literals
  import opened Types
  import Tyck

  /** What every expression lowering leaves intact or only extends: the
      builder's invariant holds, its buffer, slots and counters only grow,
      and the loop context is untouched. */
  twostate predicate ExprStep(fb: FunctionBuilder)
    reads fb
  {
    fb.Valid() && Grows(fb) && fb.currentLoopInfo == old(fb.currentLoopInfo)
  }

  /** The types of a list of values. */
  function TypesOf(vs: seq<Value>): seq<Type>
  {
    seq(|vs|, k requires 0 <= k < |vs| => vs[k].ty)
  }

  /** The type of the temporary that holds a literal. */
  function LiteralType(l: Literal): Type
  {
    match l
    case IntLit(_) => Int
    case DoubleLit(_) => Double
    case BoolLit(_) => Bool
    case CharLit(_) => Char
    case UnitLit => Unit
  }

  /** Reads a storage location into a fresh temporary; any other value is
      already usable and is returned unchanged without emitting anything. */
  method BuildLvalueToRvalue(fb: FunctionBuilder, v: Value) returns (w: Value)
    modifies fb`currentTempId, fb`items
    ensures v.ty.LValue? ==>
              && w == Value(old(fb.currentTempId), v.ty.stored)
              && fb.items == old(fb.items) + [Cfg.Stmt(Assign(w, LValueLoad(v)))]
              && fb.currentTempId == old(fb.currentTempId) + 1
    ensures !v.ty.LValue? ==> w == v && fb.items == old(fb.items) && fb.currentTempId == old(fb.currentTempId)
    ensures old(fb.Valid()) ==> fb.Valid()
  {
    if v.ty.LValue? {
      w := fb.NewTempValue(v.ty.stored);
      fb.PushStatement(Assign(w, LValueLoad(v)));
    } else {
      w := v;
    }
  }

  /** Lowers an expression, defining its value in a fresh temporary. */
  method BuildExpression(fb: FunctionBuilder, e: Ast.Expr, o: Tyck.Oracle) returns (r: Result<Value>)
    requires fb.Valid()
    modifies fb
    ensures ExprStep(fb)
    ensures r.Ok? ==> old(fb.currentTempId) <= r.value.id < fb.currentTempId
    ensures r.Ok? ==> DefinedIn(fb.items, |old(fb.items)|, |fb.items|, r.value)
    ensures e.inner.ArrayFullLiteral? || e.inner.ArrayDefaultLiteral? ==>
              r == Err(SyntaxError(Unimplemented, e.span)) && fb.items == old(fb.items)
    decreases e, 1
  {
    match e.inner {
      case Assign(_, _) =>
        ghost var marks;
        r, marks := BuildAssign(fb, e, o);
      case Subscript(_, _) =>
        ghost var marks;
        r, marks := BuildSubscript(fb, e, o);
      case BinOp(op, _, _) =>
        if op == Ast.LogicalAnd {
          ghost var slot, t, i, lv, rv;
          r, slot, t, i, lv, rv := BuildAnd(fb, e, o);
        } else if op == Ast.LogicalOr {
          ghost var slot, t, i, lv, rv;
          r, slot, t, i, lv, rv := BuildOr(fb, e, o);
        } else {
          ghost var marks;
          r, marks := BuildArith(fb, e, o);
        }
      case UnOp(_, _) =>
        ghost var operand;
        r, operand := BuildUnary(fb, e, o);
      case FuncCall(_, _) =>
        ghost var marks;
        r, marks := BuildCall(fb, e, o);
      case Cast(_, _) => r := BuildCast(fb, e, o);
      case Paren(inner) => r := BuildExpression(fb, inner, o);
      case Identifier(_) => r := BuildIdentifier(fb, e);
      case Literal(_) => r := BuildLiteralValue(fb, e);
      case ArrayFullLiteral(_) => r := Err(SyntaxError(Unimplemented, e.span));
      case ArrayDefaultLiteral(_, _) => r := Err(SyntaxError(Unimplemented, e.span));
    }
  }

  /** `lhs = rhs`: the left side must be a storage location of exactly the
      right side's type; the right side's value is stored and is also the
      value of the whole expression. */
  method BuildAssign(fb: FunctionBuilder, e: Ast.Expr, o: Tyck.Oracle) returns (r: Result<Value>, ghost marks: seq<nat>)
    requires e.inner.Assign? && fb.Valid()
    modifies fb
    ensures ExprStep(fb)
    ensures r.Ok? ==> old(fb.currentTempId) <= r.value.id < fb.currentTempId
    ensures r.Ok? ==> DefinedIn(fb.items, |old(fb.items)|, |fb.items|, r.value)
    ensures r.Ok? ==>
              && |fb.items| > 0 && fb.items[|fb.items| - 1].Stmt?
              && var last := fb.items[|fb.items| - 1].stmt;
              && last.LValueSet? && last.rvalue == r.value && last.lvalue.ty == LValue(r.value.ty)
              && Evaluated(fb.items, marks, |old(fb.items)|, |fb.items| - 1, [last.lvalue, last.rvalue])
    decreases e, 0
  {
    ghost var items0 := fb.items;
    var lhs := BuildExpression(fb, e.inner.lhs, o);
    if lhs.Err? {
      return Err(lhs.error), [];
    }
    var lv := lhs.value;
    EvaluatedExtend(items0, fb.items, [|items0|], |items0|, |items0|, [], |fb.items|, lv);
    var rhs, m2 := EvaluateOperand(fb, e.inner.rhs, o, [|items0|, |fb.items|], |items0|, [lv]);
    if rhs.Err? {
      return Err(rhs.error), [];
    }
    var rv := rhs.value;
    marks := m2;
    if lv.ty.LValue? {
      if lv.ty.stored == rv.ty {
        ghost var items2 := fb.items;
        fb.PushStatement(LValueSet(lv, rv));
        assert DefinedIn(items2, marks[1], marks[2], rv);
        DefinedInLonger(items2, fb.items, marks[1], marks[2], |items0|, |fb.items|, rv);
        EvaluatedLonger(items2, fb.items, marks, |items0|, |items2|, [lv, rv]);
        r := Ok(rv);
      } else {
        r := Err(SyntaxError(AssignTypeMismatch, e.span));
      }
    } else {
      r := Err(SyntaxError(AssignToNonLValue, e.span));
    }
  }

  /** `array[index]`: the array value must have an array type and the index
      must be an int; the result is a storage location of the element type. */
  method BuildSubscript(fb: FunctionBuilder, e: Ast.Expr, o: Tyck.Oracle) returns (r: Result<Value>, ghost marks: seq<nat>)
    requires e.inner.Subscript? && fb.Valid()
    modifies fb
    ensures ExprStep(fb)
    ensures r.Ok? ==> old(fb.currentTempId) <= r.value.id < fb.currentTempId
    ensures r.Ok? ==> DefinedIn(fb.items, |old(fb.items)|, |fb.items|, r.value)
    ensures r.Ok? ==>
              && |fb.items| > 0 && fb.items[|fb.items| - 1].Stmt?
              && var last := fb.items[|fb.items| - 1].stmt;
              && last.Assign? && last.target == r.value && last.rhs.ReadArray?
              && last.rhs.arr.ty.Array? && last.rhs.index.ty == Int
              && r.value.ty == LValue(last.rhs.arr.ty.elem)
              && Evaluated(fb.items, marks, |old(fb.items)|, |fb.items| - 1, [last.rhs.arr, last.rhs.index])
    decreases e, 0
  {
    ghost var items0 := fb.items;
    var arr, m1 := EvaluateOperand(fb, e.inner.arr, o, [|items0|], |items0|, []);
    if arr.Err? {
      return Err(arr.error), [];
    }
    var av := arr.value;
    var idx, m2 := EvaluateOperand(fb, e.inner.index, o, m1, |items0|, [av]);
    if idx.Err? {
      return Err(idx.error), [];
    }
    var iv := idx.value;
    marks := m2;
    if av.ty.Array? {
      if iv.ty == Int {
        ghost var items2 := fb.items;
        var v := fb.NewTempValue(LValue(av.ty.elem));
        fb.PushStatement(Assign(v, ReadArray(av, iv)));
        assert Defines(fb.items[|fb.items| - 1], v);
        EvaluatedLonger(items2, fb.items, marks, |items0|, |items2|, [av, iv]);
        r := Ok(v);
      } else {
        r := Err(SyntaxError(IndexNotInt, e.span));
      }
    } else {
      r := Err(SyntaxError(SubscriptOnNonArray, e.span));
    }
  }

  /** A segment inside a prefix reads the same in the longer buffer. */
  lemma SliceOfPrefix(short: seq<Cfg.Item>, long: seq<Cfg.Item>, lo: nat, hi: nat)
    requires short <= long && lo <= hi <= |short|
    ensures long[lo..hi] == short[lo..hi]
  {
    assert long[..|short|] == short;
  }

  /** An operand read as a value: the expression is lowered, then a storage
      location is read into a fresh temporary. The value is fresh and defined
      among the entries appended. */
  method BuildOperand(fb: FunctionBuilder, e: Ast.Expr, o: Tyck.Oracle) returns (r: Result<Value>)
    requires fb.Valid()
    modifies fb
    ensures ExprStep(fb)
    ensures r.Ok? ==>
              && old(fb.currentTempId) <= r.value.id < fb.currentTempId
              && DefinedIn(fb.items, |old(fb.items)|, |fb.items|, r.value)
    decreases e, 2
  {
    var sub := BuildExpression(fb, e, o);
    if sub.Err? {
      return Err(sub.error);
    }
    ghost var items1 := fb.items;
    var v := BuildLvalueToRvalue(fb, sub.value);
    RvalueDefined(items1, fb.items, |old(fb.items)|, sub.value, v);
    r := Ok(v);
  }

  /** Lowers and reads one more operand after the operands `vs`, which were
      evaluated in order from `lo` up to the end of the buffer; the new value
      is fresh and extends that order. */
  method EvaluateOperand(fb: FunctionBuilder, e: Ast.Expr, o: Tyck.Oracle, ghost marks: seq<nat>, ghost lo: nat,
                         ghost vs: seq<Value>) returns (r: Result<Value>, ghost marks': seq<nat>)
    requires fb.Valid() && Evaluated(fb.items, marks, lo, |fb.items|, vs)
    requires forall j :: 0 <= j < |vs| ==> vs[j].id < fb.currentTempId
    modifies fb
    ensures ExprStep(fb)
    ensures r.Ok? ==>
              && old(fb.currentTempId) <= r.value.id < fb.currentTempId
              && Evaluated(fb.items, marks', lo, |fb.items|, vs + [r.value])
              && forall j :: 0 <= j < |vs + [r.value]| ==> (vs + [r.value])[j].id < fb.currentTempId
    decreases e, 3
  {
    ghost var before := fb.items;
    marks' := marks;
    r := BuildOperand(fb, e, o);
    if r.Ok? {
      EvaluatedExtend(before, fb.items, marks, lo, |before|, vs, |fb.items|, r.value);
      marks' := marks + [|fb.items|];
    }
  }

  /** The entry `it` is a definition of the temporary `v`. */
  predicate Defines(it: Cfg.Item, v: Value)
  {
    it.Stmt? && it.stmt.Assign? && it.stmt.target == v
  }

  /** Some entry at an index in [lo, hi) defines `v`: the value is computed
      there, not made up. */
  ghost predicate DefinedIn(items: seq<Cfg.Item>, lo: nat, hi: nat, v: Value)
  {
    exists k :: lo <= k < hi && k < |items| && Defines(items[k], v)
  }

  /** A definition stays in place when the buffer grows and the range widens. */
  lemma DefinedInLonger(short: seq<Cfg.Item>, long: seq<Cfg.Item>, lo: nat, hi: nat, lo': nat, hi': nat, v: Value)
    requires DefinedIn(short, lo, hi, v) && short <= long && lo' <= lo && hi <= hi'
    ensures DefinedIn(long, lo', hi', v)
  {
    var k :| lo <= k < hi && k < |short| && Defines(short[k], v);
    assert long[k] == short[k];
  }

  /** Reading a defined value as a value yields a value defined in the same
      range, now ending at the new end of the buffer. */
  lemma RvalueDefined(before: seq<Cfg.Item>, after: seq<Cfg.Item>, lo: nat, v: Value, w: Value)
    requires DefinedIn(before, lo, |before|, v)
    requires v.ty.LValue? ==> after == before + [Cfg.Stmt(Assign(w, LValueLoad(v)))]
    requires !v.ty.LValue? ==> w == v && after == before
    ensures DefinedIn(after, lo, |after|, w)
  {
    if v.ty.LValue? {
      assert Defines(after[|before|], w);
      var k :| lo <= k < |before| && k < |before| && Defines(before[k], v);
      assert lo <= k;
    }
  }

  /** The operand values `vs` were evaluated in order between `lo` and `hi`:
      `vs[j]` is defined in the segment [marks[j], marks[j + 1]), the segments
      follow one another, and the temporaries are numbered in the same order. */
  ghost predicate Evaluated(items: seq<Cfg.Item>, marks: seq<nat>, lo: nat, hi: nat, vs: seq<Value>)
  {
    && |marks| == |vs| + 1 && marks[0] == lo && marks[|vs|] == hi
    && (forall j :: 0 <= j < |vs| ==> marks[j] <= marks[j + 1] && DefinedIn(items, marks[j], marks[j + 1], vs[j]))
    && (forall i, j :: 0 <= i < j < |vs| ==> vs[i].id < vs[j].id)
  }

  /** Evaluated operands stay evaluated when the buffer grows. */
  lemma EvaluatedLonger(short: seq<Cfg.Item>, long: seq<Cfg.Item>, marks: seq<nat>, lo: nat, hi: nat, vs: seq<Value>)
    requires Evaluated(short, marks, lo, hi, vs) && short <= long
    ensures Evaluated(long, marks, lo, hi, vs)
  {
    forall j | 0 <= j < |vs|
      ensures DefinedIn(long, marks[j], marks[j + 1], vs[j])
    {
      DefinedInLonger(short, long, marks[j], marks[j + 1], marks[j], marks[j + 1], vs[j]);
    }
  }

  /** One more operand, defined right after the others under a later
      temporary, extends the evaluation order. */
  lemma EvaluatedExtend(short: seq<Cfg.Item>, long: seq<Cfg.Item>, marks: seq<nat>, lo: nat, hi: nat,
                        vs: seq<Value>, hi': nat, v: Value)
    requires Evaluated(short, marks, lo, hi, vs) && short <= long && hi <= hi'
    requires DefinedIn(long, hi, hi', v)
    requires forall j :: 0 <= j < |vs| ==> vs[j].id < v.id
    ensures Evaluated(long, marks + [hi'], lo, hi', vs + [v])
  {
    EvaluatedLonger(short, long, marks, lo, hi, vs);
    var ms, ws := marks + [hi'], vs + [v];
    forall j | 0 <= j < |ws|
      ensures ms[j] <= ms[j + 1] && DefinedIn(long, ms[j], ms[j + 1], ws[j])
    {
      if j < |vs| {
        assert ms[j] == marks[j] && ms[j + 1] == marks[j + 1] && ws[j] == vs[j];
      }
    }
  }

  /** A store of the constant `b` into the boolean slot: the literal, the
      slot's address, and the write. */
  predicate StoresConstant(seg: seq<Cfg.Item>, slot: LocalVarId, b: bool)
  {
    && |seg| == 3
    && seg[0].Stmt? && seg[0].stmt.Assign? && seg[0].stmt.rhs == Lit(BoolLit(b)) && seg[0].stmt.target.ty == Bool
    && seg[1].Stmt? && seg[1].stmt.Assign? && seg[1].stmt.rhs == LocalVarLoad(slot)
    && seg[1].stmt.target.ty == LValue(Bool)
    && seg[2] == Cfg.Stmt(LValueSet(seg[1].stmt.target, seg[0].stmt.target))
  }

  /** A store of the right operand's value `v` into the boolean slot. */
  predicate StoresOperand(seg: seq<Cfg.Item>, slot: LocalVarId, v: Value)
  {
    && |seg| == 2
    && seg[0].Stmt? && seg[0].stmt.Assign? && seg[0].stmt.rhs == LocalVarLoad(slot)
    && seg[0].stmt.target.ty == LValue(Bool)
    && seg[1] == Cfg.Stmt(LValueSet(seg[0].stmt.target, v))
  }

  /** The read of the boolean slot that yields the operator's value `v`. */
  predicate LoadsSlot(seg: seq<Cfg.Item>, slot: LocalVarId, v: Value)
  {
    && |seg| == 2
    && seg[0].Stmt? && seg[0].stmt.Assign? && seg[0].stmt.rhs == LocalVarLoad(slot)
    && seg[0].stmt.target.ty == LValue(Bool)
    && seg[1] == Cfg.Stmt(Assign(v, LValueLoad(seg[0].stmt.target)))
    && v.ty == Bool
  }

  /** The branch on the left operand's value `v`: to block `t` when it holds,
      to `t + 1` otherwise; it opens `t`. */
  predicate BranchesOnLeft(it: Cfg.Item, t: BlockId, v: Value)
  {
    it == Cfg.Marker(Some(BrCond(v, t, t + 1)), t)
  }

  /** The end of `&&` after the right operand's value `v`: block t stores `v`
      and jumps to t + 2; block t + 1 stores false and jumps to t + 2; block
      t + 2 reads the slot into `result`. */
  predicate AndTail(seg: seq<Cfg.Item>, slot: LocalVarId, t: BlockId, v: Value, result: Value)
  {
    && |seg| == 9
    && StoresOperand(seg[..2], slot, v)
    && seg[2] == Cfg.Marker(Some(Br(t + 2)), t + 1)
    && StoresConstant(seg[3..6], slot, false)
    && seg[6] == Cfg.Marker(Some(Br(t + 2)), t + 2)
    && LoadsSlot(seg[7..], slot, result)
  }

  /** The start of block t of `||`: it stores true and jumps to t + 2, opening t + 1. */
  predicate OrHead(seg: seq<Cfg.Item>, slot: LocalVarId, t: BlockId)
  {
    && |seg| == 4
    && StoresConstant(seg[..3], slot, true)
    && seg[3] == Cfg.Marker(Some(Br(t + 2)), t + 1)
  }

  /** The end of `||` after the right operand's value `v`: block t + 1
      stores `v` and jumps to t + 2, which reads the slot into `result`. */
  predicate OrTail(seg: seq<Cfg.Item>, slot: LocalVarId, t: BlockId, v: Value, result: Value)
  {
    && |seg| == 5
    && StoresOperand(seg[..2], slot, v)
    && seg[2] == Cfg.Marker(Some(Br(t + 2)), t + 2)
    && LoadsSlot(seg[3..], slot, result)
  }

  /** Pushes a store of the constant `b` into `slot`. */
  method StoreConstant(fb: FunctionBuilder, slot: LocalVarId, b: bool) returns (ghost seg: seq<Cfg.Item>)
    modifies fb`currentTempId, fb`items
    ensures fb.items == old(fb.items) + seg && StoresConstant(seg, slot, b)
    ensures old(fb.currentTempId) <= fb.currentTempId
    ensures old(fb.Valid()) ==> fb.Valid()
  {
    var c := fb.NewTempValue(Bool);
    fb.PushStatement(Assign(c, Lit(BoolLit(b))));
    var store := fb.NewTempValue(LValue(Bool));
    fb.PushStatement(Assign(store, LocalVarLoad(slot)));
    fb.PushStatement(LValueSet(store, c));
    seg := [Cfg.Stmt(Assign(c, Lit(BoolLit(b)))), Cfg.Stmt(Assign(store, LocalVarLoad(slot))),
            Cfg.Stmt(LValueSet(store, c))];
  }

  /** Pushes a store of `v` into `slot`. */
  method StoreOperand(fb: FunctionBuilder, slot: LocalVarId, v: Value) returns (ghost seg: seq<Cfg.Item>)
    modifies fb`currentTempId, fb`items
    ensures fb.items == old(fb.items) + seg && StoresOperand(seg, slot, v)
    ensures old(fb.currentTempId) <= fb.currentTempId
    ensures old(fb.Valid()) ==> fb.Valid()
  {
    var store := fb.NewTempValue(LValue(Bool));
    fb.PushStatement(Assign(store, LocalVarLoad(slot)));
    fb.PushStatement(LValueSet(store, v));
    seg := [Cfg.Stmt(Assign(store, LocalVarLoad(slot))), Cfg.Stmt(LValueSet(store, v))];
  }

  /** Pushes a read of `slot` into a fresh boolean temporary. */
  method LoadSlot(fb: FunctionBuilder, slot: LocalVarId) returns (v: Value, ghost seg: seq<Cfg.Item>)
    modifies fb`currentTempId, fb`items
    ensures fb.items == old(fb.items) + seg && LoadsSlot(seg, slot, v)
    ensures old(fb.currentTempId) <= v.id < fb.currentTempId
    ensures old(fb.Valid()) ==> fb.Valid()
  {
    var lvalue := fb.NewTempValue(LValue(Bool));
    fb.PushStatement(Assign(lvalue, LocalVarLoad(slot)));
    v := fb.NewTempValue(Bool);
    fb.PushStatement(Assign(v, LValueLoad(lvalue)));
    seg := [Cfg.Stmt(Assign(lvalue, LocalVarLoad(slot))), Cfg.Stmt(Assign(v, LValueLoad(lvalue)))];
  }

  /** Pushes the end of `&&` once the right operand's value `v` is known. */
  method FinishAnd(fb: FunctionBuilder, slot: LocalVarId, v: Value, t: BlockId) returns (result: Value)
    requires fb.Valid() && fb.Allocated(t) && fb.Allocated(t + 2)
    modifies fb`currentTempId, fb`items
    ensures |fb.items| == |old(fb.items)| + 9 && fb.items[..|old(fb.items)|] == old(fb.items)
    ensures AndTail(fb.items[|old(fb.items)|..], slot, t, v, result)
    ensures fb.Valid() && old(fb.currentTempId) <= result.id < fb.currentTempId
  {
    var s1 := StoreOperand(fb, slot, v);
    fb.PushTerminatorLabel(Some(Br(t + 2)), t + 1);
    var s2 := StoreConstant(fb, slot, false);
    fb.PushTerminatorLabel(Some(Br(t + 2)), t + 2);
    ghost var s3;
    result, s3 := LoadSlot(fb, slot);
    ghost var seg := s1 + [Cfg.Marker(Some(Br(t + 2)), t + 1)] + s2 + [Cfg.Marker(Some(Br(t + 2)), t + 2)] + s3;
    assert fb.items == old(fb.items) + seg;
    assert fb.items[|old(fb.items)|..] == seg;
    assert seg[..2] == s1 && seg[3..6] == s2 && seg[7..] == s3;
  }

  /** Pushes the start of block t of `||`. */
  method StartOr(fb: FunctionBuilder, slot: LocalVarId, t: BlockId)
    requires fb.Valid() && fb.Allocated(t) && fb.Allocated(t + 2)
    modifies fb`currentTempId, fb`items
    ensures |fb.items| == |old(fb.items)| + 4 && fb.items[..|old(fb.items)|] == old(fb.items)
    ensures OrHead(fb.items[|old(fb.items)|..], slot, t)
    ensures fb.Valid() && old(fb.currentTempId) <= fb.currentTempId
  {
    var s1 := StoreConstant(fb, slot, true);
    fb.PushTerminatorLabel(Some(Br(t + 2)), t + 1);
    ghost var seg := s1 + [Cfg.Marker(Some(Br(t + 2)), t + 1)];
    assert fb.items == old(fb.items) + seg;
    assert fb.items[|old(fb.items)|..] == seg;
    assert seg[..3] == s1;
  }

  /** Pushes the end of `||` once the right operand's value `v` is known. */
  method FinishOr(fb: FunctionBuilder, slot: LocalVarId, v: Value, t: BlockId) returns (result: Value)
    requires fb.Valid() && fb.Allocated(t) && fb.Allocated(t + 2)
    modifies fb`currentTempId, fb`items
    ensures |fb.items| == |old(fb.items)| + 5 && fb.items[..|old(fb.items)|] == old(fb.items)
    ensures OrTail(fb.items[|old(fb.items)|..], slot, t, v, result)
    ensures fb.Valid() && old(fb.currentTempId) <= result.id < fb.currentTempId
  {
    var s1 := StoreOperand(fb, slot, v);
    fb.PushTerminatorLabel(Some(Br(t + 2)), t + 2);
    ghost var s3;
    result, s3 := LoadSlot(fb, slot);
    ghost var seg := s1 + [Cfg.Marker(Some(Br(t + 2)), t + 2)] + s3;
    assert fb.items == old(fb.items) + seg;
    assert fb.items[|old(fb.items)|..] == seg;
    assert seg[..2] == s1 && seg[3..] == s3;
  }

  /** Allocates the three labels of a short-circuit operator and branches on
      the left operand's value `v`, opening the first of them. */
  method BranchOnLeft(fb: FunctionBuilder, v: Value) returns (t: BlockId)
    requires fb.Valid()
    modifies fb`labelCounter, fb`items
    ensures t == old(fb.labelCounter) && fb.labelCounter == t + 3
    ensures fb.items == old(fb.items) + [Cfg.Marker(Some(BrCond(v, t, t + 1)), t)]
    ensures fb.Valid() && fb.Allocated(t) && fb.Allocated(t + 2)
  {
    var trueLabel := fb.NewLabel();
    var falseLabel := fb.NewLabel();
    var finalLabel := fb.NewLabel();
    fb.PushTerminatorLabel(Some(BrCond(v, trueLabel, falseLabel)), trueLabel);
    t := trueLabel;
  }

  /** What `&&` leaves from index `i` on, once the left operand's value `lv`
      is known: the branch on `lv` into t or t + 1; block t, in which the
      right operand's value `rv` is defined, after the branch and before the
      tail; then the tail that stores `rv` in t, false in t + 1, and reads the
      slot into `result` in t + 2. */
  ghost predicate AndLowered(items: seq<Cfg.Item>, i: nat, slot: LocalVarId, t: BlockId, lv: Value, rv: Value, result: Value)
  {
    && i + 10 <= |items|
    && BranchesOnLeft(items[i], t, lv)
    && DefinedIn(items, i + 1, |items| - 9, rv)
    && AndTail(items[|items| - 9..], slot, t, rv, result)
  }

  /** What `||` leaves from index `i` on: the branch on `lv`, block t storing
      true, then block t + 1, in which the right operand's value `rv` is
      defined before the tail that stores it and reads the slot into
      `result` in t + 2. */
  ghost predicate OrLowered(items: seq<Cfg.Item>, i: nat, slot: LocalVarId, t: BlockId, lv: Value, rv: Value, result: Value)
  {
    && i + 10 <= |items|
    && BranchesOnLeft(items[i], t, lv)
    && OrHead(items[i + 1..i + 5], slot, t)
    && DefinedIn(items, i + 5, |items| - 5, rv)
    && OrTail(items[|items| - 5..], slot, t, rv, result)
  }

  /** `lhs && rhs` with short-circuit evaluation. One fresh boolean slot and
      three fresh labels t, t + 1, t + 2: the left operand's value `lv`,
      defined before index i, branches to t or t + 1; block t evaluates the
      right operand and stores its value `rv` into the slot, block t + 1
      stores false; both jump to t + 2, which reads the slot. */
  method BuildAnd(fb: FunctionBuilder, e: Ast.Expr, o: Tyck.Oracle)
      returns (r: Result<Value>, ghost slot: LocalVarId, ghost t: BlockId, ghost i: nat,
               ghost lv: Value, ghost rv: Value)
    requires e.inner.BinOp? && e.inner.op == Ast.LogicalAnd && fb.Valid()
    modifies fb
    ensures ExprStep(fb)
    ensures r.Ok? ==> old(fb.currentTempId) <= r.value.id < fb.currentTempId
    ensures r.Ok? ==> DefinedIn(fb.items, |old(fb.items)|, |fb.items|, r.value)
    ensures r.Ok? ==>
              && slot == old(fb.localCounter) && slot < |fb.locals| && fb.locals[slot] == LocalVar(slot, Bool, None)
              && old(fb.labelCounter) <= t && t + 2 < fb.labelCounter
              && |old(fb.items)| <= i
              && old(fb.currentTempId) <= lv.id < rv.id < r.value.id
              && DefinedIn(fb.items, |old(fb.items)|, i, lv)
              && AndLowered(fb.items, i, slot, t, lv, rv, r.value)
    decreases e, 0
  {
    var logical := fb.RegisterLocalLogical();
    slot := logical;
    ghost var locals0 := fb.locals;
    assert slot < |locals0| && locals0[slot] == LocalVar(slot, Bool, None);
    ghost var items0 := fb.items;
    var lhs := BuildOperand(fb, e.inner.lhs, o);
    if lhs.Err? {
      return Err(lhs.error), slot, 0, 0, Value(0, Unit), Value(0, Unit);
    }
    var left := lhs.value;
    lv := left;
    ghost var labels1, items1 := fb.labelCounter, fb.items;
    r, t, i, rv := AndRest(fb, e.inner.rhs, o, logical, left);
    assert old(fb.labelCounter) <= labels1 && |old(fb.items)| <= |items1|;
    if r.Ok? {
      DefinedInLonger(items1, fb.items, |items0|, |items1|, |old(fb.items)|, i, lv);
    }
    assert locals0 <= fb.locals && fb.locals[slot] == locals0[slot];
  }

  /** `&&` once the left operand's value `lv` is known: the branch on it is
      the first entry appended. */
  method AndRest(fb: FunctionBuilder, rhsExpr: Ast.Expr, o: Tyck.Oracle, slot: LocalVarId, lv: Value)
      returns (r: Result<Value>, ghost t: BlockId, ghost i: nat, ghost rv: Value)
    requires fb.Valid()
    modifies fb
    ensures ExprStep(fb)
    ensures r.Ok? ==> old(fb.currentTempId) <= r.value.id < fb.currentTempId
    ensures r.Ok? ==> DefinedIn(fb.items, |old(fb.items)|, |fb.items|, r.value)
    ensures r.Ok? ==>
              && old(fb.labelCounter) <= t && t + 2 < fb.labelCounter
              && i == |old(fb.items)|
              && old(fb.currentTempId) <= rv.id < r.value.id
              && AndLowered(fb.items, i, slot, t, lv, rv, r.value)
    decreases rhsExpr, 4
  {
    var trueLabel := BranchOnLeft(fb, lv);
    t := trueLabel;
    i := |fb.items| - 1;
    ghost var items1 := fb.items;
    r, rv := AndRight(fb, rhsExpr, o, slot, trueLabel);
    if r.Ok? {
      assert fb.items[i] == items1[i];
      assert Defines(fb.items[|fb.items| - 1], r.value);
    }
  }

  /** Block t of `&&`: the right operand is lowered and read as a value `rv`,
      defined among the entries appended before the nine-entry tail. */
  method AndRight(fb: FunctionBuilder, rhsExpr: Ast.Expr, o: Tyck.Oracle, slot: LocalVarId, t: BlockId)
      returns (r: Result<Value>, ghost rv: Value)
    requires fb.Valid() && fb.Allocated(t) && fb.Allocated(t + 2)
    modifies fb
    ensures ExprStep(fb)
    ensures r.Ok? ==>
              && old(fb.currentTempId) <= rv.id < r.value.id < fb.currentTempId
              && |old(fb.items)| + 9 <= |fb.items|
              && DefinedIn(fb.items, |old(fb.items)|, |fb.items| - 9, rv)
              && AndTail(fb.items[|fb.items| - 9..], slot, t, rv, r.value)
    decreases rhsExpr, 3
  {
    var rhs := BuildOperand(fb, rhsExpr, o);
    if rhs.Err? {
      return Err(rhs.error), Value(0, Unit);
    }
    var right := rhs.value;
    rv := right;
    ghost var items2 := fb.items;
    var result := FinishAnd(fb, slot, right, t);
    DefinedInLonger(items2, fb.items, |old(fb.items)|, |items2|, |old(fb.items)|, |fb.items| - 9, right);
    r := Ok(result);
  }

  /** `lhs || rhs` with short-circuit evaluation: as for `&&`, but block t
      stores true and block t + 1 evaluates the right operand and stores its
      value `rv`. */
  method BuildOr(fb: FunctionBuilder, e: Ast.Expr, o: Tyck.Oracle)
      returns (r: Result<Value>, ghost slot: LocalVarId, ghost t: BlockId, ghost i: nat,
               ghost lv: Value, ghost rv: Value)
    requires e.inner.BinOp? && e.inner.op == Ast.LogicalOr && fb.Valid()
    modifies fb
    ensures ExprStep(fb)
    ensures r.Ok? ==> old(fb.currentTempId) <= r.value.id < fb.currentTempId
    ensures r.Ok? ==> DefinedIn(fb.items, |old(fb.items)|, |fb.items|, r.value)
    ensures r.Ok? ==>
              && slot == old(fb.localCounter) && slot < |fb.locals| && fb.locals[slot] == LocalVar(slot, Bool, None)
              && old(fb.labelCounter) <= t && t + 2 < fb.labelCounter
              && |old(fb.items)| <= i
              && old(fb.currentTempId) <= lv.id < rv.id < r.value.id
              && DefinedIn(fb.items, |old(fb.items)|, i, lv)
              && OrLowered(fb.items, i, slot, t, lv, rv, r.value)
    decreases e, 0
  {
    var logical := fb.RegisterLocalLogical();
    slot := logical;
    ghost var locals0 := fb.locals;
    assert slot < |locals0| && locals0[slot] == LocalVar(slot, Bool, None);
    ghost var items0 := fb.items;
    var lhs := BuildOperand(fb, e.inner.lhs, o);
    if lhs.Err? {
      return Err(lhs.error), slot, 0, 0, Value(0, Unit), Value(0, Unit);
    }
    var left := lhs.value;
    lv := left;
    ghost var labels1, items1 := fb.labelCounter, fb.items;
    r, t, i, rv := OrRest(fb, e.inner.rhs, o, logical, left);
    assert old(fb.labelCounter) <= labels1 && |old(fb.items)| <= |items1|;
    if r.Ok? {
      DefinedInLonger(items1, fb.items, |items0|, |items1|, |old(fb.items)|, i, lv);
    }
    assert locals0 <= fb.locals && fb.locals[slot] == locals0[slot];
  }

  /** `||` once the left operand's value `lv` is known: the branch on it is
      the first entry appended, followed by block t. */
  method OrRest(fb: FunctionBuilder, rhsExpr: Ast.Expr, o: Tyck.Oracle, slot: LocalVarId, lv: Value)
      returns (r: Result<Value>, ghost t: BlockId, ghost i: nat, ghost rv: Value)
    requires fb.Valid()
    modifies fb
    ensures ExprStep(fb)
    ensures r.Ok? ==> old(fb.currentTempId) <= r.value.id < fb.currentTempId
    ensures r.Ok? ==> DefinedIn(fb.items, |old(fb.items)|, |fb.items|, r.value)
    ensures r.Ok? ==>
              && old(fb.labelCounter) <= t && t + 2 < fb.labelCounter
              && i == |old(fb.items)|
              && old(fb.currentTempId) <= rv.id < r.value.id
              && OrLowered(fb.items, i, slot, t, lv, rv, r.value)
    decreases rhsExpr, 4
  {
    var trueLabel := BranchOnLeft(fb, lv);
    t := trueLabel;
    i := |fb.items| - 1;
    ghost var items0 := fb.items;
    StartOr(fb, slot, trueLabel);
    ghost var items1 := fb.items;
    assert |items1| == |items0| + 4 == i + 5;
    assert items1[i + 1..i + 5] == items1[|items0|..];
    r, rv := OrRight(fb, rhsExpr, o, slot, trueLabel);
    if r.Ok? {
      assert fb.items[i] == items1[i];
      SliceOfPrefix(items1, fb.items, i + 1, i + 5);
      assert Defines(fb.items[|fb.items| - 1], r.value);
    }
  }

  /** Block t + 1 of `||`: the right operand is lowered and read as a value
      `rv`, defined among the entries appended before the five-entry tail. */
  method OrRight(fb: FunctionBuilder, rhsExpr: Ast.Expr, o: Tyck.Oracle, slot: LocalVarId, t: BlockId)
      returns (r: Result<Value>, ghost rv: Value)
    requires fb.Valid() && fb.Allocated(t) && fb.Allocated(t + 2)
    modifies fb
    ensures ExprStep(fb)
    ensures r.Ok? ==>
              && old(fb.currentTempId) <= rv.id < r.value.id < fb.currentTempId
              && |old(fb.items)| + 5 <= |fb.items|
              && DefinedIn(fb.items, |old(fb.items)|, |fb.items| - 5, rv)
              && OrTail(fb.items[|fb.items| - 5..], slot, t, rv, r.value)
    decreases rhsExpr, 3
  {
    var rhs := BuildOperand(fb, rhsExpr, o);
    if rhs.Err? {
      return Err(rhs.error), Value(0, Unit);
    }
    var right := rhs.value;
    rv := right;
    ghost var items2 := fb.items;
    var result := FinishOr(fb, slot, right, t);
    DefinedInLonger(items2, fb.items, |old(fb.items)|, |items2|, |old(fb.items)|, |fb.items| - 5, right);
    r := Ok(result);
  }

  /** A binary operator other than `&&` and `||`: both operands are read as
      values and the oracle decides the operation and the result type. */
  method BuildArith(fb: FunctionBuilder, e: Ast.Expr, o: Tyck.Oracle) returns (r: Result<Value>, ghost marks: seq<nat>)
    requires e.inner.BinOp? && fb.Valid()
    modifies fb
    ensures ExprStep(fb)
    ensures r.Ok? ==> old(fb.currentTempId) <= r.value.id < fb.currentTempId
    ensures r.Ok? ==> DefinedIn(fb.items, |old(fb.items)|, |fb.items|, r.value)
    ensures r.Ok? ==>
              && |fb.items| > 0 && fb.items[|fb.items| - 1].Stmt?
              && var last := fb.items[|fb.items| - 1].stmt;
              && last.Assign? && last.target == r.value && last.rhs.BinOp?
              && o.binop(e.inner.op, last.rhs.left.ty, last.rhs.right.ty) == Some((last.rhs.bop, r.value.ty))
              && Evaluated(fb.items, marks, |old(fb.items)|, |fb.items| - 1, [last.rhs.left, last.rhs.right])
    decreases e, 0
  {
    ghost var items0 := fb.items;
    var lhs, m1 := EvaluateOperand(fb, e.inner.lhs, o, [|items0|], |items0|, []);
    if lhs.Err? {
      return Err(lhs.error), [];
    }
    var lv := lhs.value;
    var rhs, m2 := EvaluateOperand(fb, e.inner.rhs, o, m1, |items0|, [lv]);
    if rhs.Err? {
      return Err(rhs.error), [];
    }
    var rv := rhs.value;
    marks := m2;
    var checked := o.binop(e.inner.op, lv.ty, rv.ty);
    if checked.Some? {
      ghost var items2 := fb.items;
      var v := fb.NewTempValue(checked.value.1);
      fb.PushStatement(Assign(v, BinOp(checked.value.0, lv, rv)));
      assert Defines(fb.items[|fb.items| - 1], v);
      EvaluatedLonger(items2, fb.items, marks, |items0|, |items2|, [lv, rv]);
      r := Ok(v);
    } else {
      r := Err(SyntaxError(OperatorTypeMismatch, e.span));
    }
  }

  /** A unary operator: the operand's value `operand` is read as a value
      except under address-of, which needs its storage location; the oracle
      decides the operation and the result type. */
  method BuildUnary(fb: FunctionBuilder, e: Ast.Expr, o: Tyck.Oracle) returns (r: Result<Value>, ghost operand: Value)
    requires e.inner.UnOp? && fb.Valid()
    modifies fb
    ensures ExprStep(fb)
    ensures r.Ok? ==> old(fb.currentTempId) <= r.value.id < fb.currentTempId
    ensures r.Ok? ==> DefinedIn(fb.items, |old(fb.items)|, |fb.items|, r.value)
    ensures r.Ok? ==>
              && old(fb.currentTempId) <= operand.id < r.value.id
              && |fb.items| > 0 && fb.items[|fb.items| - 1].Stmt?
              && var last := fb.items[|fb.items| - 1].stmt;
              && last.Assign? && last.target == r.value && last.rhs.UnOp?
              && o.unop(e.inner.uop, last.rhs.operand.ty) == Some((last.rhs.uop, r.value.ty))
              && (e.inner.uop == Ast.AddressOf || !operand.ty.LValue? ==> last.rhs.operand == operand)
              && (e.inner.uop != Ast.AddressOf && operand.ty.LValue? ==>
                    last.rhs.operand.ty == operand.ty.stored && last.rhs.operand != operand)
              && old(fb.currentTempId) <= last.rhs.operand.id < r.value.id
              && DefinedIn(fb.items, |old(fb.items)|, |fb.items| - 1, last.rhs.operand)
    decreases e, 0
  {
    var sub := BuildExpression(fb, e.inner.operand, o);
    if sub.Err? {
      return Err(sub.error), Value(0, Unit);
    }
    var sv := sub.value;
    operand := sv;
    if e.inner.uop != Ast.AddressOf {
      ghost var items1 := fb.items;
      sv := BuildLvalueToRvalue(fb, sv);
      RvalueDefined(items1, fb.items, |old(fb.items)|, operand, sv);
    }
    var checked := o.unop(e.inner.uop, sv.ty);
    if checked.Some? {
      ghost var items2 := fb.items;
      var v := fb.NewTempValue(checked.value.1);
      fb.PushStatement(Assign(v, UnOp(checked.value.0, sv)));
      assert Defines(fb.items[|fb.items| - 1], v);
      DefinedInLonger(items2, fb.items, |old(fb.items)|, |items2|, |old(fb.items)|, |items2|, sv);
      r := Ok(v);
    } else {
      r := Err(SyntaxError(OperatorTypeMismatch, e.span));
    }
  }

  /** A call: the callee must have a function type and the argument values'
      types must be exactly its parameter types, in order; the result has its
      return type. */
  method BuildCall(fb: FunctionBuilder, e: Ast.Expr, o: Tyck.Oracle) returns (r: Result<Value>, ghost marks: seq<nat>)
    requires e.inner.FuncCall? && fb.Valid()
    modifies fb
    ensures ExprStep(fb)
    ensures r.Ok? ==> old(fb.currentTempId) <= r.value.id < fb.currentTempId
    ensures r.Ok? ==> DefinedIn(fb.items, |old(fb.items)|, |fb.items|, r.value)
    ensures r.Ok? ==>
              && |fb.items| > 0 && fb.items[|fb.items| - 1].Stmt?
              && var last := fb.items[|fb.items| - 1].stmt;
              && last.Assign? && last.target == r.value && last.rhs.FuncCall?
              && last.rhs.callee.ty.Function?
              && |last.rhs.args| == |e.inner.args|
              && TypesOf(last.rhs.args) == last.rhs.callee.ty.fty.paramsTy
              && r.value.ty == last.rhs.callee.ty.fty.returnTy
              && Evaluated(fb.items, marks, |old(fb.items)|, |fb.items| - 1, [last.rhs.callee] + last.rhs.args)
    decreases e, 0
  {
    ghost var items0 := fb.items;
    var callee, m1 := EvaluateOperand(fb, e.inner.callee, o, [|items0|], |items0|, []);
    if callee.Err? {
      return Err(callee.error), [];
    }
    var fv := callee.value;
    if !fv.ty.Function? {
      return Err(SyntaxError(NotCallable, e.span)), [];
    }
    marks := m1;
    var args := e.inner.args;
    var paramTys: seq<Type> := [];
    var values: seq<Value> := [];
    var i := 0;
    while i < |args|
      invariant 0 <= i <= |args|
      invariant ExprStep(fb)
      invariant |values| == i && paramTys == TypesOf(values)
      invariant Evaluated(fb.items, marks, |items0|, |fb.items|, [fv] + values)
      invariant forall j :: 0 <= j < |[fv] + values| ==> ([fv] + values)[j].id < fb.currentTempId
    {
      assert args[i] in e.inner.args;
      var p, m := EvaluateOperand(fb, args[i], o, marks, |items0|, [fv] + values);
      if p.Err? {
        return Err(p.error), [];
      }
      var pv := p.value;
      assert [fv] + values + [pv] == [fv] + (values + [pv]);
      marks := m;
      paramTys := paramTys + [pv.ty];
      values := values + [pv];
      i := i + 1;
    }
    if paramTys == fv.ty.fty.paramsTy {
      ghost var items1 := fb.items;
      var v := fb.NewTempValue(fv.ty.fty.returnTy);
      fb.PushStatement(Assign(v, FuncCall(fv, values)));
      assert Defines(fb.items[|fb.items| - 1], v);
      EvaluatedLonger(items1, fb.items, marks, |items0|, |items1|, [fv] + values);
      r := Ok(v);
    } else {
      r := Err(SyntaxError(ParamMismatch, e.span));
    }
  }

  /** A cast: the operand is read as a value, the target type must lower, and
      the oracle must accept the conversion. */
  method BuildCast(fb: FunctionBuilder, e: Ast.Expr, o: Tyck.Oracle) returns (r: Result<Value>)
    requires e.inner.Cast? && fb.Valid()
    modifies fb
    ensures ExprStep(fb)
    ensures r.Ok? ==> old(fb.currentTempId) <= r.value.id < fb.currentTempId
    ensures r.Ok? ==> DefinedIn(fb.items, |old(fb.items)|, |fb.items|, r.value)
    ensures r.Ok? ==>
              && BuildType(e.inner.target) == Ok(r.value.ty)
              && |fb.items| > 0 && fb.items[|fb.items| - 1].Stmt?
              && var last := fb.items[|fb.items| - 1].stmt;
              && last.Assign? && last.target == r.value && last.rhs.CastOp?
              && o.cast(last.rhs.source.ty, r.value.ty) == Some(last.rhs.kind)
              && old(fb.currentTempId) <= last.rhs.source.id < r.value.id
              && DefinedIn(fb.items, |old(fb.items)|, |fb.items| - 1, last.rhs.source)
    decreases e, 0
  {
    var sub := BuildOperand(fb, e.inner.operand, o);
    if sub.Err? {
      return Err(sub.error);
    }
    var sv := sub.value;
    var target := BuildType(e.inner.target);
    if target.Err? {
      return Err(target.error);
    }
    var kind := o.cast(sv.ty, target.value);
    if kind.Some? {
      ghost var items1 := fb.items;
      var v := fb.NewTempValue(target.value);
      fb.PushStatement(Assign(v, CastOp(kind.value, sv)));
      assert Defines(fb.items[|fb.items| - 1], v);
      DefinedInLonger(items1, fb.items, |old(fb.items)|, |items1|, |old(fb.items)|, |items1|, sv);
      r := Ok(v);
    } else {
      r := Err(SyntaxError(InvalidCast, e.span));
    }
  }

  /** A name: resolved through the scopes, innermost first, then the globals;
      an unbound name is an error and emits nothing. */
  method BuildIdentifier(fb: FunctionBuilder, e: Ast.Expr) returns (r: Result<Value>)
    requires e.inner.Identifier? && fb.Valid()
    modifies fb
    ensures ExprStep(fb)
    ensures r.Ok? ==> DefinedIn(fb.items, |old(fb.items)|, |fb.items|, r.value)
    ensures var res := Resolve(fb.symbolTable.globals, fb.symbolTable.locals, e.inner.name);
      && (res.None? ==> r == Err(SyntaxError(UndefinedName, e.span)) && fb.items == old(fb.items))
      && (res.Some? ==>
            && r == Ok(Value(old(fb.currentTempId), res.value.0))
            && fb.items == old(fb.items) + [Cfg.Stmt(Assign(r.value, res.value.1))]
            && r.value.id < fb.currentTempId)
    decreases e, 0
  {
    var res := fb.symbolTable.GetVar(e.inner.name);
    if res.Some? {
      var v := fb.NewTempValue(res.value.0);
      fb.PushStatement(Assign(v, res.value.1));
      assert Defines(fb.items[|fb.items| - 1], v);
      r := Ok(v);
    } else {
      r := Err(SyntaxError(UndefinedName, e.span));
    }
  }

  /** A literal: decoded, then defined in a temporary of the literal's type. */
  method BuildLiteralValue(fb: FunctionBuilder, e: Ast.Expr) returns (r: Result<Value>)
    requires e.inner.Literal? && fb.Valid()
    modifies fb
    ensures ExprStep(fb)
    ensures r.Ok? ==> DefinedIn(fb.items, |old(fb.items)|, |fb.items|, r.value)
    ensures var lit := Literals.LiteralSpec(e.inner.lit, e.span);
      && (lit.Err? ==> r == Err(lit.error) && fb.items == old(fb.items))
      && (lit.Ok? ==>
            && r == Ok(Value(old(fb.currentTempId), LiteralType(lit.value)))
            && fb.items == old(fb.items) + [Cfg.Stmt(Assign(r.value, Lit(lit.value)))]
            && r.value.id < fb.currentTempId)
    decreases e, 0
  {
    var lit := Literals.BuildLiteral(e.inner.lit, e.span);
    if lit.Err? {
      return Err(lit.error);
    }
    var v := fb.NewTempValue(LiteralType(lit.value));
    fb.PushStatement(Assign(v, Lit(lit.value)));
    assert Defines(fb.items[|fb.items| - 1], v);
    r := Ok(v);
  }
}

=== FILE: stmts.dfy ===
/** Statement lowering (`build_compound_statement`, `build_statement`): each
    statement appends to the function's buffer, binding names in the
    innermost local scope and opening blocks for loops and conditionals.
    A compound statement brackets its statements with a scope of its own, so
    a successful compound leaves the scope stack as it found it. */
module StmtLowering {
  import opened Ir
  import Ast
  import Cfg
  import opened Symbols
  import opened Builder
  import opened Types
  import Tyck
  import opened ExprLowering

  /** Only the innermost scope of a non-empty scope stack differs. */
  predicate InnermostOnly(before: seq<Scope>, after: seq<Scope>)
  {
    && |before| > 0
    && |after| == |before|
    && after[..|before| - 1] == before[..|before| - 1]
  }

  /** The type a `let` declares: the written type when there is one,
      otherwise the type of the initialiser's value. */
  function LetType(declared: Option<Ast.ParseType>, init: Value): Result<Type>
  {
    if declared.Some? then BuildType(declared.value) else Ok(init.ty)
  }

  /** What a successful `let name = init` leaves behind: `name` is bound to a
      fresh slot `slot` of type `t` in the innermost scope, resolves to that
      slot from now on, and the last two entries write `init` through the
      slot's address. */
  ghost predicate LetBinds(fb: FunctionBuilder, before: seq<Scope>, name: string, t: Type, init: Value, slot: LocalVarId)
    reads fb, fb.symbolTable
  {
    var n := |before| - 1;
    && n >= 0
    && fb.symbolTable.locals == before[..n] + [before[n][name := (slot, t)]]
    && Resolve(fb.symbolTable.globals, fb.symbolTable.locals, name) == Some((LValue(t), LocalVarLoad(slot)))
    && slot < |fb.locals| && fb.locals[slot] == LocalVar(slot, t, None)
    && |fb.items| >= 2
    && var address := fb.items[|fb.items| - 2];
    && address.Stmt? && address.stmt.Assign?
    && address.stmt.rhs == LocalVarLoad(slot) && address.stmt.target.ty == LValue(t)
    && fb.items[|fb.items| - 1] == Cfg.Stmt(LValueSet(address.stmt.target, init))
  }

  /** Lowers a block: its statements in order, inside a scope of their own. */
  method BuildCompound(fb: FunctionBuilder, c: Ast.Compound, o: Tyck.Oracle) returns (r: Result<()>)
    requires fb.Valid()
    modifies fb, fb.symbolTable`locals
    ensures fb.Valid() && Grows(fb)
    ensures r.Ok? ==> fb.symbolTable.locals == old(fb.symbolTable.locals)
    ensures r.Ok? ==> fb.currentLoopInfo == old(fb.currentLoopInfo)
    decreases c, 2
  {
    ghost var outer := fb.symbolTable.locals;
    fb.symbolTable.StartLocalScope();
    var i := 0;
    while i < |c.stmts|
      invariant 0 <= i <= |c.stmts|
      invariant fb.Valid() && Grows(fb)
      invariant fb.currentLoopInfo == old(fb.currentLoopInfo)
      invariant |fb.symbolTable.locals| == |outer| + 1 && fb.symbolTable.locals[..|outer|] == outer
    {
      assert c.stmts[i] in c.stmts;
      ghost var before := fb.symbolTable.locals;
      r := BuildStatement(fb, c.stmts[i], o);
      if r.Err? {
        return;
      }
      assert fb.symbolTable.locals[..|outer|] == before[..|outer|];
      i := i + 1;
    }
    fb.symbolTable.EndLocalScope();
    r := Ok(());
  }

  /** Lowers one statement. On success the loop context is as before, and
      only a `let` changes the scope stack, and then only its innermost scope. */
  method BuildStatement(fb: FunctionBuilder, s: Ast.Stmt, o: Tyck.Oracle) returns (r: Result<()>)
    requires fb.Valid() && |fb.symbolTable.locals| > 0
    modifies fb, fb.symbolTable`locals
    ensures fb.Valid() && Grows(fb)
    ensures r.Ok? ==> fb.currentLoopInfo == old(fb.currentLoopInfo)
    ensures r.Ok? && s.inner.Let? ==> InnermostOnly(old(fb.symbolTable.locals), fb.symbolTable.locals)
    ensures r.Ok? && !s.inner.Let? ==> fb.symbolTable.locals == old(fb.symbolTable.locals)
    decreases s, 1
  {
    match s.inner {
      case Block(body) => r := BuildCompound(fb, body, o);
      case Let(_, _, _) =>
        ghost var init, slot;
        r, init, slot := BuildLet(fb, s, o);
      case Loop(_) =>
        ghost var c;
        r, c := BuildLoop(fb, s, o);
      case While(_, _) =>
        ghost var c, cond, b, k;
        r, c, cond, b, k := BuildWhile(fb, s, o);
      case If(_, _, _) =>
        ghost var end, conds, ats, labels, closes;
        r, end, conds, ats, labels, closes := BuildIf(fb, s, o);
      case Break => r := BuildBreak(fb, s);
      case Continue => r := BuildContinue(fb, s);
      case Return(_) =>
        ghost var v;
        r, v := BuildReturn(fb, s, o);
      case ExprStmt(e) =>
        var value := BuildExpression(fb, e, o);
        r := if value.Err? then Err(value.error) else Ok(());
    }
  }

  /** `let name [: type] = init;`. The initialiser is lowered and read as a
      value (`init`, when that succeeds: a fresh temporary defined by the
      entries appended); the declared type, if written, must
      lower and equal the value's type; and the name must not be bound in the
      innermost scope already. Shadowing a name of an outer scope is allowed. */
  method BuildLet(fb: FunctionBuilder, s: Ast.Stmt, o: Tyck.Oracle)
      returns (r: Result<()>, ghost init: Option<Value>, ghost slot: LocalVarId)
    requires s.inner.Let? && fb.Valid() && |fb.symbolTable.locals| > 0
    modifies fb, fb.symbolTable`locals
    ensures fb.Valid() && Grows(fb) && fb.currentLoopInfo == old(fb.currentLoopInfo)
    ensures init.None? ==> r.Err? && fb.symbolTable.locals == old(fb.symbolTable.locals)
    ensures init.Some? ==>
              && old(fb.currentTempId) <= init.value.id < fb.currentTempId
              && DefinedIn(fb.items, |old(fb.items)|, |fb.items|, init.value)
    ensures init.Some? ==>
              match LetType(s.inner.ty, init.value)
              case Err(e) => r == Err(e)
              case Ok(t) =>
                if t != init.value.ty then r == Err(SyntaxError(LetTypeMismatch, s.span))
                else if s.inner.name in old(fb.symbolTable.locals)[|old(fb.symbolTable.locals)| - 1] then
                  r == Err(SyntaxError(DuplicateDefinition, s.span))
                else r.Ok? && LetBinds(fb, old(fb.symbolTable.locals), s.inner.name, t, init.value, slot)
    ensures r.Ok? ==> InnermostOnly(old(fb.symbolTable.locals), fb.symbolTable.locals)
    decreases s, 0
  {
    var name := s.inner.name;
    var expr := BuildOperand(fb, s.inner.init, o);
    if expr.Err? {
      return Err(expr.error), None, 0;
    }
    var value := expr.value;
    init := Some(value);
    var declared := LetType(s.inner.ty, value);
    if declared.Err? {
      return Err(declared.error), init, 0;
    }
    var t := declared.value;
    if t != value.ty {
      return Err(SyntaxError(LetTypeMismatch, s.span)), init, 0;
    }
    ghost var items1 := fb.items;
    r, slot := BindLet(fb, name, t, value, s.span);
    DefinedInLonger(items1, fb.items, |old(fb.items)|, |items1|, |old(fb.items)|, |fb.items|, value);
  }

  /** The binding half of `let`: a fresh slot of type `t` for `name` in the
      innermost scope, unless the name is bound there already, then the
      initial value `init` written through the slot's address. */
  method BindLet(fb: FunctionBuilder, name: string, t: Type, init: Value, span: Span)
      returns (r: Result<()>, ghost slot: LocalVarId)
    requires fb.Valid() && |fb.symbolTable.locals| > 0
    modifies fb`locals, fb`localCounter, fb`items, fb`currentTempId, fb.symbolTable`locals
    ensures fb.Valid() && Grows(fb)
    ensures name in old(fb.symbolTable.locals)[|old(fb.symbolTable.locals)| - 1] ==>
              r == Err(SyntaxError(DuplicateDefinition, span))
    ensures name !in old(fb.symbolTable.locals)[|old(fb.symbolTable.locals)| - 1] ==>
              r.Ok? && LetBinds(fb, old(fb.symbolTable.locals), name, t, init, slot)
    ensures r.Ok? ==> InnermostOnly(old(fb.symbolTable.locals), fb.symbolTable.locals)
  {
    ghost var before := fb.symbolTable.locals;
    var newSlot := fb.localCounter;
    slot := newSlot;
    var isNew := fb.RegisterLocalVariable(name, t);
    if !isNew {
      return Err(SyntaxError(DuplicateDefinition, span)), slot;
    }
    ghost var n := |before| - 1;
    assert fb.symbolTable.locals[n] == before[n][name := (newSlot, t)];
    ResolveInnermost(fb.symbolTable.globals, fb.symbolTable.locals, name, n);
    var hit := fb.symbolTable.GetVar(name);
    var address := fb.NewTempValue(LValue(t));
    fb.PushStatement(Assign(address, hit.value.1));
    fb.PushStatement(LValueSet(address, init));
    r := Ok(());
  }

  /** A condition of `while` or `if`: lowered and read as a value (`value`,
      when that succeeds: a fresh temporary defined by the entries appended),
      which must be a bool; a non-bool condition is
      blamed on its own span. */
  method BuildCondition(fb: FunctionBuilder, cond: Ast.Expr, o: Tyck.Oracle)
      returns (r: Result<Value>, ghost value: Option<Value>)
    requires fb.Valid()
    modifies fb
    ensures ExprStep(fb)
    ensures value.None? ==> r.Err?
    ensures value.Some? ==>
              && old(fb.currentTempId) <= value.value.id < fb.currentTempId
              && DefinedIn(fb.items, |old(fb.items)|, |fb.items|, value.value)
    ensures value.Some? ==> (r.Ok? <==> value.value.ty == Bool)
    ensures value.Some? && r.Ok? ==> r.value == value.value
    ensures value.Some? && r.Err? ==> r.error == SyntaxError(NonBoolCondition, cond.span)
    decreases cond, 3
  {
    var condition := BuildOperand(fb, cond, o);
    if condition.Err? {
      return Err(condition.error), None;
    }
    var v := condition.value;
    value := Some(v);
    if v.ty == Bool {
      r := Ok(v);
    } else {
      r := Err(SyntaxError(NonBoolCondition, cond.span));
    }
  }

  /** The body of `loop` or `while` with `continueLabel` and `breakLabel` as
      the loop context, followed by the jump back to `continueLabel` that opens block
      `breakLabel`; the enclosing loop context is restored. */
  method BuildLoopBody(fb: FunctionBuilder, body: Ast.Compound, o: Tyck.Oracle, continueLabel: BlockId, breakLabel: BlockId)
      returns (r: Result<()>)
    requires fb.Valid() && fb.Allocated(continueLabel) && fb.Allocated(breakLabel)
    modifies fb, fb.symbolTable`locals
    ensures fb.Valid() && Grows(fb)
    ensures r.Ok? ==>
              && fb.currentLoopInfo == old(fb.currentLoopInfo)
              && fb.symbolTable.locals == old(fb.symbolTable.locals)
              && |fb.items| > 0 && fb.items[|fb.items| - 1] == Cfg.Marker(Some(Br(continueLabel)), breakLabel)
    decreases body, 3
  {
    var saved := fb.currentLoopInfo;
    fb.currentLoopInfo := Some((continueLabel, breakLabel));
    r := BuildCompound(fb, body, o);
    if r.Err? {
      return;
    }
    fb.currentLoopInfo := saved;
    fb.PushTerminatorLabel(Some(Br(continueLabel)), breakLabel);
  }

  /** `loop { body }`: block c (the continue label, handed out first) holds
      the body, whose `break` goes to c + 1; the body's end jumps back to c
      and opens block c + 1. */
  method BuildLoop(fb: FunctionBuilder, s: Ast.Stmt, o: Tyck.Oracle) returns (r: Result<()>, ghost c: BlockId)
    requires s.inner.Loop? && fb.Valid()
    modifies fb, fb.symbolTable`locals
    ensures fb.Valid() && Grows(fb)
    ensures c == old(fb.labelCounter) && |old(fb.items)| < |fb.items|
    ensures fb.items[|old(fb.items)|] == Cfg.Marker(None, c)
    ensures r.Ok? ==>
              && fb.currentLoopInfo == old(fb.currentLoopInfo)
              && fb.symbolTable.locals == old(fb.symbolTable.locals)
              && c + 1 < fb.labelCounter
              && fb.items[|fb.items| - 1] == Cfg.Marker(Some(Br(c)), c + 1)
    decreases s, 0
  {
    var continueLabel := fb.NewLabel();
    c := continueLabel;
    fb.PushTerminatorLabel(None, continueLabel);
    var breakLabel := fb.NewLabel();
    ghost var items1 := fb.items;
    r := BuildLoopBody(fb, s.inner.body, o, continueLabel, breakLabel);
    assert fb.items[|old(fb.items)|] == items1[|old(fb.items)|];
  }

  /** `while cond { body }`: block c re-evaluates the condition, which must be
      a bool (`cond` is its value, when its lowering succeeds); a conditional
      branch at index k goes to the body's block b or past the loop, to
      b + 1, which is also where `break` goes, while `continue` and the
      body's end go back to c. The condition is lowered in a scope of its own. */
  method BuildWhile(fb: FunctionBuilder, s: Ast.Stmt, o: Tyck.Oracle)
      returns (r: Result<()>, ghost c: BlockId, ghost cond: Option<Value>, ghost b: BlockId, ghost k: nat)
    requires s.inner.While? && fb.Valid()
    modifies fb, fb.symbolTable`locals
    ensures fb.Valid() && Grows(fb)
    ensures c == old(fb.labelCounter) && |old(fb.items)| < |fb.items|
    ensures fb.items[|old(fb.items)|] == Cfg.Marker(None, c)
    ensures cond.None? ==> r.Err?
    ensures cond.Some? ==>
              && old(fb.currentTempId) <= cond.value.id < fb.currentTempId
              && DefinedIn(fb.items, |old(fb.items)| + 1, |fb.items|, cond.value)
    ensures cond.Some? && cond.value.ty != Bool ==> r == Err(SyntaxError(NonBoolCondition, s.inner.cond.span))
    ensures r.Ok? ==>
              && cond.Some? && cond.value.ty == Bool
              && fb.currentLoopInfo == old(fb.currentLoopInfo)
              && fb.symbolTable.locals == old(fb.symbolTable.locals)
              && c < b && b + 1 < fb.labelCounter
              && |old(fb.items)| < k < |fb.items| - 1
              && DefinedIn(fb.items, |old(fb.items)| + 1, k, cond.value)
              && fb.items[k] == Cfg.Marker(Some(BrCond(cond.value, b, b + 1)), b)
              && fb.items[|fb.items| - 1] == Cfg.Marker(Some(Br(c)), b + 1)
    decreases s, 0
  {
    var continueLabel := fb.NewLabel();
    c := continueLabel;
    fb.PushTerminatorLabel(None, continueLabel);
    ghost var items0 := fb.items;
    r, cond, b, k := WhileRest(fb, s, o, continueLabel);
    assert fb.items[|old(fb.items)|] == items0[|old(fb.items)|];
    assert |items0| == |old(fb.items)| + 1;
  }

  /** A `while` once its continue block c is open: the condition in a scope
      of its own, the branch into the body block b or the break block b + 1,
      then the body, which ends by jumping back to c. */
  method WhileRest(fb: FunctionBuilder, s: Ast.Stmt, o: Tyck.Oracle, c: BlockId)
      returns (r: Result<()>, ghost cond: Option<Value>, ghost b: BlockId, ghost k: nat)
    requires s.inner.While? && fb.Valid() && fb.Allocated(c)
    modifies fb, fb.symbolTable`locals
    ensures fb.Valid() && Grows(fb)
    ensures cond.None? ==> r.Err?
    ensures cond.Some? ==>
              && old(fb.currentTempId) <= cond.value.id < fb.currentTempId
              && DefinedIn(fb.items, |old(fb.items)|, |fb.items|, cond.value)
    ensures cond.Some? && cond.value.ty != Bool ==> r == Err(SyntaxError(NonBoolCondition, s.inner.cond.span))
    ensures r.Ok? ==>
              && cond.Some? && cond.value.ty == Bool
              && fb.currentLoopInfo == old(fb.currentLoopInfo)
              && fb.symbolTable.locals == old(fb.symbolTable.locals)
              && old(fb.labelCounter) <= b && b + 1 < fb.labelCounter
              && |old(fb.items)| <= k < |fb.items| - 1
              && DefinedIn(fb.items, |old(fb.items)|, k, cond.value)
              && fb.items[k] == Cfg.Marker(Some(BrCond(cond.value, b, b + 1)), b)
              && fb.items[|fb.items| - 1] == Cfg.Marker(Some(Br(c)), b + 1)
    decreases s.inner, 1
  {
    fb.symbolTable.StartLocalScope();
    var condition;
    condition, cond := BuildCondition(fb, s.inner.cond, o);
    if condition.Err? {
      return Err(condition.error), cond, 0, 0;
    }
    ghost var items0 := fb.items;
    k := |items0|;
    r, b := LoopOnCondition(fb, s.inner.body, o, c, condition.value);
    DefinedInLonger(items0, fb.items, |old(fb.items)|, |items0|, |old(fb.items)|, |fb.items|, cond.value);
    if r.Err? {
      return;
    }
    DefinedInLonger(items0, fb.items, |old(fb.items)|, |items0|, |old(fb.items)|, k, cond.value);
    fb.symbolTable.EndLocalScope();
  }

  /** The loop of a `while` once its condition's value `v` is known: the
      conditional branch on `v` into the fresh body block b or the break
      block b + 1 is the first entry appended, then the body, whose end
      jumps back to c and opens b + 1. */
  method LoopOnCondition(fb: FunctionBuilder, body: Ast.Compound, o: Tyck.Oracle, c: BlockId, v: Value)
      returns (r: Result<()>, ghost b: BlockId)
    requires fb.Valid() && fb.Allocated(c)
    modifies fb, fb.symbolTable`locals
    ensures fb.Valid() && Grows(fb)
    ensures r.Ok? ==>
              && fb.currentLoopInfo == old(fb.currentLoopInfo)
              && fb.symbolTable.locals == old(fb.symbolTable.locals)
              && old(fb.labelCounter) <= b && b + 1 < fb.labelCounter
              && |old(fb.items)| < |fb.items| - 1
              && fb.items[|old(fb.items)|] == Cfg.Marker(Some(BrCond(v, b, b + 1)), b)
              && fb.items[|fb.items| - 1] == Cfg.Marker(Some(Br(c)), b + 1)
    decreases body, 4
  {
    var bodyLabel := fb.NewLabel();
    var breakLabel := fb.NewLabel();
    b := bodyLabel;
    fb.PushTerminatorLabel(Some(BrCond(v, bodyLabel, breakLabel)), bodyLabel);
    ghost var items1 := fb.items;
    r := BuildLoopBody(fb, body, o, c, breakLabel);
    if r.Ok? {
      assert fb.items[|old(fb.items)|] == items1[|old(fb.items)|];
    }
  }

  /** The branches of an `if`, in order: the first, then each `else if`. */
  function Branches(s: Ast.Stmt): seq<Ast.Branch>
    requires s.inner.If?
  {
    [s.inner.ifBranch] + s.inner.elseIfs
  }

  /** One `cond { body }` branch of an `if`: at index k, a conditional
      branch on the condition's value into the body's fresh block l or to the
      fresh else block l + 1, then the body, then the jump to `endLabel` that
      opens the else block. */
  method BuildBranch(fb: FunctionBuilder, branch: Ast.Branch, o: Tyck.Oracle, endLabel: BlockId)
      returns (r: Result<()>, ghost cond: Option<Value>, ghost l: BlockId, ghost k: nat)
    requires fb.Valid() && fb.Allocated(endLabel)
    modifies fb, fb.symbolTable`locals
    ensures fb.Valid() && Grows(fb)
    ensures cond.None? ==> r.Err?
    ensures cond.Some? ==>
              && old(fb.currentTempId) <= cond.value.id < fb.currentTempId
              && DefinedIn(fb.items, |old(fb.items)|, |fb.items|, cond.value)
    ensures cond.Some? && cond.value.ty != Bool ==> r == Err(SyntaxError(NonBoolCondition, branch.cond.span))
    ensures r.Ok? ==>
              && cond.Some? && cond.value.ty == Bool
              && fb.currentLoopInfo == old(fb.currentLoopInfo)
              && fb.symbolTable.locals == old(fb.symbolTable.locals)
              && old(fb.labelCounter) <= l && l + 1 < fb.labelCounter
              && |old(fb.items)| <= k < |fb.items| - 1
              && DefinedIn(fb.items, |old(fb.items)|, k, cond.value)
              && fb.items[k] == Cfg.Marker(Some(BrCond(cond.value, l, l + 1)), l)
              && fb.items[|fb.items| - 1] == Cfg.Marker(Some(Br(endLabel)), l + 1)
    decreases branch, 3
  {
    var condition;
    condition, cond := BuildCondition(fb, branch.cond, o);
    if condition.Err? {
      return Err(condition.error), cond, 0, 0;
    }
    ghost var items0 := fb.items;
    k := |items0|;
    r, l := BranchOn(fb, branch.body, o, condition.value, endLabel);
    DefinedInLonger(items0, fb.items, |old(fb.items)|, |items0|, |old(fb.items)|, |fb.items|, cond.value);
    if r.Ok? {
      DefinedInLonger(items0, fb.items, |old(fb.items)|, |items0|, |old(fb.items)|, k, cond.value);
    }
  }

  /** A branch of an `if` once its condition's value `v` is known: the
      conditional branch on `v` into the fresh block l or the else block
      l + 1 is the first entry appended, then the body, then the jump to
      `endLabel` that opens l + 1. */
  method BranchOn(fb: FunctionBuilder, body: Ast.Compound, o: Tyck.Oracle, v: Value, endLabel: BlockId)
      returns (r: Result<()>, ghost l: BlockId)
    requires fb.Valid() && fb.Allocated(endLabel)
    modifies fb, fb.symbolTable`locals
    ensures fb.Valid() && Grows(fb)
    ensures r.Ok? ==>
              && fb.currentLoopInfo == old(fb.currentLoopInfo)
              && fb.symbolTable.locals == old(fb.symbolTable.locals)
              && old(fb.labelCounter) <= l && l + 1 < fb.labelCounter
              && |old(fb.items)| < |fb.items| - 1
              && fb.items[|old(fb.items)|] == Cfg.Marker(Some(BrCond(v, l, l + 1)), l)
              && fb.items[|fb.items| - 1] == Cfg.Marker(Some(Br(endLabel)), l + 1)
    decreases body, 3
  {
    var ifLabel := fb.NewLabel();
    var elseLabel := fb.NewLabel();
    l := ifLabel;
    fb.PushTerminatorLabel(Some(BrCond(v, ifLabel, elseLabel)), ifLabel);
    ghost var items1 := fb.items;
    r := BuildCompound(fb, body, o);
    if r.Err? {
      return;
    }
    fb.PushTerminatorLabel(Some(Br(endLabel)), elseLabel);
    assert fb.items[|old(fb.items)|] == items1[|old(fb.items)|];
  }

  /** A branch of an `if`, lowered from index `lo` on: `cond` is defined
      there before the conditional branch on it at index `at` into block l
      or its else block l + 1, and the body's jump to `endLabel` at index
      `close` opens l + 1. */
  ghost predicate BranchLowered(items: seq<Cfg.Item>, lo: nat, at: nat, close: nat, cond: Value, l: BlockId, endLabel: BlockId)
  {
    && lo <= at < close < |items|
    && DefinedIn(items, lo, at, cond)
    && items[at] == Cfg.Marker(Some(BrCond(cond, l, l + 1)), l)
    && items[close] == Cfg.Marker(Some(Br(endLabel)), l + 1)
  }

  /** Branch j of an `if`, lowered right after the previous branch's jump
      to the end, that is, in the previous branch's else block; the first
      branch from `lo` on. */
  ghost predicate BranchAt(items: seq<Cfg.Item>, lo: nat, conds: seq<Value>, ats: seq<nat>, labels: seq<BlockId>,
                           closes: seq<nat>, endLabel: BlockId, j: nat)
  {
    && j < |conds| && j < |ats| && j < |labels| && j < |closes|
    && BranchLowered(items, if j == 0 then lo else closes[j - 1] + 1, ats[j], closes[j], conds[j], labels[j], endLabel)
  }

  /** A lowered branch stays lowered when the buffer grows. */
  lemma BranchAtLonger(short: seq<Cfg.Item>, long: seq<Cfg.Item>, lo: nat, conds: seq<Value>, ats: seq<nat>,
                       labels: seq<BlockId>, closes: seq<nat>, endLabel: BlockId, j: nat)
    requires BranchAt(short, lo, conds, ats, labels, closes, endLabel, j) && short <= long
    ensures BranchAt(long, lo, conds, ats, labels, closes, endLabel, j)
  {
    var start := if j == 0 then lo else closes[j - 1] + 1;
    DefinedInLonger(short, long, start, ats[j], start, ats[j], conds[j]);
    assert long[ats[j]] == short[ats[j]] && long[closes[j]] == short[closes[j]];
  }

  /** One more branch lowered right after the last one extends the lowered
      branches. */
  lemma BranchesExtend(items0: seq<Cfg.Item>, items: seq<Cfg.Item>, lo: nat, conds: seq<Value>, ats: seq<nat>,
                       labels: seq<BlockId>, closes: seq<nat>, endLabel: BlockId, cond: Value, l: BlockId, k: nat,
                       conds': seq<Value>, ats': seq<nat>, labels': seq<BlockId>, closes': seq<nat>)
    requires |conds| == |ats| == |labels| == |closes|
    requires forall i :: 0 <= i < |closes| ==> BranchAt(items0, lo, conds, ats, labels, closes, endLabel, i)
    requires items0 <= items && |items| > 0
    requires |items0| == if |closes| == 0 then lo else closes[|closes| - 1] + 1
    requires BranchLowered(items, |items0|, k, |items| - 1, cond, l, endLabel)
    requires conds' == conds + [cond] && ats' == ats + [k] && labels' == labels + [l] && closes' == closes + [|items| - 1]
    ensures forall i :: 0 <= i < |closes'| ==> BranchAt(items, lo, conds', ats', labels', closes', endLabel, i)
  {
    forall i | 0 <= i < |closes'|
      ensures BranchAt(items, lo, conds', ats', labels', closes', endLabel, i)
    {
      if i < |closes| {
        assert BranchAt(items0, lo, conds, ats, labels, closes, endLabel, i);
        assert conds'[i] == conds[i] && ats'[i] == ats[i] && labels'[i] == labels[i] && closes'[i] == closes[i];
        assert i > 0 ==> closes'[i - 1] == closes[i - 1];
        BranchAtLonger(items0, items, lo, conds', ats', labels', closes', endLabel, i);
      } else {
        assert i > 0 ==> closes'[i - 1] == closes[i - 1];
      }
    }
  }

  /** The `cond { body }` branches of an `if`, in order, each ending with a
      jump to `endLabel`: `conds` holds the condition values lowered; branch
      j branches on `conds[j]` at `ats[j]` into block `labels[j]` or its
      else block, where the next branch's condition is evaluated, and jumps
      to `endLabel` at `closes[j]`. */
  method BuildBranches(fb: FunctionBuilder, s: Ast.Stmt, o: Tyck.Oracle, endLabel: BlockId)
      returns (r: Result<()>, ghost conds: seq<Value>, ghost ats: seq<nat>, ghost labels: seq<BlockId>, ghost closes: seq<nat>)
    requires s.inner.If? && fb.Valid() && fb.Allocated(endLabel)
    modifies fb, fb.symbolTable`locals
    ensures fb.Valid() && Grows(fb)
    ensures |conds| <= |Branches(s)| && forall j :: 0 <= j < |conds| - 1 ==> conds[j].ty == Bool
    ensures |conds| > 0 && conds[|conds| - 1].ty != Bool ==>
              && r == Err(SyntaxError(NonBoolCondition, Branches(s)[|conds| - 1].cond.span))
              && DefinedIn(fb.items, |old(fb.items)|, |fb.items|, conds[|conds| - 1])
    ensures r.Ok? ==>
              && |conds| == |Branches(s)| && (forall j :: 0 <= j < |conds| ==> conds[j].ty == Bool)
              && |ats| == |labels| == |closes| == |conds|
              && (forall j :: 0 <= j < |closes| ==>
                    BranchAt(fb.items, |old(fb.items)|, conds, ats, labels, closes, endLabel, j))
              && (forall j :: 0 < j < |closes| ==> closes[j - 1] < ats[j])
              && fb.currentLoopInfo == old(fb.currentLoopInfo)
              && fb.symbolTable.locals == old(fb.symbolTable.locals)
    decreases s.inner, 1
  {
    var branches := Branches(s);
    conds, ats, labels, closes := [], [], [], [];
    var j := 0;
    while j < |branches|
      invariant 0 <= j <= |branches|
      invariant fb.Valid() && Grows(fb) && fb.Allocated(endLabel)
      invariant fb.currentLoopInfo == old(fb.currentLoopInfo)
      invariant fb.symbolTable.locals == old(fb.symbolTable.locals)
      invariant |conds| == j && forall i :: 0 <= i < j ==> conds[i].ty == Bool
      invariant |ats| == |labels| == |closes| == j
      invariant |fb.items| == if j == 0 then |old(fb.items)| else closes[j - 1] + 1
      invariant forall i :: 0 <= i < j ==>
                  BranchAt(fb.items, |old(fb.items)|, conds, ats, labels, closes, endLabel, i)
    {
      var branch := branches[j];
      assert branch == s.inner.ifBranch || branch in s.inner.elseIfs;
      ghost var items0 := fb.items;
      ghost var cond, l, k;
      r, cond, l, k := BuildBranch(fb, branch, o, endLabel);
      if r.Err? {
        if cond.Some? {
          conds := conds + [cond.value];
          DefinedInLonger(fb.items, fb.items, |items0|, |fb.items|, |old(fb.items)|, |fb.items|, cond.value);
        }
        return r, conds, ats, labels, closes;
      }
      assert BranchLowered(fb.items, |items0|, k, |fb.items| - 1, cond.value, l, endLabel);
      ghost var conds0, ats0, labels0, closes0 := conds, ats, labels, closes;
      conds, ats, labels, closes := conds + [cond.value], ats + [k], labels + [l], closes + [|fb.items| - 1];
      BranchesExtend(items0, fb.items, |old(fb.items)|, conds0, ats0, labels0, closes0, endLabel, cond.value, l, k,
                     conds, ats, labels, closes);
      j := j + 1;
    }
    forall i | 0 < i < |closes|
      ensures closes[i - 1] < ats[i]
    {
      assert BranchAt(fb.items, |old(fb.items)|, conds, ats, labels, closes, endLabel, i);
    }
    r := Ok(());
  }

  /** `if c0 { b0 } else if c1 { b1 } ... else { e }`: every condition must
      be a bool (`conds` holds the values of those lowered, in order); branch
      j branches on `conds[j]` (entry `ats[j]`) into block `labels[j]` or its
      else block, and its body ends with a jump to the label `end` handed out
      first (entry `closes[j]`); the `else` body falls through into block
      `end`, which is opened last. The branches are lowered in a scope of
      their own. */
  method BuildIf(fb: FunctionBuilder, s: Ast.Stmt, o: Tyck.Oracle)
      returns (r: Result<()>, ghost end: BlockId, ghost conds: seq<Value>, ghost ats: seq<nat>,
               ghost labels: seq<BlockId>, ghost closes: seq<nat>)
    requires s.inner.If? && fb.Valid()
    modifies fb, fb.symbolTable`locals
    ensures fb.Valid() && Grows(fb)
    ensures end == old(fb.labelCounter)
    ensures |conds| <= |Branches(s)| && forall j :: 0 <= j < |conds| - 1 ==> conds[j].ty == Bool
    ensures |conds| > 0 && conds[|conds| - 1].ty != Bool ==>
              && r == Err(SyntaxError(NonBoolCondition, Branches(s)[|conds| - 1].cond.span))
              && DefinedIn(fb.items, |old(fb.items)|, |fb.items|, conds[|conds| - 1])
    ensures r.Ok? ==>
              && |conds| == |Branches(s)| && (forall j :: 0 <= j < |conds| ==> conds[j].ty == Bool)
              && |ats| == |labels| == |closes| == |conds|
              && (forall j :: 0 <= j < |closes| ==>
                    BranchAt(fb.items, |old(fb.items)|, conds, ats, labels, closes, end, j))
              && (forall j :: 0 < j < |closes| ==> closes[j - 1] < ats[j])
              && |fb.items| > 0 && fb.items[|fb.items| - 1] == Cfg.Marker(None, end)
              && fb.currentLoopInfo == old(fb.currentLoopInfo)
              && fb.symbolTable.locals == old(fb.symbolTable.locals)
    decreases s, 0
  {
    var endLabel := fb.NewLabel();
    end := endLabel;
    fb.symbolTable.StartLocalScope();
    r, conds, ats, labels, closes := BuildBranches(fb, s, o, endLabel);
    if r.Err? {
      return r, end, conds, ats, labels, closes;
    }
    ghost var items1 := fb.items;
    r := FinishIf(fb, s, o, endLabel);
    if r.Err? {
      return r, end, conds, ats, labels, closes;
    }
    forall i | 0 <= i < |closes|
      ensures BranchAt(fb.items, |old(fb.items)|, conds, ats, labels, closes, end, i)
    {
      BranchAtLonger(items1, fb.items, |old(fb.items)|, conds, ats, labels, closes, end, i);
    }
  }

  /** The end of an `if` whose branches lowered: the `else` body, if any,
      then block `endLabel` opened by falling through, and the branches'
      scope closed. */
  method FinishIf(fb: FunctionBuilder, s: Ast.Stmt, o: Tyck.Oracle, endLabel: BlockId)
      returns (r: Result<()>)
    requires s.inner.If? && fb.Valid() && fb.Allocated(endLabel)
    modifies fb, fb.symbolTable`locals
    ensures fb.Valid() && Grows(fb)
    ensures r.Ok? ==>
              && |fb.items| > 0 && fb.items[|fb.items| - 1] == Cfg.Marker(None, endLabel)
              && fb.currentLoopInfo == old(fb.currentLoopInfo)
              && fb.symbolTable.locals == (if |old(fb.symbolTable.locals)| == 0 then []
                                           else old(fb.symbolTable.locals)[..|old(fb.symbolTable.locals)| - 1])
    decreases s.inner, 1
  {
    if s.inner.elseBranch.Some? {
      r := BuildCompound(fb, s.inner.elseBranch.value, o);
      if r.Err? {
        return;
      }
    }
    fb.PushTerminatorLabel(None, endLabel);
    fb.symbolTable.EndLocalScope();
    r := Ok(());
  }

  /** `break;` jumps to the innermost loop's break label and opens a fresh
      block; outside any loop it is rejected and nothing is emitted. */
  method BuildBreak(fb: FunctionBuilder, s: Ast.Stmt) returns (r: Result<()>)
    requires s.inner.Break? && fb.Valid()
    modifies fb`items, fb`labelCounter
    ensures fb.Valid() && Grows(fb)
    ensures r.Err? <==> old(fb.currentLoopInfo).None?
    ensures r.Err? ==> r.error == SyntaxError(BreakOutsideLoop, s.span) && fb.items == old(fb.items)
    ensures r.Ok? ==>
              fb.items == old(fb.items) + [Cfg.Marker(Some(Br(fb.currentLoopInfo.value.1)), old(fb.labelCounter))]
  {
    if fb.currentLoopInfo.Some? {
      fb.PushTerminator(Some(Br(fb.currentLoopInfo.value.1)));
      r := Ok(());
    } else {
      r := Err(SyntaxError(BreakOutsideLoop, s.span));
    }
  }

  /** `continue;` jumps to the innermost loop's continue label and opens a
      fresh block; outside any loop it is rejected and nothing is emitted. */
  method BuildContinue(fb: FunctionBuilder, s: Ast.Stmt) returns (r: Result<()>)
    requires s.inner.Continue? && fb.Valid()
    modifies fb`items, fb`labelCounter
    ensures fb.Valid() && Grows(fb)
    ensures r.Err? <==> old(fb.currentLoopInfo).None?
    ensures r.Err? ==> r.error == SyntaxError(ContinueOutsideLoop, s.span) && fb.items == old(fb.items)
    ensures r.Ok? ==>
              fb.items == old(fb.items) + [Cfg.Marker(Some(Br(fb.currentLoopInfo.value.0)), old(fb.labelCounter))]
  {
    if fb.currentLoopInfo.Some? {
      fb.PushTerminator(Some(Br(fb.currentLoopInfo.value.0)));
      r := Ok(());
    } else {
      r := Err(SyntaxError(ContinueOutsideLoop, s.span));
    }
  }

  /** `return [value];`: the returned value (`v`, when its lowering succeeds,
      a fresh temporary defined by the entries appended; a fresh unit
      temporary when there is no expression) must have exactly
      the function's return type, and then the block ends with `Ret(v)` and
      a fresh block is opened. A mismatch blames the expression, or the whole
      statement when there is none. */
  method BuildReturn(fb: FunctionBuilder, s: Ast.Stmt, o: Tyck.Oracle) returns (r: Result<()>, ghost v: Option<Value>)
    requires s.inner.Return? && fb.Valid()
    modifies fb
    ensures ExprStep(fb)
    ensures s.inner.value.None? ==>
              && v == Some(Value(old(fb.currentTempId), Unit))
              && |old(fb.items)| < |fb.items|
              && fb.items[|old(fb.items)|] == Cfg.Stmt(Assign(v.value, Lit(UnitLit)))
    ensures v.None? ==> r.Err?
    ensures v.Some? ==>
              && old(fb.currentTempId) <= v.value.id < fb.currentTempId
              && DefinedIn(fb.items, |old(fb.items)|, |fb.items|, v.value)
    ensures v.Some? ==> (r.Ok? <==> v.value.ty == fb.ty.returnTy)
    ensures v.Some? && r.Err? ==>
              r.error == SyntaxError(ReturnTypeMismatch,
                                     if s.inner.value.Some? then s.inner.value.value.span else s.span)
    ensures r.Ok? ==> |fb.items| > 0 && fb.items[|fb.items| - 1] == Cfg.Marker(Some(Ret(v.value)), fb.labelCounter - 1)
    decreases s, 0
  {
    var value: Value;
    var errorSpan: Span;
    if s.inner.value.Some? {
      errorSpan := s.inner.value.value.span;
      var result := BuildOperand(fb, s.inner.value.value, o);
      if result.Err? {
        return Err(result.error), None;
      }
      value := result.value;
    } else {
      errorSpan := s.span;
      value := fb.NewTempValue(Unit);
      fb.PushStatement(Assign(value, Lit(UnitLit)));
      assert Defines(fb.items[|fb.items| - 1], value);
    }
    v := Some(value);
    if value.ty == fb.ty.returnTy {
      ghost var items1 := fb.items;
      fb.PushTerminator(Some(Ret(value)));
      DefinedInLonger(items1, fb.items, |old(fb.items)|, |items1|, |old(fb.items)|, |fb.items|, value);
      r := Ok(());
    } else {
      r := Err(SyntaxError(ReturnTypeMismatch, errorSpan));
    }
  }
}

=== FILE: symbols.dfy ===
/** Scoped name resolution (`SymbolTable`): one global scope mapping function
    names to their types, and a stack of local scopes mapping variable names to
    their stack slot and declared type. */
module Symbols {
  import opened Ir

  /** One local scope: name |-> (slot id, declared type). */
  type Scope = map<string, (LocalVarId, Type)>

  /** What `get_var` answers, as a function of the table's contents: the
      innermost local scope binding `name` wins and yields a storage location;
      otherwise a global binding yields its value directly. */
  function Resolve(globals: map<string, Type>, scopes: seq<Scope>, name: string): Option<(Type, Expression)>
    decreases |scopes|
  {
    if |scopes| == 0 then
      if name in globals then Some((globals[name], GlobalLoad(name))) else None
    else if name in scopes[|scopes| - 1] then
      var binding := scopes[|scopes| - 1][name];
      Some((LValue(binding.1), LocalVarLoad(binding.0)))
    else
      Resolve(globals, scopes[..|scopes| - 1], name)
  }

  /** A name bound in some local scope resolves to its binding in the innermost
      such scope, whatever outer scopes or the globals say (shadowing). */
  lemma {:induction false} ResolveInnermost(globals: map<string, Type>, scopes: seq<Scope>, name: string, k: nat)
    requires k < |scopes| && name in scopes[k]
    requires forall j :: k < j < |scopes| ==> name !in scopes[j]
    ensures Resolve(globals, scopes, name) == Some((LValue(scopes[k][name].1), LocalVarLoad(scopes[k][name].0)))
    decreases |scopes|
  {
    if k < |scopes| - 1 {
      var outer := scopes[..|scopes| - 1];
      ResolveInnermost(globals, outer, name, k);
    }
  }

  /** A name that no local scope binds resolves through the globals, or not at all. */
  lemma {:induction false} ResolveFallsBackToGlobals(globals: map<string, Type>, scopes: seq<Scope>, name: string)
    requires forall j :: 0 <= j < |scopes| ==> name !in scopes[j]
    ensures Resolve(globals, scopes, name) ==
            (if name in globals then Some((globals[name], GlobalLoad(name))) else None)
    decreases |scopes|
  {
    if |scopes| > 0 {
      ResolveFallsBackToGlobals(globals, scopes[..|scopes| - 1], name);
    }
  }

  /** A local hit is always a storage location of the bound type, and a global
      hit is always the global's own type: the two cases never mix. */
  lemma {:induction false} ResolveKinds(globals: map<string, Type>, scopes: seq<Scope>, name: string)
    ensures match Resolve(globals, scopes, name)
            case None => name !in globals && forall j :: 0 <= j < |scopes| ==> name !in scopes[j]
            case Some(hit) =>
              || (hit.1.LocalVarLoad? &&
                  (exists j :: 0 <= j < |scopes| && name in scopes[j] &&
                     hit == (LValue(scopes[j][name].1), LocalVarLoad(scopes[j][name].0))))
              || (hit.1 == GlobalLoad(name) && name in globals && hit.0 == globals[name])
    decreases |scopes|
  {
    if |scopes| > 0 {
      var n := |scopes| - 1;
      if name !in scopes[n] {
        ResolveKinds(globals, scopes[..n], name);
        var r := Resolve(globals, scopes[..n], name);
        if r.Some? && r.value.1.LocalVarLoad? {
          var j :| 0 <= j < n && name in scopes[..n][j] &&
                   r.value == (LValue(scopes[..n][j][name].1), LocalVarLoad(scopes[..n][j][name].0));
          assert scopes[..n][j] == scopes[j];
        }
      }
    }
  }

  class SymbolTable {
    var globals: map<string, Type>
    var locals: seq<Scope>

    constructor ()
      ensures globals == map[] && locals == []
    {
      globals := map[];
      locals := [];
    }

    method StartLocalScope()
      modifies this`locals
      ensures locals == old(locals) + [map[]]
    {
      locals := locals + [map[]];
    }

    /** Popping with no scope open leaves the stack empty, as `Vec::pop` does. */
    method EndLocalScope()
      modifies this`locals
      ensures locals == if |old(locals)| == 0 then [] else old(locals)[..|old(locals)| - 1]
    {
      if |locals| > 0 {
        locals := locals[..|locals| - 1];
      }
    }

    /** Binds `name` in the innermost scope. The answer is false exactly when the
        innermost scope already bound it (outer scopes do not matter), and the
        new binding replaces the old one either way. */
    method RegisterLocal(name: string, ty: Type, id: LocalVarId) returns (isNew: bool)
      requires |locals| > 0
      modifies this`locals
      ensures |locals| == |old(locals)|
      ensures isNew == (name !in old(locals)[|locals| - 1])
      ensures locals == old(locals)[..|locals| - 1] + [old(locals)[|locals| - 1][name := (id, ty)]]
    {
      var n := |locals| - 1;
      isNew := name !in locals[n];
      locals := locals[..n] + [locals[n][name := (id, ty)]];
    }

    /** Binds a global name. The answer is false exactly when it was already
        global, and the new binding replaces the old one either way. */
    method RegisterGlobal(name: string, ty: Type) returns (isNew: bool)
      modifies this`globals
      ensures isNew == (name !in old(globals))
      ensures globals == old(globals)[name := ty]
    {
      isNew := name !in globals;
      globals := globals[name := ty];
    }

    /** Searches the local scopes innermost first, then the globals. */
    method GetVar(name: string) returns (r: Option<(Type, Expression)>)
      ensures r == Resolve(globals, locals, name)
    {
      var i := |locals|;
      assert locals[..i] == locals;
      while i > 0
        invariant 0 <= i <= |locals|
        invariant Resolve(globals, locals, name) == Resolve(globals, locals[..i], name)
      {
        i := i - 1;
        assert locals[..i + 1][..i] == locals[..i];
        if name in locals[i] {
          var binding := locals[i][name];
          return Some((LValue(binding.1), LocalVarLoad(binding.0)));
        }
      }
      if name in globals {
        r := Some((globals[name], GlobalLoad(name)));
      } else {
        r := None;
      }
    }
  }
}

=== FILE: tyck.dfy ===
/** The type-check oracle (`ir::tyck`) that decides operator and cast
    legality. Its rules are not part of this model: the lowering receives them
    as three arbitrary total functions, and everything proved about the
    lowering holds for every choice of them. */
module Tyck {
  import opened Ir
  import Ast

  datatype Oracle = Oracle(
    binop: (Ast.BinOpCode, Type, Type) -> Option<(BinOperator, Type)>,
    unop: (Ast.UnOpCode, Type) -> Option<(UnOperator, Type)>,
    cast: (Type, Type) -> Option<CastKind>)
}

=== FILE: types.dfy ===
/** Type lowering (`build_type`): parsed types map structurally onto IR
    types, with the four primitive type names as the only accepted leaves. */
module Types {
  import opened Ir
  import Ast

  /** The four type names the lowering recognises. */
  function PrimitiveNamed(name: string): Option<Type>
  {
    if name == "int" then Some(Int)
    else if name == "double" then Some(Double)
    else if name == "bool" then Some(Bool)
    else if name == "char" then Some(Char)
    else None
  }

  /** The innermost component of a parsed type: the unit type or a name. */
  function Leaf(p: Ast.ParseType): Ast.ParseType
  {
    match p.kind
    case ArrayTy(sub, _) => Leaf(sub)
    case PtrTy(sub) => Leaf(sub)
    case _ => p
  }

  /** The types a program can write down: the primitives and unit, under any
      number of pointer and array constructors. */
  predicate Writable(t: Type)
  {
    match t
    case Unit => true
    case Int => true
    case Double => true
    case Bool => true
    case Char => true
    case Ptr(p) => Writable(p)
    case Array(e, _) => Writable(e)
    case _ => false
  }

  /** Lowers a parsed type. It fails exactly when the innermost component is a
      name other than the four recognised ones, and then blames that
      component's span; what it produces is always a type a program can write. */
  function BuildType(p: Ast.ParseType): (r: Result<Type>)
    ensures r.Ok? <==> (Leaf(p).kind.UnitTy? || (Leaf(p).kind.LitTy? && PrimitiveNamed(Leaf(p).kind.name).Some?))
    ensures r.Err? ==> r.error == SyntaxError(UnrecognizedType, Leaf(p).span)
    ensures r.Ok? ==> Writable(r.value) && NoLValue(r.value)
  {
    match p.kind
    case UnitTy => Ok(Unit)
    case ArrayTy(sub, size) =>
      var s := BuildType(sub);
      if s.Err? then s else Ok(Array(s.value, size))
    case PtrTy(sub) =>
      var s := BuildType(sub);
      if s.Err? then s else Ok(Ptr(s.value))
    case LitTy(name) =>
      var t := PrimitiveNamed(name);
      if t.None? then Err(SyntaxError(UnrecognizedType, p.span)) else Ok(t.value)
  }

  /** Writes a type back as source syntax. */
  function Unparse(t: Type, span: Span): Ast.ParseType
    requires Writable(t)
  {
    match t
    case Unit => Ast.ParseType(Ast.UnitTy, span)
    case Int => Ast.ParseType(Ast.LitTy("int"), span)
    case Double => Ast.ParseType(Ast.LitTy("double"), span)
    case Bool => Ast.ParseType(Ast.LitTy("bool"), span)
    case Char => Ast.ParseType(Ast.LitTy("char"), span)
    case Ptr(p) => Ast.ParseType(Ast.PtrTy(Unparse(p, span)), span)
    case Array(e, n) => Ast.ParseType(Ast.ArrayTy(Unparse(e, span), n), span)
  }

  /** Every writable type is produced by lowering its own syntax. */
  lemma {:induction false} BuildUnparse(t: Type, span: Span)
    requires Writable(t)
    ensures BuildType(Unparse(t, span)) == Ok(t)
  {
    match t
    case Ptr(p) => BuildUnparse(p, span);
    case Array(e, _) => BuildUnparse(e, span);
    case _ =>
  }
}
